=== FILE: README.md ===
# java-kanban in Dafny

A model of the in-memory core of the java-kanban task tracker, with proofs about it.

The tracker keeps three kinds of work item:
- **tasks**;
- **epics**, which group subtasks;
- **subtasks**, each of which names its epic.

All three kinds draw their ids from one counter. The manager also keeps two side structures:
- a **prioritized index** of the tasks and subtasks that have a start time, ordered by start and then by id;
- a **history** of the last ten items fetched with `get*`.

An epic's status and time window are derived from its subtasks. A file-backed variant writes the three maps as one CSV line per item and reads them back.

The model is functional. Each entity is an immutable value of one datatype, `Tasks.Item`, with one constructor per Java class. The manager is a record value (`TaskManager.State`), and every operation returns the next state. An operation that throws in Java returns `Err` together with the state Java leaves behind after the throw. Times are whole minutes.

Modules, in dependency order:

| file | module | what it holds |
|---|---|---|
| wrappers.dfy | `Wrappers` | `Option` and `Result` |
| tasks.dfy | `Tasks` | entities, id-only equality and `hashCode`, constructors, setters, an epic's subtask-id list |
| history.dfy | `History` | `InMemoryHistoryManager`: append, cap at ten, evict by id |
| schedule.dfy | `Schedule` | the `TreeSet` comparator, `lower`/`higher`/`add`/`remove`, and the neighbour-only overlap check |
| epics.dfy | `Epics` | `getEpicSubtasks`, and the epic status and time-window rules |
| manager.dfy | `TaskManager` | `InMemoryTaskManager`: add, get, update, delete and clear for every kind |
| manager_facts.dfy | `ManagerFacts` | the consistency invariant `Valid` and its preservation by every operation; exactness of the overlap check; behaviour the code has that a reader might not expect |
| file_text.dfy | `FileText` | the file as text: `save` ends each line with "\n", and `readLine` ends a line at "\n", "\r" or "\r\n" |
| csv.dfy | `Csv` | `toString(Task)` and `fromString`, with `Integer.parseInt`, `valueOf` and `split(",", 6)` |
| snapshot.dfy | `Snapshot` | `save` and `loadFromFile` over a list of lines, and the save-then-load round trip |

`TaskManager.Valid` is the invariant the manager keeps:
- every entity is stored under its own id, in the map of its kind;
- no id is used twice, and the counter is past every id;
- the index is strictly ordered and holds exactly the stored tasks and subtasks that have a start;
- the history has at most ten entries and names only stored ids.

The overlap check consults only the two neighbours of a candidate. It is exact under `ManagerFacts.ScheduleSound`: every indexed item has a positive duration and no two indexed items overlap.

## Model

| member | source | states |
|---|---|---|
| Tasks.TypeOf | src/model/Subtask.java:15-18 | each kind reports its own type, and a subtask always reports SUBTASK |
| Tasks.EndTime | src/manager/InMemoryTaskManager.java:306-311 | a task's or subtask's end exists exactly when start and duration both exist, and end minus start is the duration; an epic reports the end stored on it |
| Tasks.HashCode | src/model/Task.java:76-79 | the hash is a 32-bit int, and it is 31 + id when that does not overflow |
| Tasks.SameTask | src/model/Task.java:68-79 | every item equals itself, and equal items hash alike |
| Tasks.SameTaskByIdOnly | src/model/Task.java:68-79 | two items with the same id are equal both ways and hash alike, whatever their other fields |
| Tasks.SameTaskIsEquivalence | src/model/Task.java:68-74 | id-equality is reflexive, symmetric and transitive |
| Tasks.NewTask | src/model/Task.java:12-17 | a new task has type TASK, id 0, the given name, description and status, and no time window |
| Tasks.NewSubtask | src/model/Subtask.java:6-9 | a new subtask has type SUBTASK, id 0, the given epic id, name, description and status |
| Tasks.NewEpic | src/Epic.java:5-9 | a new epic is NEW and lists no subtasks |
| Tasks.SetName | src/model/Task.java:47-49 | the name changes, and putting the old name back gives the original item, so nothing else changed |
| Tasks.SetDescription | src/model/Task.java:51-53 | the description changes and nothing else does |
| Tasks.SetStatus | src/model/Task.java:55-57 | the status changes and nothing else does |
| Tasks.SetId | src/model/Task.java:59-61 | the id changes and nothing else does, the type included |
| Tasks.EpicIdSurvivesSetters | src/model/Subtask.java:4-13 | no setter changes a subtask's epic id or its SUBTASK type |
| Tasks.RemoveFirst | src/Epic.java:19-21 | removal by value drops exactly the first occurrence and keeps the rest in order; an absent id leaves the list unchanged |
| Tasks.RemoveFirstMultiset | src/Epic.java:19-21 | removal takes exactly one copy of the id out of the multiset of ids, so a present id shortens the list by one |
| Tasks.AddSubtaskId | src/Epic.java:15-17 | the id is appended after the existing list, and nothing else changes |
| Tasks.RemoveSubtaskId | src/Epic.java:19-21 | exactly one copy of the id leaves the epic's list, nothing else changes, and an unlisted id leaves the epic as it was |
| Tasks.RemoveUndoesAdd | src/Epic.java:15-21 | adding an id the epic does not list and then removing it gives the epic back |
| History.Add | src/manager/InMemoryHistoryManager.java:12-18 | `null` changes nothing; otherwise the item becomes the last entry, and the result is the old list plus the item minus at most its oldest entry |
| History.AddKeepsLimit | src/manager/InMemoryHistoryManager.java:9-17 | the history never exceeds ten entries, and below the limit `add` is a plain append |
| History.AddOnlyAppends | src/manager/InMemoryHistoryManager.java:14 | `add` brings in no entry other than the item added |
| History.AddIsRecent | src/manager/InMemoryHistoryManager.java:12-18 | one `add` gives the ten most recent entries of the extended list |
| History.AddAllKeepsRecentWindow | src/manager/InMemoryHistoryManager.java:12-18 | after any run of `add` calls, the history is the ten most recent of the old entries followed by the new ones, in call order |
| History.HistoryIsCallOrder | test/manager/InMemoryHistoryManagerTest.java:73-83 | three items added in turn are listed in call order |
| History.Remove | src/manager/InMemoryTaskManager.java:152 | an entry survives exactly when its id differs, nothing is added, and an absent id changes nothing |
| History.RemoveOne | src/manager/InMemoryTaskManager.java:152 | a single entry is kept exactly when its id differs |
| History.RemoveConcat | src/manager/InMemoryTaskManager.java:152 | the survivors of two halves keep the halves' order, so with `RemoveOne` removal is the order-preserving filter |
| History.RemoveKeepsCopies | src/manager/InMemoryTaskManager.java:152 | an entry with another id keeps its number of copies |
| History.RemoveAll | src/manager/InMemoryTaskManager.java:185 | an entry survives exactly when its id is outside the set, and a set that names no entry changes nothing |
| History.RemoveAllOne | src/manager/InMemoryTaskManager.java:185 | a single entry is kept exactly when its id is outside the set |
| History.RemoveAllConcat | src/manager/InMemoryTaskManager.java:185 | set eviction keeps the survivors' order across two halves |
| History.RemoveAllKeepsCopies | src/manager/InMemoryTaskManager.java:185 | an entry whose id is outside the set keeps its number of copies |
| History.RemoveThenRemoveAll | src/manager/InMemoryTaskManager.java:185 | evicting ids one at a time is the same as evicting the whole set |
| History.EvictFirst | src/manager/InMemoryTaskManager.java:159-163 | evicting a list's first id and then the rest is evicting all of its ids |
| History.RemoveAllThenRemove | src/manager/InMemoryTaskManager.java:159-165 | evicting a set and then one more id is evicting the larger set |
| Schedule.BeforeIsStrictOrder | src/manager/InMemoryTaskManager.java:19-23 | ordering by start (`null` last) and then by id is a strict total order on (start, id) keys |
| Schedule.Lower | src/manager/InMemoryTaskManager.java:317 | the result is the greatest indexed entry strictly before the candidate, or none when no entry is before it |
| Schedule.Higher | src/manager/InMemoryTaskManager.java:318 | the result is the least indexed entry strictly after the candidate, or none when no entry is after it |
| Schedule.Insert | src/manager/InMemoryTaskManager.java:289-293 | the index stays ordered; the candidate is added at its rank unless an entry with its key is already there, in which case nothing changes |
| Schedule.Remove | src/manager/InMemoryTaskManager.java:295-299 | exactly the entry with the candidate's key leaves, and the index stays ordered |
| Schedule.RemoveAll | src/manager/InMemoryTaskManager.java:186-188 | `TreeSet.removeAll(c)` keeps only index entries, keeps every entry whose id is not in `c`, leaves no entry with the comparator key of a member of `c`, and keeps the index ordered |
| Schedule.RemoveEach | src/manager/InMemoryTaskManager.java:197-199 | removing the members of `c` one at a time by comparator key keeps exactly the entries whose key matches none of them, in order |
| Schedule.RemoveEachAnyOrder | src/manager/InMemoryTaskManager.java:197-199 | when the index is larger than `c`, `removeAll` is the one-at-a-time removal, in whatever order the hash set yields its members |
| Schedule.RemoveAllAgrees | src/manager/InMemoryTaskManager.java:209-211 | when every member of `c` has the start of the index entry with its id, both strategies remove exactly the entries whose id is in `c` |
| Schedule.StrategyDecides | src/manager/InMemoryTaskManager.java:209-211 | with a stale entry, the same `c` leaves it in a larger index and removes it from an index no larger than `c` |
| Schedule.RemoveThenInsert | src/manager/InMemoryTaskManager.java:107-117 | taking an indexed entry out and putting it back restores the index exactly |
| Schedule.OrderedSameElements | src/manager/InMemoryTaskManager.java:19-23 | two ordered indexes with the same entries are the same sequence |
| Schedule.Overlaps | src/manager/InMemoryTaskManager.java:301-312 | two items overlap only when both have a start and a duration, and a task whose window ends where another's starts does not overlap it |
| Schedule.HasOverlap | src/manager/InMemoryTaskManager.java:314-322 | a rejected candidate has a start and a duration, and some indexed item with another id overlaps it |
| Schedule.OverlapFacts | src/manager/InMemoryTaskManager.java:301-312 | overlap is symmetric, touching windows do not overlap, and an item without a start or a duration overlaps nothing |
| Schedule.NeighbourCheckExact | src/manager/InMemoryTaskManager.java:314-322 | when the index holds positive, pairwise disjoint windows, checking the two neighbours finds a conflict exactly when some indexed item conflicts |
| Schedule.NeighbourConflictIsConflict | src/manager/InMemoryTaskManager.java:314-322 | a conflict found at a neighbour is a real conflict with another item |
| Schedule.ConflictReachesNeighbour | src/manager/InMemoryTaskManager.java:314-322 | on a sound index, any conflicting item makes one of the two neighbours conflict |
| Schedule.InsertKeepsDisjoint | src/manager/InMemoryTaskManager.java:324-329 | admitting a positive window that passed the check keeps the index ordered, positive and pairwise disjoint |
| Schedule.SubsetKeepsDisjoint | src/manager/InMemoryTaskManager.java:186-188 | removing entries keeps a positive, disjoint index positive and disjoint |
| Schedule.UntimedNeighbourHidesOverlap | src/manager/InMemoryTaskManager.java:301-321 | an indexed item with a start but no duration can sit between two overlapping windows and hide the conflict |
| Schedule.ZeroNeighbourHidesOverlap | src/manager/InMemoryTaskManager.java:301-321 | a zero-length window can hide a conflict in the same way |
| Epics.Resolve | src/manager/InMemoryTaskManager.java:222-229 | the result has no more entries than there are listed ids, and every entry is a stored subtask |
| Epics.ResolveContents | src/manager/InMemoryTaskManager.java:222-229 | the result holds exactly the stored subtasks of the listed ids |
| Epics.ResolveOne | src/manager/InMemoryTaskManager.java:222-229 | one listed id gives its stored subtask, or nothing when none is stored |
| Epics.ResolveConcat | src/manager/InMemoryTaskManager.java:222-229 | the lookups of two parts of the list follow each other in list order, so with `ResolveOne` the result is one entry per stored listed id, in list order |
| Epics.ResolveRepeats | src/manager/InMemoryTaskManager.java:222-229 | an id listed twice gives its subtask twice, so it counts twice in the epic's duration |
| Epics.DeriveStatus | src/manager/InMemoryTaskManager.java:241-255 | NEW exactly when every subtask is NEW (no subtasks included); DONE exactly when there is at least one subtask and all are DONE; IN_PROGRESS exactly when some subtask is not NEW and some is not DONE |
| Epics.StatusTable | test/manager/TaskManagerTest.java:65-103 | no subtasks give NEW, one subtask gives its own status, and two give their common status or IN_PROGRESS |
| Epics.EarliestStart | src/manager/InMemoryTaskManager.java:266-270 | none exactly when no subtask has a start; otherwise a start some subtask has, at or before every other start |
| Epics.LatestEnd | src/manager/InMemoryTaskManager.java:272-276 | none exactly when no subtask has an end; otherwise an end some subtask has, at or after every other end |
| Epics.TotalMinutesIsSum | src/manager/InMemoryTaskManager.java:278-282 | the total adds up over concatenation, and one subtask contributes its duration or nothing |
| Epics.UnscheduledDurationCounts | src/manager/InMemoryTaskManager.java:278-282 | a subtask with a duration but no start adds to the total but gives no start and no end |
| Epics.DeriveWindow | src/manager/InMemoryTaskManager.java:257-287 | no subtasks give no start, zero minutes and no end; otherwise the minutes are the subtasks' total; the start is some subtask's start and at or before every start, the end is some subtask's end and at or after every end, and each is absent exactly when no subtask has one |
| Epics.WithWindow | src/manager/InMemoryTaskManager.java:284-286 | the window fields are set and nothing else on the epic changes |
| TaskManager.Empty | src/manager/InMemoryTaskManager.java:12-27 | a new manager has empty maps, index and history, and its counter at 1 |
| TaskManager.EpicSubtasks | src/manager/InMemoryTaskManager.java:222-229 | an unknown epic gives an empty list; for a stored epic every stored listed subtask is returned, nothing else is, and there are no more entries than listed ids (order and copies through `Epics.ResolveConcat`) |
| TaskManager.IndexAdd | src/manager/InMemoryTaskManager.java:289-293 | an item without a start leaves the index as it was, and an ordered index stays ordered |
| TaskManager.IndexRemove | src/manager/InMemoryTaskManager.java:295-299 | an item without a start leaves the index as it was, and an ordered index stays ordered |
| TaskManager.RemoveStored | src/manager/InMemoryTaskManager.java:186-188 | only index entries remain, in order; when the index agrees with the store, exactly the entries whose id the store holds leave |
| TaskManager.RefreshStatus | src/manager/InMemoryTaskManager.java:241-255 | only the named epic's status changes, to the derived one |
| TaskManager.RefreshWindow | src/manager/InMemoryTaskManager.java:257-287 | only the named epic's window changes, to the derived one |
| TaskManager.Refresh | src/manager/InMemoryTaskManager.java:62-63 | afterwards the epic's status and window are both derived from its subtasks, and every other epic and every other field is as before |
| TaskManager.AddTask | src/manager/InMemoryTaskManager.java:34-40 | the counter always advances; on success the task is stored under the old counter value, which is returned; on a conflict only the counter changed |
| TaskManager.AddEpic | src/manager/InMemoryTaskManager.java:43-48 | the epic is stored under a fresh id with its given status and a derived window; no other epic, task, subtask, the index or the history changes |
| TaskManager.AddSubtask | src/manager/InMemoryTaskManager.java:51-65 | an unknown epic fails before an id is taken and changes nothing; a conflict only advances the counter; success stores and links the subtask, leaves its epic's id, name and description as they were and its status and window derived, and leaves every other epic unchanged |
| TaskManager.Get | src/manager/InMemoryTaskManager.java:68-86 | a found item is returned and appended to the history; a missing one returns nothing and changes nothing |
| TaskManager.GetTask | src/manager/InMemoryTaskManager.java:68-72 | a task is found exactly when stored; a hit records it in the history, a miss changes nothing |
| TaskManager.GetEpic | src/manager/InMemoryTaskManager.java:75-79 | an epic is found exactly when stored; a hit records it in the history, a miss changes nothing |
| TaskManager.GetSubtask | src/manager/InMemoryTaskManager.java:82-86 | a subtask is found exactly when stored; a hit records it in the history, a miss changes nothing |
| TaskManager.UpdateTask | src/manager/InMemoryTaskManager.java:104-118 | an unknown id is a no-op; a conflict puts the old entry back into the index; success replaces only that task |
| TaskManager.UpdateEpic | src/manager/InMemoryTaskManager.java:121-126 | an unknown id is a no-op; otherwise the epic, subtask list included, is replaced, its status and window are derived, and every other epic is unchanged |
| TaskManager.UpdateSubtask | src/manager/InMemoryTaskManager.java:129-146 | as for tasks; success re-derives the named epic's window, keeps its id, name, description and list, leaves every epic status as it was and every other epic unchanged; an unknown epic fails, yet the new value stays stored |
| TaskManager.DeleteTask | src/manager/InMemoryTaskManager.java:149-153 | the id leaves the task map and the history (via `History.Remove`); the other maps and the counter are unchanged; an absent id leaves the index as it was, and a stored task's index entry leaves (via `ManagerFacts.DeleteTaskValid`) |
| TaskManager.DropSubtask | src/manager/InMemoryTaskManager.java:159-163 | the id leaves the subtask map and the history, and the other maps are untouched |
| TaskManager.Cascade | src/manager/InMemoryTaskManager.java:159-163 | exactly the listed ids leave the subtask map, the remaining subtasks are unchanged, and a history entry survives exactly when its id is not listed |
| TaskManager.CascadeHistory | src/manager/InMemoryTaskManager.java:159-163 | the history after the cascade is exactly the set eviction of the listed ids, so survivors keep their order and copies |
| TaskManager.DeleteEpic | src/manager/InMemoryTaskManager.java:156-166 | an unknown id changes nothing; otherwise the epic and every subtask it lists leave the maps, and the history is exactly the set eviction of those ids |
| TaskManager.DeleteSubtask | src/manager/InMemoryTaskManager.java:169-181 | the subtask goes; its stored epic loses one copy of its id, keeps its name and description, and has its status and window derived again; every other epic is unchanged |
| TaskManager.ClearAllTasks | src/manager/InMemoryTaskManager.java:184-190 | no task is left and no other map changes; exactly the task ids leave the history; when the index agrees with the task map, exactly the task ids leave the index |
| TaskManager.ClearAllEpics | src/manager/InMemoryTaskManager.java:193-203 | no epic or subtask is left and the tasks stay; their ids leave the history; when the index agrees with the subtask map, exactly the subtask ids leave the index |
| TaskManager.ResetEpic | src/manager/InMemoryTaskManager.java:213-217 | the epic keeps its identity, lists nothing, and gets the status and window of an epic without subtasks |
| TaskManager.ClearAllSubtasks | src/manager/InMemoryTaskManager.java:206-219 | no subtask is left; every epic is its old self reset (`ResetEpic`): empty, NEW and derived, with id, name and description kept; the subtask ids leave the history; when the index agrees with the subtask map, exactly the subtask ids leave the index |
| ManagerFacts.IndexIds | src/manager/InMemoryTaskManager.java:19-23 | in a consistent manager, indexed entries are told apart by id, each has a start, and each id is stored and below the counter |
| ManagerFacts.IndexRemoveStored | src/manager/InMemoryTaskManager.java:295-299 | taking a stored item out of the index removes exactly the entry with its id |
| ManagerFacts.IndexAddFresh | src/manager/InMemoryTaskManager.java:289-293 | adding an item whose id is not indexed adds exactly that item, when it has a start |
| ManagerFacts.IndexRestored | src/manager/InMemoryTaskManager.java:114-116 | the catch block's re-insert of the old entry restores the index exactly |
| ManagerFacts.EmptyValid | src/manager/InMemoryTaskManager.java:12-27 | a new manager is consistent |
| ManagerFacts.AddTaskValid | src/manager/InMemoryTaskManager.java:34-40 | `addTask` keeps the manager consistent, and a returned id is new |
| ManagerFacts.AddEpicValid | src/manager/InMemoryTaskManager.java:43-48 | `addEpic` keeps the manager consistent, and the returned id is new |
| ManagerFacts.AddSubtaskValid | src/manager/InMemoryTaskManager.java:51-65 | `addSubtask` keeps the manager consistent, and a returned id is new |
| ManagerFacts.SubtaskIdDiffersFromEpic | src/manager/InMemoryTaskManager.java:51-64 | a new subtask's id is never its epic's id |
| ManagerFacts.RefreshValid | src/manager/InMemoryTaskManager.java:241-287 | recomputing an epic keeps the manager consistent |
| ManagerFacts.GetValid | src/manager/InMemoryTaskManager.java:68-86 | every `get*` keeps the manager consistent, the ten-entry limit included |
| ManagerFacts.HistoryOnly | src/manager/InMemoryHistoryManager.java:9-17 | any history within the limit that names only stored ids keeps the manager consistent |
| ManagerFacts.UpdateTaskValid | src/manager/InMemoryTaskManager.java:104-118 | `updateTask` keeps the manager consistent, and a rejected update leaves the manager exactly as it was |
| ManagerFacts.UpdateEpicValid | src/manager/InMemoryTaskManager.java:121-126 | `updateEpic` keeps the manager consistent |
| ManagerFacts.UpdateSubtaskValid | src/manager/InMemoryTaskManager.java:129-146 | `updateSubtask` keeps the manager consistent unless the new value names a missing epic; an overlap rejection leaves the manager exactly as it was |
| ManagerFacts.DeleteTaskValid | src/manager/InMemoryTaskManager.java:149-153 | `deleteTask` keeps the manager consistent, and no history entry with that id is left |
| ManagerFacts.DropSubtaskValid | src/manager/InMemoryTaskManager.java:159-163 | one cascade step keeps the store and index consistent and removes only that subtask id from the stored ids |
| ManagerFacts.CascadeValid | src/manager/InMemoryTaskManager.java:159-163 | the whole cascade keeps the store and index consistent |
| ManagerFacts.CascadeKeys | src/manager/InMemoryTaskManager.java:159-163 | the cascade removes exactly the listed ids that name stored subtasks |
| ManagerFacts.DeleteEpicValid | src/manager/InMemoryTaskManager.java:156-166 | `deleteEpic` keeps the manager consistent |
| ManagerFacts.DeleteSubtaskValid | src/manager/InMemoryTaskManager.java:169-181 | `deleteSubtask` keeps the manager consistent |
| ManagerFacts.ClearAllTasksValid | src/manager/InMemoryTaskManager.java:184-190 | `clearAllTasks` keeps the manager consistent |
| ManagerFacts.ClearAllEpicsValid | src/manager/InMemoryTaskManager.java:193-203 | `clearAllEpics` keeps the manager consistent |
| ManagerFacts.ClearAllSubtasksValid | src/manager/InMemoryTaskManager.java:206-219 | `clearAllSubtasks` keeps the manager consistent |
| ManagerFacts.PrioritizedView | src/manager/InMemoryTaskManager.java:236-239 | the prioritized list holds only stored tasks and subtasks that have a start, never an epic, in ascending start order with ties by id |
| ManagerFacts.UnscheduledNeverConflicts | src/manager/InMemoryTaskManager.java:314-315 | a candidate without a start conflicts with nothing and is not indexed |
| ManagerFacts.AdmitExact | src/manager/InMemoryTaskManager.java:314-329 | on a sound index, the neighbour check rejects exactly the candidates that overlap an indexed item, and admitting one keeps the index sound |
| ManagerFacts.AddTaskSchedule | src/manager/InMemoryTaskManager.java:34-40 | on a sound schedule, `addTask` fails exactly when some indexed item overlaps the task, and the schedule stays sound |
| ManagerFacts.AddSubtaskSchedule | src/manager/InMemoryTaskManager.java:51-65 | the same for `addSubtask` when its epic is stored |
| ManagerFacts.ConflictsIgnoreOwnEntry | src/manager/InMemoryTaskManager.java:320-321 | the item with the candidate's own id never counts as a conflict, so whether it is indexed makes no difference |
| ManagerFacts.UpdateTaskSchedule | src/manager/InMemoryTaskManager.java:104-118 | on a sound schedule, `updateTask` fails exactly when an item with another id overlaps the new value, and the schedule stays sound |
| ManagerFacts.UpdateSubtaskSchedule | src/manager/InMemoryTaskManager.java:129-146 | the same for `updateSubtask` when the epic its new value names is stored |
| ManagerFacts.DeletesKeepSchedule | src/manager/InMemoryTaskManager.java:149-181 | every delete keeps a sound schedule sound |
| ManagerFacts.ClearsKeepSchedule | src/manager/InMemoryTaskManager.java:184-219 | every clear keeps a sound schedule sound |
| ManagerFacts.IdsAdvanceOnRejection | src/manager/InMemoryTaskManager.java:34-36 | a rejected `addTask` still uses up an id, so the next add gets the id after it |
| ManagerFacts.EarlierStartListedFirst | test/http/HttpTaskServerPrioritizedTest.java:38-58 | two tasks added later-start first are listed earlier-start first |
| ManagerFacts.UpdateSubtaskLeavesStatusStale | src/manager/InMemoryTaskManager.java:140-141 | after a subtask is marked DONE through `updateSubtask`, its epic still shows the old status, which is no longer the derived one |
| ManagerFacts.NullEpicLeavesStaleEntry | src/manager/InMemoryTaskManager.java:140-144 | an update naming a missing epic fails, yet leaves the new value stored and two index entries for one id |
| ManagerFacts.NullEpicGivesStaleState | src/manager/InMemoryTaskManager.java:129-146 | the failed update of `NullEpicLeavesStaleEntry` leaves the subtask's new value stored and both its old and new entries in the index |
| ManagerFacts.ClearKeepsStaleEntry | src/manager/InMemoryTaskManager.java:206-219 | clearing the subtasks from that state empties the subtask map but leaves the old entry in the index, because the index is larger than the set and `removeAll` matches by start and id |
| ManagerFacts.DeleteEpicSparesUnlisted | src/manager/InMemoryTaskManager.java:121-126 | after `updateEpic` empties an epic's list, `deleteEpic` leaves its subtask stored, naming an epic that is gone |
| Csv.ParseType | src/manager/FileBackedTaskManager.java:85 | a name is accepted exactly when it is some constant's name, and that constant is the result |
| Csv.ParseStatus | src/manager/FileBackedTaskManager.java:87 | a name is accepted exactly when it is some status's name, and that status is the result |
| Csv.NamesRoundTrip | src/manager/FileBackedTaskManager.java:42-44 | every type and status name reads back as its constant |
| Csv.NatText | src/manager/FileBackedTaskManager.java:41 | a number is written as digits without a leading zero |
| Csv.NatTextValue | src/manager/FileBackedTaskManager.java:41 | the written digits read back as the number |
| Csv.IntToText | src/manager/FileBackedTaskManager.java:41 | a number's text starts with a minus sign exactly when it is negative, and holds no comma |
| Csv.ParseInt | src/manager/FileBackedTaskManager.java:84 | an accepted text is an optional sign followed by digits, and its value fits an `int`; anything else is a number format error |
| Csv.IntTextRoundTrip | src/manager/FileBackedTaskManager.java:84 | a written number reads back as itself exactly when it fits an `int` |
| Csv.ParseIntEdges | src/manager/FileBackedTaskManager.java:84 | an empty field and a lone sign are refused; a plus sign and leading zeros are accepted |
| Csv.Split | src/manager/FileBackedTaskManager.java:83 | there are between one piece and the limit; no piece holds a comma except the last one at the limit; joining the pieces with commas gives the line back |
| Csv.Join | src/manager/FileBackedTaskManager.java:40-47 | a single field is written as itself; `Csv.Split` undoes the join (`Csv.SplitJoin`, `Csv.SplitShort`) |
| Csv.SplitJoin | src/manager/FileBackedTaskManager.java:83 | splitting six joined fields, of which only the last may hold a comma, gives the fields back |
| Csv.SplitShort | src/manager/FileBackedTaskManager.java:83 | splitting fewer joined fields than the limit, none with a comma, gives the fields back |
| Csv.Encode | src/manager/FileBackedTaskManager.java:35-48 | a written line always holds a comma, so it is never blank |
| Csv.Build | src/manager/FileBackedTaskManager.java:90-107 | the built item has the parsed kind, id, name, status and description, and a subtask gets the parsed epic id; no time is set and an epic lists nothing |
| Csv.Decode | src/manager/FileBackedTaskManager.java:82-108 | a decoded item has an `int` id, and an `int` epic id when it is a subtask; it has no times, and a decoded epic lists no subtasks |
| Csv.Stripped | src/manager/FileBackedTaskManager.java:35-48 | what a line keeps of an item: its kind, id, name, status, description and a subtask's epic id; no times, and an epic lists nothing |
| Csv.DecodeEncode | src/manager/FileBackedTaskManager.java:35-108 | reading a written line gives back the item's kind, id, name, status, description and epic id, when name and description hold no comma and no line break and the ids fit an `int` |
| Csv.EncodeOneLine | src/manager/FileBackedTaskManager.java:35-48 | the line written for such an item holds no line break |
| Csv.CommaInDescriptionTruncates | src/manager/FileBackedTaskManager.java:83-88 | a comma in a task's description cuts the description short on reading |
| Csv.CommaInNameRefused | src/manager/FileBackedTaskManager.java:83-87 | a comma in a name shifts the later fields, and the line is refused |
| Csv.LineBreakInDescription | src/manager/FileBackedTaskManager.java:35-88 | a task whose description holds a line break is not writable; its line is a five-field task line, the break, and the rest; the first part reads as the task with its description cut at the break, and the rest is refused when what followed the break is not a number |
| Csv.BadFirstField | src/manager/FileBackedTaskManager.java:83-84 | a line whose first field is not a number is refused with that field |
| FileText.ReadLines | src/manager/FileBackedTaskManager.java:53-56 | no line read holds a break, and text that is not empty gives at least one line |
| FileText.ReadText | src/manager/FileBackedTaskManager.java:18-29 | reading back the text of lines that hold no break gives the same lines |
| FileText.BreakSplits | src/manager/FileBackedTaskManager.java:53-56 | a line with a break of its own comes back as two lines |
| Snapshot.Lines | src/manager/FileBackedTaskManager.java:21-29 | one line per listed item |
| Snapshot.LinesAt | src/manager/FileBackedTaskManager.java:21-29 | the i-th line written is the i-th listed item's line |
| Snapshot.Save | src/manager/FileBackedTaskManager.java:18-33 | the header comes first, then one line per task, epic and subtask |
| Snapshot.WrittenLineNotBlank | src/manager/FileBackedTaskManager.java:56 | no written line is blank, so loading never stops early on one as long as no line holds a break |
| Snapshot.Put | src/manager/FileBackedTaskManager.java:58-73 | the largest id seen is updated; a task or epic goes into its own map only; a subtask goes into the subtask map and is appended to its epic's list only when that epic was read earlier |
| Snapshot.PutSound | src/manager/FileBackedTaskManager.java:58-73 | putting an item keeps each map keyed by its items' ids and typed, with every id at most the largest seen |
| Snapshot.Turn | src/manager/FileBackedTaskManager.java:56-57 | a blank line ends the loop with what has been read so far; any other line is decoded before the loop goes on |
| Snapshot.ReadAllSound | src/manager/FileBackedTaskManager.java:56-74 | whatever the read loop returns on success is keyed, typed and bounded by the largest id seen |
| Snapshot.Load | src/manager/FileBackedTaskManager.java:50-80 | a loaded manager has an empty index and history, and its counter is an `int` |
| Snapshot.LoadSound | src/manager/FileBackedTaskManager.java:50-80 | a loaded manager stores every item under its own id in the map of its kind; unless an id is `Integer.MAX_VALUE` the counter is at least 1 and past every id, and otherwise it has wrapped to `Integer.MIN_VALUE`; its empty index and history are consistent with its maps |
| Snapshot.LoadEmpty | src/manager/FileBackedTaskManager.java:53-56 | an empty file and a header-only file load as a new manager |
| Snapshot.StopsAtBlank | src/manager/FileBackedTaskManager.java:56 | the read loop never looks past the first blank line, whatever the decoder |
| Snapshot.LoadStopsAtBlank | src/manager/FileBackedTaskManager.java:53-56 | loading gives the same result as loading the lines before the first blank line |
| Snapshot.ReadLines | src/manager/FileBackedTaskManager.java:56-73 | reading written lines is putting their items, stripped of what the line does not hold |
| Snapshot.ReadOne | src/manager/FileBackedTaskManager.java:56-73 | reading one written line is putting its item, stripped of what the line does not hold |
| Snapshot.PutAllMax | src/manager/FileBackedTaskManager.java:58-61 | after putting items, the largest id seen covers all of them and is one of them unless it did not move |
| Snapshot.PutTasks | src/manager/FileBackedTaskManager.java:63 | putting tasks fills the task map with them and changes no other map |
| Snapshot.PutEpics | src/manager/FileBackedTaskManager.java:64 | putting epics fills the epic map with them and changes no other map |
| Snapshot.PutSubtaskLinks | src/manager/FileBackedTaskManager.java:65-71 | one subtask is appended to its epic's list when that epic is there, and every other epic is left alone |
| Snapshot.PutSubtasksLinks | src/manager/FileBackedTaskManager.java:65-71 | every epic's list grows by the subtasks naming it, in file order |
| Snapshot.PutSubtasksStore | src/manager/FileBackedTaskManager.java:65-67 | putting subtasks fills the subtask map with them, stripped |
| Snapshot.LoadSaved | src/manager/FileBackedTaskManager.java:18-80 | loading a saved file succeeds with the maps that putting every saved item in file order gives, a counter one past the largest id in 32-bit arithmetic, and an empty index and history |
| Snapshot.RereadContents | src/manager/FileBackedTaskManager.java:50-80 | rereading restores all three maps, each item stripped and each epic listing the subtasks that name it in file order; the largest id covers every id |
| Snapshot.SaveLoad | src/manager/FileBackedTaskManager.java:18-80 | save then load gives back every item as its line holds it, an empty index and history, and a counter no higher than before that follows the largest stored id (1 when nothing was stored), or `Integer.MIN_VALUE` when that id is `Integer.MAX_VALUE` |
| Snapshot.SavedCounter | src/manager/FileBackedTaskManager.java:55-75 | the counter part of the round trip, as for `Snapshot.SaveLoad` |
| Snapshot.CounterCovers | src/manager/FileBackedTaskManager.java:55-75 | the largest id read covers every stored id, is below the old counter, and is a stored id unless nothing was saved (then it is 0) |
| Snapshot.CounterWraps | src/manager/FileBackedTaskManager.java:75 | one past the largest id read, in 32-bit arithmetic, is past every stored id and follows the largest, unless that id is `Integer.MAX_VALUE`, when it is `Integer.MIN_VALUE` |
| Snapshot.SavedText | src/manager/FileBackedTaskManager.java:18-56 | reading the text `save` writes with `readLine` gives back the lines it wrote, when every item is writable |
| Snapshot.SaveLoadText | src/manager/FileBackedTaskManager.java:18-80 | the round trip of `Snapshot.SaveLoad` holds over the text of the file as well |
| Snapshot.LineBreakFailsLoad | src/manager/FileBackedTaskManager.java:18-80 | saving a manager whose one task has a line break in its description writes a file that fails to load, on what followed the break |

## Left out

- The HTTP server and its handlers (`src/http/`) are not part of this model. They are network I/O and JSON adapters around the manager.
- File I/O is left out. `Snapshot.Save` returns the lines `save()` writes, `FileText.Text` is the text they make, `FileText.ReadLines` splits text as `readLine` does, and `Snapshot.Load` takes the lines `loadFromFile` reads. I/O errors and `ManagerSaveException` are not modelled.
- The save-after-every-mutation overrides (src/manager/FileBackedTaskManager.java:110-183) are left out. Each one is the in-memory operation followed by `Snapshot.Save`.
- `LocalDateTime` and `Duration` are whole minutes (`int`). Calendar arithmetic is not modelled.
- `HashMap` iteration order is unspecified in Java. `Snapshot.Save` takes the order of each map as a parameter (`Enumerates`), and the round trip holds for every order.
- `TreeSet` is a sorted sequence, and the `HashMap`s are Dafny maps. A `null` candidate to `addToPrioritizedIfHasStart` and `removeFromPrioritizedIfHasStart` is modelled by the callers not calling them.
- The list-returning getters (`getTasks`, `getEpics`, `getSubtasks`, `getHistory`, `getPrioritizedTasks`) return copies in Java. In the value model they are the fields themselves (`m.tasks.Values`, `m.history`, `m.prioritized`), and reading them cannot change the state.
- Java aliasing is not modelled: items here are immutable values. In Java a caller can mutate a stored object in place, and the history holds references, so an entry shows later in-place changes to the same object: `addSubtaskId` (src/manager/InMemoryTaskManager.java:60), the epic status and window updates (src/manager/InMemoryTaskManager.java:241-287) and `getSubtaskIds().clear()` (src/manager/InMemoryTaskManager.java:214). `History` keeps each entry as it was when it was fetched.
- The `type` field and `setType` of `Task` are not modelled. `TypeOf` gives the type from the constructor, as `getType` does for each class that the manager stores.
- `TaskManager.AddTask`: the id counter is an unbounded integer, so it does not model the 32-bit wrap-around after 2^31 - 1 ids. The CSV codec does treat ids as 32-bit, in `Csv.ParseInt` and `Csv.Writable`, and `Snapshot.Load` sets the counter in 32-bit arithmetic.
- `Csv.ParseInt` accepts ASCII digits only. `Character.digit` accepts other Unicode digits as well.
- `Snapshot.IsBlank` treats ASCII whitespace only as blank.
- Concurrency is not modelled. The manager has no locking, and the HTTP server can call it from several threads.
- The history follows the code: `add` appends and then drops the oldest entry past ten. test/manager/InMemoryHistoryManagerTest.java:43-50 expects a re-added id to replace its old entry; the code keeps both.
- `InMemoryHistoryManager.remove(id)` is called by the manager, but its body is not in src/manager/InMemoryHistoryManager.java. `History.Remove` models what the manager relies on: it drops every entry with that id.
- src/Epic.java calls a four-argument `Task` constructor that src/model/Task.java does not define. It also declares `Epic(name, description, id)`, while `fromString` and the tests call `new Epic(name, description, status)`. `Tasks.NewEpic` follows src/Epic.java. `Csv.Build` keeps the status that was read, which is what `fromString` asks of its constructor.
- src/model/Task.java has no time fields, though src/model/Subtask.java and the manager use `startTime`, `duration` and `getEndTime()`. The model gives every item an optional start and duration, and gives an epic its stored end.
- `Status`, `TaskType`, the `HistoryManager` interface and a `model.Epic` class are not part of this model.
- A rejected operation does not roll everything back, and loading neither re-derives epics and the index nor restores times. The model follows the code:
  - a rejected add uses up an id (`ManagerFacts.IdsAdvanceOnRejection`);
  - an update naming a missing epic leaves the manager inconsistent (`ManagerFacts.NullEpicLeavesStaleEntry`);
  - loading keeps statuses as written and drops times (`Snapshot.SaveLoad`).
- `ManagerFacts.UpdateSubtaskValid`: it does not claim consistency when the new value names an epic that is not stored, because the code breaks consistency there (`ManagerFacts.NullEpicLeavesStaleEntry`).
- `Snapshot.SaveLoad`: it requires every name and description to be free of commas and line breaks, and every id to fit an `int` (`Csv.Writable`). The line format has no escaping, so other items do not survive (`Csv.CommaInDescriptionTruncates`, `Csv.CommaInNameRefused`, `Snapshot.LineBreakFailsLoad`).
- `Schedule.RemoveAll`: Java's argument is a `HashSet`, in which items with the same id are one element; the model's set keeps such values apart. The manager builds the argument from one map's values, whose ids are distinct, so the two agree at every call.
- `ManagerFacts.AddTaskSchedule`, `ManagerFacts.AddSubtaskSchedule`, `ManagerFacts.UpdateTaskSchedule` and `ManagerFacts.UpdateSubtaskSchedule` hold only on a schedule of positive windows (`ScheduleSound`, `Plannable`). On any other schedule the neighbour check can miss a conflict (`Schedule.UntimedNeighbourHidesOverlap`, `Schedule.ZeroNeighbourHidesOverlap`).
- `Snapshot.ReadAll` takes the line decoder as a parameter, and `Snapshot.Load` passes `Csv.Decode`. The generic lemmas (`Snapshot.StopsAtBlank`, `Snapshot.Turn`) hold for any decoder.

=== FILE: csv.dfy ===
/** The one-line-per-entity text form of `FileBackedTaskManager`
    (`toString(Task)` and `fromString`): six comma-separated fields
    `id,type,name,status,description,epic`.  Only the id, kind, name,
    status, description and a subtask's epic id are written; start times,
    durations and epic subtask lists are not. */
module Csv {
  import opened Wrappers
  import opened Tasks
  import FileText

  const HEADER: string := "id,type,name,status,description,epic"

  /** The runtime exceptions `fromString` can throw, in the order it can
      meet them. */
  datatype CsvError =
    | BadNumber(text: string)        // Integer.parseInt: NumberFormatException
    | BadType(text: string)          // TaskType.valueOf: IllegalArgumentException
    | BadStatus(text: string)        // Status.valueOf: IllegalArgumentException
    | MissingField(index: nat)       // parts[index]: ArrayIndexOutOfBoundsException

  // ---------------------------------------------------------------------
  // Enum names

  /** `TaskType.name()`. */
  function TypeName(t: TaskType): string {
    match t
    case TASK => "TASK"
    case EPIC => "EPIC"
    case SUBTASK => "SUBTASK"
  }

  /** `TaskType.valueOf(s)`: exactly the constant names are accepted. */
  function ParseType(s: string): (r: Result<TaskType, CsvError>)
    ensures r.Ok? ==> TypeName(r.value) == s
    ensures r.Err? ==> r.error == BadType(s) && forall t: TaskType :: TypeName(t) != s
  {
    if s == "TASK" then Ok(TASK)
    else if s == "EPIC" then Ok(EPIC)
    else if s == "SUBTASK" then Ok(SUBTASK)
    else Err(BadType(s))
  }

  /** `Status.name()`. */
  function StatusName(s: Status): string {
    match s
    case NEW => "NEW"
    case IN_PROGRESS => "IN_PROGRESS"
    case DONE => "DONE"
  }

  /** `Status.valueOf(s)`. */
  function ParseStatus(s: string): (r: Result<Status, CsvError>)
    ensures r.Ok? ==> StatusName(r.value) == s
    ensures r.Err? ==> r.error == BadStatus(s) && forall t: Status :: StatusName(t) != s
  {
    if s == "NEW" then Ok(NEW)
    else if s == "IN_PROGRESS" then Ok(IN_PROGRESS)
    else if s == "DONE" then Ok(DONE)
    else Err(BadStatus(s))
  }

  /** Each name reads back as its constant. */
  lemma NamesRoundTrip(t: TaskType, s: Status)
    ensures ParseType(TypeName(t)) == Ok(t)
    ensures ParseStatus(StatusName(s)) == Ok(s)
  {
  }

  // ---------------------------------------------------------------------
  // Decimal integers

  predicate IsDigit(c: char) {
    '0' <= c <= '9'
  }

  predicate AllDigits(s: string) {
    forall k :: 0 <= k < |s| ==> IsDigit(s[k])
  }

  /** The value of a run of decimal digits, most significant first. */
  function DigitsValue(s: string): nat
    requires AllDigits(s)
  {
    if |s| == 0 then 0
    else DigitsValue(s[..|s| - 1]) * 10 + (s[|s| - 1] as int - '0' as int)
  }

  /** The decimal digits of `n`, without leading zeros. */
  function NatText(n: nat): (r: string)
    ensures |r| >= 1 && AllDigits(r)
    ensures |r| > 1 ==> r[0] != '0'
  {
    if n < 10 then [('0' as int + n) as char]
    else NatText(n / 10) + [('0' as int + n % 10) as char]
  }

  /** The digits read back as the number they were written from. */
  lemma {:induction false} NatTextValue(n: nat)
    ensures DigitsValue(NatText(n)) == n
    decreases n
  {
    if n >= 10 {
      NatTextValue(n / 10);
      var r := NatText(n);
      assert r[..|r| - 1] == NatText(n / 10);
    }
  }

  /** `String.valueOf(int)`: a minus sign for negatives, then the digits. */
  function IntToText(n: int): (r: string)
    ensures |r| >= 1
    ensures n < 0 <==> r[0] == '-'
    ensures ',' !in r
  {
    if n < 0 then "-" + NatText(-n) else NatText(n)
  }

  /** `Integer.parseInt(s)`: an optional sign, then one or more ASCII
      digits, and a value within the `int` range. */
  function ParseInt(s: string): (r: Result<int, CsvError>)
    ensures r.Ok? ==> IsInt(r.value)
    ensures r.Err? ==> r.error == BadNumber(s)
    ensures r.Ok? ==> |s| >= 1 && (s[0] == '-' || s[0] == '+' || IsDigit(s[0]))
    ensures r.Ok? ==> AllDigits(s[1..])
  {
    if |s| == 0 then Err(BadNumber(s))
    else
      var negative := s[0] == '-';
      var body := if s[0] == '-' || s[0] == '+' then s[1..] else s;
      if |body| == 0 || !AllDigits(body) then Err(BadNumber(s))
      else
        var d: int := DigitsValue(body);
        var v: int := if negative then -d else d;
        if IsInt(v) then
          assert s[1..] == body[1..] || s[1..] == body;
          Ok(v)
        else Err(BadNumber(s))
  }

  /** The text `String.valueOf` gives a number reads back as that number
      exactly when it is within the `int` range. */
  lemma IntTextRoundTrip(n: int)
    ensures ParseInt(IntToText(n)) == if IsInt(n) then Ok(n) else Err(BadNumber(IntToText(n)))
  {
    NatTextValue(if n < 0 then -n else n);
    if n < 0 {
      assert IntToText(n)[1..] == NatText(-n);
    }
  }

  /** `parseInt` refuses an empty field and a lone sign, and accepts a plus
      sign and leading zeros. */
  lemma ParseIntEdges()
    ensures ParseInt("").Err? && ParseInt("-").Err? && ParseInt("+").Err?
    ensures ParseInt("+007") == Ok(7)
  {
    assert DigitsValue("007") == 7 by {
      assert DigitsValue("00") == 0 by {
        assert DigitsValue("0") == 0;
      }
    }
    assert "+007"[1..] == "007";
  }

  // ---------------------------------------------------------------------
  // Fields

  /** `String.join(",", fields)`. */
  function Join(fields: seq<string>): (r: string)
    ensures |fields| == 1 ==> r == fields[0]
  {
    if |fields| == 0 then ""
    else if |fields| == 1 then fields[0]
    else fields[0] + "," + Join(fields[1..])
  }

  /** The position of the first comma. */
  function CommaAt(s: string): (k: nat)
    requires ',' in s
    ensures k < |s| && s[k] == ',' && ',' !in s[..k]
  {
    if s[0] == ',' then 0
    else
      var k := CommaAt(s[1..]);
      assert s[..k + 1] == [s[0]] + s[1..][..k];
      k + 1
  }

  /** `s.split(",", limit)` for a positive limit: at most `limit` pieces,
      the last holding the rest of the line, commas included; empty pieces
      are kept. */
  function Split(s: string, limit: nat): (r: seq<string>)
    requires limit >= 1
    ensures 1 <= |r| <= limit
    ensures |r| < limit ==> ',' !in r[|r| - 1]
    ensures forall k :: 0 <= k < |r| - 1 ==> ',' !in r[k]
    ensures Join(r) == s
    decreases limit
  {
    if limit == 1 || ',' !in s then [s]
    else
      var k := CommaAt(s);
      var rest := Split(s[k + 1..], limit - 1);
      assert s == s[..k] + "," + s[k + 1..];
      [s[..k]] + rest
  }

  /** The first comma of `a + "," + b` is the one after `a` when `a` has
      none. */
  lemma CommaAfterField(a: string, b: string)
    requires ',' !in a
    ensures CommaAt(a + "," + b) == |a|
    ensures (a + "," + b)[..|a|] == a && (a + "," + b)[|a| + 1..] == b
  {
    var s := a + "," + b;
    assert s[|a|] == ',';
    assert forall j :: 0 <= j < |a| ==> s[j] == a[j] && a[j] in a;
    var k := CommaAt(s);
    assert forall j :: 0 <= j < k ==> s[j] != ',' by {
      forall j | 0 <= j < k
        ensures s[j] != ','
      {
        assert s[j] == s[..k][j];
      }
    }
  }

  /** Splitting what was joined gives the fields back, when only the last
      may hold a comma and there are as many fields as the limit. */
  lemma {:induction false} SplitJoin(fields: seq<string>, limit: nat)
    requires |fields| == limit >= 1
    requires forall k :: 0 <= k < |fields| - 1 ==> ',' !in fields[k]
    ensures Split(Join(fields), limit) == fields
    decreases limit
  {
    if limit > 1 {
      var head, tail := fields[0], fields[1..];
      var s := Join(fields);
      assert s == head + "," + Join(tail);
      CommaAfterField(head, Join(tail));
      assert ',' in s;
      SplitJoin(tail, limit - 1);
      assert Split(s, limit) == [s[..CommaAt(s)]] + Split(s[CommaAt(s) + 1..], limit - 1);
      assert fields == [head] + tail;
    }
  }

  /** Splitting what was joined gives the fields back also when there are
      fewer fields than the limit, as long as none holds a comma. */
  lemma {:induction false} SplitShort(fields: seq<string>, limit: nat)
    requires 1 <= |fields| <= limit
    requires forall k :: 0 <= k < |fields| ==> ',' !in fields[k]
    ensures Split(Join(fields), limit) == fields
    decreases limit
  {
    if |fields| == 1 {
      SplitLast(fields, limit);
    } else {
      var tail, fewer: nat := fields[1..], limit - 1;
      SplitShort(tail, fewer);
      SplitStep(fields, limit, fewer);
    }
  }

  /** The last field, without a comma, is split off whole. */
  lemma SplitLast(fields: seq<string>, limit: nat)
    requires 1 == |fields| <= limit && ',' !in fields[0]
    ensures Split(Join(fields), limit) == fields
  {
    assert Join(fields) == fields[0];
  }

  /** One step of the split: the first field ends at its comma, and the
      remaining fields split as before. */
  lemma SplitStep(fields: seq<string>, limit: nat, fewer: nat)
    requires 1 < |fields| <= limit && fewer == limit - 1
    requires ',' !in fields[0]
    requires Split(Join(fields[1..]), fewer) == fields[1..]
    ensures Split(Join(fields), limit) == fields
  {
    JoinHead(fields);
    SplitAtComma(fields[0], Join(fields[1..]), limit, fewer);
    assert fields == [fields[0]] + fields[1..];
  }

  lemma JoinHead(fields: seq<string>)
    requires |fields| > 1
    ensures Join(fields) == fields[0] + "," + Join(fields[1..])
  {
  }

  /** Where the first piece ends. */
  lemma SplitAtComma(head: string, rest: string, limit: nat, fewer: nat)
    requires ',' !in head && limit > 1 && fewer == limit - 1
    ensures Split(head + "," + rest, limit) == [head] + Split(rest, fewer)
  {
    CommaAfterField(head, rest);
    assert ',' in head + "," + rest;
  }

  /** Six fields joined, spelled out. */
  lemma JoinSix(f: seq<string>)
    requires |f| == 6
    ensures Join(f) == f[0] + "," + f[1] + "," + f[2] + "," + f[3] + "," + f[4] + "," + f[5]
  {
    assert Join(f[5..]) == f[5];
    assert Join(f[4..]) == f[4] + "," + Join(f[5..]);
    assert Join(f[3..]) == f[3] + "," + Join(f[4..]);
    assert Join(f[2..]) == f[2] + "," + Join(f[3..]);
    assert Join(f[1..]) == f[1] + "," + Join(f[2..]);
  }

  // ---------------------------------------------------------------------
  // Entities

  /** `toString(Task)`: the epic field is the epic id for a subtask and
      empty otherwise. */
  function Fields(i: Item): seq<string> {
    [IntToText(i.id), TypeName(TypeOf(i)), i.name, StatusName(i.status), i.description,
     if i.Subtask? then IntToText(i.epicId) else ""]
  }

  function Encode(i: Item): (line: string)
    ensures ',' in line
  {
    var f := Fields(i);
    assert Join(f) == f[0] + "," + Join(f[1..]);
    Join(f)
  }

  /** What `fromString` builds: the kind, id, name, status and description
      are read; a subtask also gets its epic id.  Nothing else is read, so
      every time field is unset and an epic's subtask list is empty. */
  function Build(t: TaskType, id: int, name: string, status: Status, description: string, epicId: int): (r: Item)
    ensures TypeOf(r) == t && r.id == id && r.name == name && r.status == status
    ensures r.description == description
    ensures r.startTime.None? && r.duration.None?
    ensures r.Epic? ==> r.endTime.None? && r.subtaskIds == []
    ensures r.Subtask? ==> r.epicId == epicId
  {
    match t
    case TASK => Task(id, name, description, status, None, None)
    case EPIC => Epic(id, name, description, status, None, None, None, [])
    case SUBTASK => Subtask(id, name, description, status, None, None, epicId)
  }

  /** `fromString(line)`, failing where Java throws and in the order the
      fields are read. */
  function Decode(line: string): (r: Result<Item, CsvError>)
    ensures r.Ok? ==> IsInt(r.value.id) && r.value.startTime.None? && r.value.duration.None?
    ensures r.Ok? && r.value.Subtask? ==> IsInt(r.value.epicId)
    ensures r.Ok? && r.value.Epic? ==> r.value.subtaskIds == []
  {
    var parts := Split(line, 6);
    match ParseInt(parts[0])
    case Err(e) => Err(e)
    case Ok(id) =>
      if |parts| < 2 then Err(MissingField(1))
      else match ParseType(parts[1])
      case Err(e) => Err(e)
      case Ok(t) =>
        if |parts| < 3 then Err(MissingField(2))
        else if |parts| < 4 then Err(MissingField(3))
        else match ParseStatus(parts[3])
        case Err(e) => Err(e)
        case Ok(status) =>
          if |parts| < 5 then Err(MissingField(4))
          else if t != SUBTASK then Ok(Build(t, id, parts[2], status, parts[4], 0))
          else if |parts| < 6 then Err(MissingField(5))
          else match ParseInt(parts[5])
          case Err(e) => Err(e)
          case Ok(epicId) => Ok(Build(t, id, parts[2], status, parts[4], epicId))
  }

  /** What a line keeps of an entity: everything but its times and, for an
      epic, its subtask list. */
  function Stripped(i: Item): (r: Item)
    ensures TypeOf(r) == TypeOf(i) && r.id == i.id && r.name == i.name
    ensures r.status == i.status && r.description == i.description
    ensures r.Subtask? ==> r.epicId == i.epicId
    ensures r.startTime.None? && r.duration.None?
    ensures r.Epic? ==> r.endTime.None? && r.subtaskIds == []
  {
    Build(TypeOf(i), i.id, i.name, i.status, i.description, if i.Subtask? then i.epicId else 0)
  }

  /** An entity can be written to a line and read back without loss of
      what the line holds: its ids are `int` values, and its name and
      description hold neither a comma nor a line break. */
  predicate Writable(i: Item) {
    && IsInt(i.id)
    && ',' !in i.name && ',' !in i.description
    && FileText.OneLine(i.name) && FileText.OneLine(i.description)
    && (i.Subtask? ==> IsInt(i.epicId))
  }

  /** A writable entity's line is one line of the file. */
  lemma EncodeOneLine(i: Item)
    requires Writable(i)
    ensures FileText.OneLine(Encode(i))
  {
    var f := Fields(i);
    IntTextOneLine(i.id);
    if i.Subtask? {
      IntTextOneLine(i.epicId);
    }
    JoinOneLine(f);
  }

  /** A number's text holds no line break. */
  lemma IntTextOneLine(n: int)
    ensures FileText.OneLine(IntToText(n))
  {
    var d := NatText(if n < 0 then -n else n);
    if n < 0 {
      FileText.OneLineConcat("-", d);
    }
  }

  /** Joining fields without line breaks gives none. */
  lemma {:induction false} JoinOneLine(fields: seq<string>)
    requires forall k :: 0 <= k < |fields| ==> FileText.OneLine(fields[k])
    ensures FileText.OneLine(Join(fields))
    decreases |fields|
  {
    if |fields| > 1 {
      JoinOneLine(fields[1..]);
      FileText.OneLineConcat(fields[0], ",");
      FileText.OneLineConcat(fields[0] + ",", Join(fields[1..]));
    }
  }

  /** Reading back a written line gives the entity stripped of what the
      line does not hold. */
  lemma DecodeEncode(i: Item)
    requires Writable(i)
    ensures Decode(Encode(i)) == Ok(Stripped(i))
  {
    var f := Fields(i);
    SplitJoin(f, 6);
    IntTextRoundTrip(i.id);
    NamesRoundTrip(TypeOf(i), i.status);
    if i.Subtask? {
      IntTextRoundTrip(i.epicId);
    }
  }

  /** A comma in the description is not escaped: the rest of the
      description lands in the epic field, which a task ignores, so the
      description comes back cut short. */
  lemma CommaInDescriptionTruncates()
    ensures Decode(Encode(Task(1, "n", "a,b", NEW, None, None))) == Ok(Task(1, "n", "a", NEW, None, None))
  {
    var t := Task(1, "n", "a,b", NEW, None, None);
    var parts := ["1", "TASK", "n", "NEW", "a", "b,"];
    ReadsAs(t, "1,TASK,n,NEW,a,b,", parts);
    assert ParseType(parts[1]) == Ok(TASK) && ParseStatus(parts[3]) == Ok(NEW);
  }

  /** A comma in the name shifts every later field: the status field
      then holds the name's tail and the line is refused. */
  lemma CommaInNameRefused()
    ensures Decode(Encode(Task(1, "a,b", "d", NEW, None, None))) == Err(BadStatus("b"))
  {
    var t := Task(1, "a,b", "d", NEW, None, None);
    var parts := ["1", "TASK", "a", "b", "NEW", "d,"];
    ReadsAs(t, "1,TASK,a,b,NEW,d,", parts);
    assert ParseType(parts[1]) == Ok(TASK) && ParseStatus(parts[3]) == Err(BadStatus("b"));
  }

  /** A line break in a description is written as is: the line for such a
      task is two lines of text, the first a task line of five fields that
      reads back with the description cut short, the second a line whose id
      field is whatever followed the break. */
  lemma LineBreakInDescription(t: Item, a: string, b: string)
    requires t.Task? && t.id == 1 && t.status == NEW && t.description == a + "\n" + b
    requires ',' !in t.name && ',' !in a && ',' !in b
    ensures !Writable(t)
    ensures Encode(t) == Join(["1", "TASK", t.name, "NEW", a]) + "\n" + (b + ",")
    ensures Decode(Join(["1", "TASK", t.name, "NEW", a])) == Ok(Task(1, t.name, a, NEW, None, None))
    ensures ParseInt(b).Err? ==> Decode(b + ",") == Err(BadNumber(b))
  {
    assert !FileText.OneLine(t.description) by {
      assert t.description[|a|] == '\n';
    }
    BrokenLine(t, a, b);
    FirstLine(t.name, a);
    if ParseInt(b).Err? {
      BadFirstField(b, "");
    }
  }

  /** The two halves of such a task's line. */
  lemma BrokenLine(t: Item, a: string, b: string)
    requires t.Task? && t.id == 1 && t.status == NEW && t.description == a + "\n" + b
    ensures Encode(t) == Join(["1", "TASK", t.name, "NEW", a]) + "\n" + (b + ",")
  {
    var f := ["1", "TASK", t.name, "NEW", a];
    assert IntToText(1) == "1";
    assert Fields(t) == ["1", "TASK", t.name, "NEW", a + "\n" + b, ""];
    JoinSix(Fields(t));
    JoinFive(f);
  }

  /** Five fields joined, spelled out. */
  lemma JoinFive(f: seq<string>)
    requires |f| == 5
    ensures Join(f) == f[0] + "," + f[1] + "," + f[2] + "," + f[3] + "," + f[4]
  {
    assert Join(f[4..]) == f[4];
    assert Join(f[3..]) == f[3] + "," + Join(f[4..]);
    assert Join(f[2..]) == f[2] + "," + Join(f[3..]);
    assert Join(f[1..]) == f[1] + "," + Join(f[2..]);
  }

  /** A line of five fields for a new task with id 1, none with a comma,
      reads as that task: the epic field is never looked at. */
  lemma FirstLine(name: string, d: string)
    requires ',' !in name && ',' !in d
    ensures Decode(Join(["1", "TASK", name, "NEW", d])) == Ok(Task(1, name, d, NEW, None, None))
  {
    var f := ["1", "TASK", name, "NEW", d];
    IntTextRoundTrip(1);
    assert IntToText(1) == "1";
    assert ParseType(f[1]) == Ok(TASK) && ParseStatus(f[3]) == Ok(NEW);
    SplitShort(f, 6);
  }

  /** A line whose first field is not a number is refused with that
      field. */
  lemma BadFirstField(first: string, rest: string)
    requires ',' !in first && ParseInt(first).Err?
    ensures Decode(first + "," + rest) == Err(BadNumber(first))
  {
    SplitAtComma(first, rest, 6, 5);
  }

  /** Helper for the comma examples above: the line written for task `t` is
      `line`, and it splits into `parts`, whose first field reads as 1. */
  lemma ReadsAs(t: Item, line: string, parts: seq<string>)
    requires t.Task? && t.id == 1 && t.status == NEW
    requires |parts| == 6 && forall k :: 0 <= k < 5 ==> ',' !in parts[k]
    requires line == "1," + "TASK," + t.name + ",NEW," + t.description + ","
    requires line == parts[0] + "," + parts[1] + "," + parts[2] + "," + parts[3] + "," + parts[4] + "," + parts[5]
    requires parts[0] == "1"
    ensures Encode(t) == line && Split(line, 6) == parts && ParseInt(parts[0]) == Ok(1)
  {
    TaskLine(t);
    JoinSix(parts);
    SplitJoin(parts, 6);
    IntTextRoundTrip(1);
  }

  /** The line written for a new task with id 1. */
  lemma TaskLine(t: Item)
    requires t.Task? && t.id == 1 && t.status == NEW
    ensures Encode(t) == "1," + "TASK," + t.name + ",NEW," + t.description + ","
  {
    var f := Fields(t);
    assert IntToText(1) == "1";
    assert f == ["1", "TASK", t.name, "NEW", t.description, ""];
    JoinSix(f);
    Spelled(t.name, t.description);
  }

  lemma Spelled(a: string, b: string)
    ensures "1" + "," + "TASK" + "," + a + "," + "NEW" + "," + b + "," + "" == "1," + "TASK," + a + ",NEW," + b + ","
  {
    assert "1" + "," + "TASK" + "," == "1," + "TASK,";
    assert "," + "NEW" + "," == ",NEW,";
  }
}

=== FILE: epics.dfy ===
/** The epic aggregation rules of `InMemoryTaskManager`
    (`getEpicSubtasks`, `updateEpicStatus`, `updateEpicTime`): an epic's
    status and time window are computed from the subtasks its id list
    names. */
module Epics {
  import opened Wrappers
  import opened Tasks

  /** `x` is the stored subtask of one of the listed ids. */
  predicate Listed(subtasks: map<int, Item>, ids: seq<int>, x: Item) {
    exists i :: i in ids && i in subtasks && subtasks[i] == x
  }

  /** `getEpicSubtasks`: the listed ids looked up in the subtask map, in list
      order, skipping ids that name no stored subtask. */
  function Resolve(subtasks: map<int, Item>, ids: seq<int>): (r: seq<Item>)
    ensures |r| <= |ids|
    ensures forall k :: 0 <= k < |r| ==> r[k] in subtasks.Values
  {
    if |ids| == 0 then []
    else
      var rest := Resolve(subtasks, ids[1..]);
      if ids[0] in subtasks then [subtasks[ids[0]]] + rest else rest
  }

  /** The resolved list holds exactly the stored subtasks of the listed ids. */
  lemma {:induction false} ResolveContents(subtasks: map<int, Item>, ids: seq<int>)
    ensures forall i :: i in ids && i in subtasks ==> subtasks[i] in Resolve(subtasks, ids)
    ensures forall x :: x in Resolve(subtasks, ids) ==> Listed(subtasks, ids, x)
  {
    if |ids| > 0 {
      ResolveContents(subtasks, ids[1..]);
      assert ids == [ids[0]] + ids[1..];
      var r := Resolve(subtasks, ids);
      var rest := Resolve(subtasks, ids[1..]);
      forall x | x in r
        ensures Listed(subtasks, ids, x)
      {
        if x in rest {
          var i :| i in ids[1..] && i in subtasks && subtasks[i] == x;
          assert i in ids;
          assert Listed(subtasks, ids, x);
        } else {
          assert ids[0] in subtasks && r == [subtasks[ids[0]]] + rest;
          var i := ids[0];
          assert i in ids && i in subtasks && subtasks[i] == x;
          assert Listed(subtasks, ids, x);
        }
      }
    }
  }

  /** `getEpicSubtasks` looks ids up one at a time: one listed id gives its
      stored subtask or nothing ... */
  lemma ResolveOne(subtasks: map<int, Item>, i: int)
    ensures Resolve(subtasks, [i]) == if i in subtasks then [subtasks[i]] else []
  {
    assert [i][1..] == [];
  }

  /** ... and the lookups of two parts of the list follow each other in
      list order.  With `ResolveOne` this fixes the result: one entry per
      stored listed id, duplicates included, in list order. */
  lemma {:induction false} ResolveConcat(subtasks: map<int, Item>, a: seq<int>, b: seq<int>)
    ensures Resolve(subtasks, a + b) == Resolve(subtasks, a) + Resolve(subtasks, b)
    decreases |a|
  {
    if |a| == 0 {
      assert a + b == b;
    } else {
      var t := a[1..];
      assert (a + b)[0] == a[0];
      assert (a + b)[1..] == t + b;
      ResolveConcat(subtasks, t, b);
      if a[0] in subtasks {
        var x := subtasks[a[0]];
        assert [x] + (Resolve(subtasks, t) + Resolve(subtasks, b)) == ([x] + Resolve(subtasks, t)) + Resolve(subtasks, b);
      }
    }
  }

  /** A listed id named twice contributes its subtask twice, so it counts
      twice towards the epic's duration. */
  lemma ResolveRepeats(subtasks: map<int, Item>, i: int)
    requires i in subtasks
    ensures Resolve(subtasks, [i, i]) == [subtasks[i], subtasks[i]]
  {
    ResolveConcat(subtasks, [i], [i]);
    assert [i] + [i] == [i, i];
    ResolveOne(subtasks, i);
  }

  /** Every subtask has the given status. */
  predicate AllHave(subs: seq<Item>, s: Status) {
    forall k :: 0 <= k < |subs| ==> subs[k].status == s
  }

  /** `updateEpicStatus`: NEW when there are no subtasks or all are NEW,
      DONE when all are DONE, IN_PROGRESS otherwise. */
  function DeriveStatus(subs: seq<Item>): (r: Status)
    ensures r == NEW <==> AllHave(subs, NEW)
    ensures r == DONE <==> |subs| > 0 && AllHave(subs, DONE)
    ensures r == IN_PROGRESS <==>
      (exists k :: 0 <= k < |subs| && subs[k].status != NEW) &&
      (exists k :: 0 <= k < |subs| && subs[k].status != DONE)
  {
    if |subs| == 0 then NEW
    else if AllHave(subs, NEW) then
      assert subs[0].status == NEW;
      NEW
    else if AllHave(subs, DONE) then DONE
    else IN_PROGRESS
  }

  /** The status rule for every combination of two subtasks, and the three
      one-subtask cases. */
  lemma StatusTable(a: Item, b: Item)
    ensures DeriveStatus([]) == NEW
    ensures DeriveStatus([a]) == a.status
    ensures DeriveStatus([a, b]) ==
      if a.status == b.status then a.status else IN_PROGRESS
  {
    assert [a, b][0] == a && [a, b][1] == b;
  }

  // ---------------------------------------------------------------------
  // The time window

  /** The earliest start among the subtasks that have one. */
  function EarliestStart(subs: seq<Item>): (r: Option<int>)
    ensures r.None? <==> forall k :: 0 <= k < |subs| ==> subs[k].startTime.None?
    ensures r.Some? ==> exists k :: 0 <= k < |subs| && subs[k].startTime == r
    ensures r.Some? ==> forall k :: 0 <= k < |subs| && subs[k].startTime.Some? ==>
      r.value <= subs[k].startTime.value
  {
    if |subs| == 0 then None
    else
      var rest := EarliestStart(subs[1..]);
      assert forall k :: 1 <= k < |subs| ==> subs[k] == subs[1..][k - 1];
      var here := subs[0].startTime;
      if here.None? then rest
      else if rest.None? || here.value <= rest.value then here
      else rest
  }

  /** The latest end among the subtasks whose end is defined. */
  function LatestEnd(subs: seq<Item>): (r: Option<int>)
    ensures r.None? <==> forall k :: 0 <= k < |subs| ==> EndTime(subs[k]).None?
    ensures r.Some? ==> exists k :: 0 <= k < |subs| && EndTime(subs[k]) == r
    ensures r.Some? ==> forall k :: 0 <= k < |subs| && EndTime(subs[k]).Some? ==>
      EndTime(subs[k]).value <= r.value
  {
    if |subs| == 0 then None
    else
      var rest := LatestEnd(subs[1..]);
      assert forall k :: 1 <= k < |subs| ==> subs[k] == subs[1..][k - 1];
      var here := EndTime(subs[0]);
      if here.None? then rest
      else if rest.None? || here.value >= rest.value then here
      else rest
  }

  /** The sum, in minutes, of every duration that is set, whether or not
      the subtask has a start. */
  function TotalMinutes(subs: seq<Item>): int
  {
    if |subs| == 0 then 0
    else (if subs[0].duration.Some? then subs[0].duration.value else 0) + TotalMinutes(subs[1..])
  }

  /** The total is additive over concatenation and counts one subtask's
      duration, or nothing when it has none: it is the sum of the set
      durations. */
  lemma {:induction false} TotalMinutesIsSum(a: seq<Item>, b: seq<Item>, x: Item)
    ensures TotalMinutes(a + b) == TotalMinutes(a) + TotalMinutes(b)
    ensures TotalMinutes([x]) == if x.duration.Some? then x.duration.value else 0
    decreases |a|
  {
    if |a| == 0 {
      assert a + b == b;
    } else {
      assert (a + b)[1..] == a[1..] + b;
      TotalMinutesIsSum(a[1..], b, x);
    }
  }

  /** A subtask with a duration but no start still counts towards the
      epic's total, although it contributes no start and no end. */
  lemma UnscheduledDurationCounts()
    ensures var s := Subtask(2, "s", "", NEW, None, Some(30), 1);
            EarliestStart([s]).None? && LatestEnd([s]).None? && TotalMinutes([s]) == 30
  {
  }

  /** An epic's derived window; `minutes` is the duration it stores. */
  datatype Window = Window(start: Option<int>, minutes: int, end: Option<int>)

  /** `updateEpicTime`: no subtasks give no start, zero minutes and no end;
      otherwise the earliest start, the sum of durations and the latest end. */
  function DeriveWindow(subs: seq<Item>): (w: Window)
    ensures |subs| == 0 ==> w == Window(None, 0, None)
    ensures w.start.Some? ==> forall k :: 0 <= k < |subs| && subs[k].startTime.Some? ==>
      w.start.value <= subs[k].startTime.value
    ensures w.end.Some? ==> forall k :: 0 <= k < |subs| && EndTime(subs[k]).Some? ==>
      EndTime(subs[k]).value <= w.end.value
    ensures w.start.None? <==> forall k :: 0 <= k < |subs| ==> subs[k].startTime.None?
    ensures w.end.None? <==> forall k :: 0 <= k < |subs| ==> EndTime(subs[k]).None?
    ensures w.start.Some? ==> exists k :: 0 <= k < |subs| && subs[k].startTime == w.start
    ensures w.end.Some? ==> exists k :: 0 <= k < |subs| && EndTime(subs[k]) == w.end
    ensures |subs| > 0 ==> w.minutes == TotalMinutes(subs)
  {
    if |subs| == 0 then Window(None, 0, None)
    else Window(EarliestStart(subs), TotalMinutes(subs), LatestEnd(subs))
  }

  /** Writes a derived window into an epic and touches nothing else. */
  function WithWindow(e: Item, w: Window): (r: Item)
    requires e.Epic?
    ensures r.Epic? && r.startTime == w.start && r.duration == Some(w.minutes) && r.endTime == w.end
    ensures r.(startTime := e.startTime, duration := e.duration, endTime := e.endTime) == e
  {
    e.(startTime := w.start, duration := Some(w.minutes), endTime := w.end)
  }
}

=== FILE: file_text.dfy ===
/** The file as text.  `save` ends every line it writes with "\n";
    `loadFromFile` reads the text back with `BufferedReader.readLine`,
    which ends a line at "\n", "\r" or "\r\n". */
module FileText {

  predicate IsBreak(c: char) {
    c == '\n' || c == '\r'
  }

  /** Holds no line break. */
  predicate OneLine(s: string) {
    forall k :: 0 <= k < |s| ==> !IsBreak(s[k])
  }

  /** No line holds a break of its own. */
  predicate AllOneLine(lines: seq<string>) {
    forall i :: 0 <= i < |lines| ==> OneLine(lines[i])
  }

  /** The text `save` writes: each line followed by "\n". */
  function Text(lines: seq<string>): string {
    if |lines| == 0 then "" else lines[0] + "\n" + Text(lines[1..])
  }

  /** Where the first line ends: at the first break, or at the end. */
  function BreakAt(t: string): (k: nat)
    ensures k <= |t|
    ensures forall i :: 0 <= i < k ==> !IsBreak(t[i])
    ensures k < |t| ==> IsBreak(t[k])
  {
    if |t| == 0 || IsBreak(t[0]) then 0 else 1 + BreakAt(t[1..])
  }

  /** `readLine` until it returns `null`: a line runs up to the first
      "\n", "\r" or "\r\n", which is dropped; text after the last break is
      a last line; empty text has no line at all. */
  function ReadLines(t: string): (r: seq<string>)
    ensures forall i :: 0 <= i < |r| ==> OneLine(r[i])
    ensures |t| > 0 ==> |r| > 0
    decreases |t|
  {
    if |t| == 0 then []
    else
      var k := BreakAt(t);
      if k == |t| then [t]
      else
        var next := if t[k] == '\r' && k + 1 < |t| && t[k + 1] == '\n' then k + 2 else k + 1;
        var rest := ReadLines(t[next..]);
        assert forall i :: 0 < i < 1 + |rest| ==> ([t[..k]] + rest)[i] == rest[i - 1];
        [t[..k]] + rest
  }

  /** A line without breaks, then "\n": the first break is the "\n". */
  lemma {:induction false} BreakAfter(line: string, rest: string)
    requires OneLine(line)
    ensures BreakAt(line + "\n" + rest) == |line|
    decreases |line|
  {
    var t := line + "\n" + rest;
    if |line| > 0 {
      assert t[1..] == line[1..] + "\n" + rest;
      BreakAfter(line[1..], rest);
    }
  }

  /** One `readLine` takes a line without breaks and its "\n". */
  lemma ReadFirst(line: string, rest: string)
    requires OneLine(line)
    ensures ReadLines(line + "\n" + rest) == [line] + ReadLines(rest)
  {
    var t := line + "\n" + rest;
    var n := |line|;
    BreakAfter(line, rest);
    assert t[..n] == line;
    assert t[n + 1..] == rest;
  }

  /** Reading back what `save` wrote gives the same lines, as long as no
      line holds a break of its own. */
  lemma {:induction false} ReadText(lines: seq<string>)
    requires AllOneLine(lines)
    ensures ReadLines(Text(lines)) == lines
    decreases |lines|
  {
    if |lines| > 0 {
      ReadFirst(lines[0], Text(lines[1..]));
      ReadText(lines[1..]);
      assert lines == [lines[0]] + lines[1..];
    }
  }

  /** A line with a break of its own comes back as two lines. */
  lemma BreakSplits(first: string, a: string, b: string)
    requires OneLine(first) && OneLine(a) && OneLine(b)
    ensures ReadLines(Text([first, a + "\n" + b])) == [first, a, b]
  {
    assert [first, a, b][1..] == [a, b] && [a, b][1..] == [b] && [b][1..] == [];
    assert [first, a + "\n" + b][1..] == [a + "\n" + b] && [a + "\n" + b][1..] == [];
    assert Text([b]) == b + "\n" + Text([]);
    assert Text([a, b]) == a + "\n" + (b + "\n" + "");
    assert Text([a + "\n" + b]) == Text([a, b]);
    assert Text([first, a + "\n" + b]) == Text([first, a, b]);
    ReadText([first, a, b]);
  }

  /** Lines without breaks, put together, still have none. */
  lemma AllOneLineConcat(a: seq<string>, b: seq<string>)
    requires AllOneLine(a) && AllOneLine(b)
    ensures AllOneLine(a + b)
  {
    forall i | 0 <= i < |a + b|
      ensures OneLine((a + b)[i])
    {
      if i >= |a| {
        assert (a + b)[i] == b[i - |a|];
      }
    }
  }

  /** Joined lines without breaks hold none. */
  lemma OneLineConcat(a: string, b: string)
    requires OneLine(a) && OneLine(b)
    ensures OneLine(a + b)
  {
    forall k | 0 <= k < |a + b|
      ensures !IsBreak((a + b)[k])
    {
      if k >= |a| {
        assert (a + b)[k] == b[k - |a|];
      }
    }
  }
}

=== FILE: history.dfy ===
/** `InMemoryHistoryManager`: the list of entities returned by successful
    `get*` calls, oldest first, capped at the ten most recent.  The list is
    append-only apart from that cap: an entity fetched twice appears twice.
    Java keeps references, so an entry shows later in-place changes to the
    same object (an epic's subtask list, status and time window); entries
    here are the values as they were at the time of the call. */
module History {
  import opened Wrappers
  import opened Tasks

  const HISTORY_LIMIT: nat := 10

  /** `add(task)`: ignores `null`; otherwise appends and, when the list has
      grown past the limit, drops the single oldest entry. */
  function Add(h: seq<Item>, t: Option<Item>): (r: seq<Item>)
    ensures t.None? ==> r == h
    ensures t.Some? ==> |r| == (if |h| + 1 > HISTORY_LIMIT then |h| else |h| + 1)
    ensures t.Some? ==> r == (h + [t.value])[|h| + 1 - |r|..]
    ensures t.Some? ==> r[|r| - 1] == t.value
  {
    if t.None? then h
    else
      var grown := h + [t.value];
      if |grown| > HISTORY_LIMIT then grown[1..] else grown
  }

  /** `add` keeps the list within the limit. */
  lemma AddKeepsLimit(h: seq<Item>, t: Option<Item>)
    requires |h| <= HISTORY_LIMIT
    ensures |Add(h, t)| <= HISTORY_LIMIT
    ensures t.Some? && |h| < HISTORY_LIMIT ==> Add(h, t) == h + [t.value]
  {
  }

  /** `add` brings in nothing but the entity added. */
  lemma AddOnlyAppends(h: seq<Item>, t: Item)
    ensures forall x :: x in Add(h, Some(t)) ==> x in h || x == t
  {
    var r := Add(h, Some(t));
    forall x | x in r
      ensures x in h || x == t
    {
      var k :| 0 <= k < |r| && r[k] == x;
      assert x in h + [t];
    }
  }

  /** A run of `add` calls, in call order. */
  function AddAll(h: seq<Item>, ts: seq<Item>): seq<Item>
    decreases |ts|
  {
    if |ts| == 0 then h else AddAll(Add(h, Some(ts[0])), ts[1..])
  }

  /** The `HISTORY_LIMIT` most recent entries of `s`. */
  function Recent(s: seq<Item>): (r: seq<Item>)
    ensures |r| == if |s| > HISTORY_LIMIT then HISTORY_LIMIT else |s|
    ensures forall k :: 0 <= k < |r| ==> r[k] == s[|s| - |r| + k]
  {
    if |s| <= HISTORY_LIMIT then s else s[|s| - HISTORY_LIMIT..]
  }

  /** One `add` keeps the recent window of the grown list. */
  lemma AddIsRecent(h: seq<Item>, t: Item)
    requires |h| <= HISTORY_LIMIT
    ensures Add(h, Some(t)) == Recent(h + [t])
  {
  }

  /** Cutting to the window early changes nothing once more entries are
      appended and the result is cut again. */
  lemma RecentAppend(a: seq<Item>, b: seq<Item>)
    ensures Recent(Recent(a) + b) == Recent(a + b)
  {
    var x := Recent(Recent(a) + b);
    var y := Recent(a + b);
    assert |x| == |y|;
    forall k | 0 <= k < |x|
      ensures x[k] == y[k]
    {
      var ra := Recent(a);
      var i := |ra| + |b| - |x| + k;
      if i < |ra| {
        assert (ra + b)[i] == ra[i] == a[|a| - |ra| + i];
      } else {
        assert (ra + b)[i] == b[i - |ra|];
      }
    }
  }

  /** After any run of `add` calls the history is the most recent
      `HISTORY_LIMIT` entities of the old history followed by the new calls,
      in call order. */
  lemma {:induction false} AddAllKeepsRecentWindow(h: seq<Item>, ts: seq<Item>)
    requires |h| <= HISTORY_LIMIT
    ensures AddAll(h, ts) == Recent(h + ts)
    decreases |ts|
  {
    if |ts| == 0 {
      assert h + ts == h;
    } else {
      var h1 := Add(h, Some(ts[0]));
      var rest := ts[1..];
      AddIsRecent(h, ts[0]);
      AddAllKeepsRecentWindow(h1, rest);
      RecentAppend(h + [ts[0]], rest);
      MoveFirst(h, ts);
    }
  }

  lemma MoveFirst(h: seq<Item>, ts: seq<Item>)
    requires |ts| > 0
    ensures (h + [ts[0]]) + ts[1..] == h + ts
  {
    assert [ts[0]] + ts[1..] == ts;
  }

  /** `remove(id)`: drops every entry with this id and keeps the rest in
      order. */
  function Remove(h: seq<Item>, id: int): (r: seq<Item>)
    ensures forall x :: x in r <==> x in h && x.id != id
    ensures (forall k :: 0 <= k < |h| ==> h[k].id != id) ==> r == h
    ensures |r| <= |h|
  {
    if |h| == 0 then []
    else if h[0].id == id then Remove(h[1..], id)
    else [h[0]] + Remove(h[1..], id)
  }

  /** Removing a whole set of ids, as the `clearAll*` operations do one id
      at a time. */
  function RemoveAll(h: seq<Item>, ids: set<int>): (r: seq<Item>)
    ensures forall x :: x in r <==> x in h && x.id !in ids
    ensures (forall k :: 0 <= k < |h| ==> h[k].id !in ids) ==> r == h
    ensures |r| <= |h|
  {
    if |h| == 0 then []
    else if h[0].id in ids then RemoveAll(h[1..], ids)
    else [h[0]] + RemoveAll(h[1..], ids)
  }

  /** `remove` works entry by entry: a single entry is kept exactly when
      its id differs ... */
  lemma RemoveOne(x: Item, id: int)
    ensures Remove([x], id) == if x.id == id then [] else [x]
  {
    assert [x][1..] == [];
  }

  /** ... and the surviving entries of two halves stay in the order of the
      halves.  With `RemoveOne` this pins the result down to the
      order-preserving filter. */
  lemma {:induction false} RemoveConcat(a: seq<Item>, b: seq<Item>, id: int)
    ensures Remove(a + b, id) == Remove(a, id) + Remove(b, id)
    decreases |a|
  {
    if |a| == 0 {
      assert a + b == b;
    } else {
      var t := a[1..];
      assert (a + b)[0] == a[0];
      assert (a + b)[1..] == t + b;
      RemoveConcat(t, b, id);
      if a[0].id != id {
        assert [a[0]] + (Remove(t, id) + Remove(b, id)) == ([a[0]] + Remove(t, id)) + Remove(b, id);
      }
    }
  }

  /** The same two facts for a set of ids. */
  lemma RemoveAllOne(x: Item, ids: set<int>)
    ensures RemoveAll([x], ids) == if x.id in ids then [] else [x]
  {
    assert [x][1..] == [];
  }

  lemma {:induction false} RemoveAllConcat(a: seq<Item>, b: seq<Item>, ids: set<int>)
    ensures RemoveAll(a + b, ids) == RemoveAll(a, ids) + RemoveAll(b, ids)
    decreases |a|
  {
    if |a| == 0 {
      assert a + b == b;
    } else {
      var t := a[1..];
      assert (a + b)[0] == a[0];
      assert (a + b)[1..] == t + b;
      RemoveAllConcat(t, b, ids);
      if a[0].id !in ids {
        assert [a[0]] + (RemoveAll(t, ids) + RemoveAll(b, ids)) == ([a[0]] + RemoveAll(t, ids)) + RemoveAll(b, ids);
      }
    }
  }

  /** Every entry with another id keeps its number of copies. */
  lemma {:induction false} RemoveKeepsCopies(h: seq<Item>, id: int, x: Item)
    requires x.id != id
    ensures multiset(Remove(h, id))[x] == multiset(h)[x]
  {
    if |h| > 0 {
      var t := h[1..];
      RemoveKeepsCopies(t, id, x);
      assert h == [h[0]] + t;
      assert multiset(h) == multiset([h[0]]) + multiset(t);
      if h[0].id != id {
        assert multiset(Remove(h, id)) == multiset([h[0]]) + multiset(Remove(t, id));
      }
    }
  }

  /** The same for a set of ids. */
  lemma {:induction false} RemoveAllKeepsCopies(h: seq<Item>, ids: set<int>, x: Item)
    requires x.id !in ids
    ensures multiset(RemoveAll(h, ids))[x] == multiset(h)[x]
  {
    if |h| > 0 {
      var t := h[1..];
      RemoveAllKeepsCopies(t, ids, x);
      assert h == [h[0]] + t;
      assert multiset(h) == multiset([h[0]]) + multiset(t);
      if h[0].id !in ids {
        assert multiset(RemoveAll(h, ids)) == multiset([h[0]]) + multiset(RemoveAll(t, ids));
      }
    }
  }

  /** Evicting ids one by one is the same as evicting the set at once. */
  lemma {:induction false} RemoveThenRemoveAll(h: seq<Item>, id: int, ids: set<int>)
    ensures RemoveAll(Remove(h, id), ids) == RemoveAll(h, ids + {id})
  {
    if |h| > 0 {
      RemoveThenRemoveAll(h[1..], id, ids);
      if h[0].id != id {
        assert Remove(h, id)[1..] == Remove(h[1..], id);
      }
    }
  }

  /** One step of evicting the ids of a list, first id first. */
  lemma EvictFirst(h: seq<Item>, ids: seq<int>)
    requires |ids| > 0
    ensures RemoveAll(Remove(h, ids[0]), set i | i in ids[1..]) == RemoveAll(h, set i | i in ids)
  {
    RemoveThenRemoveAll(h, ids[0], set i | i in ids[1..]);
    assert ids == [ids[0]] + ids[1..];
    assert (set i | i in ids[1..]) + {ids[0]} == set i | i in ids;
  }

  /** Evicting a set and then one more id is evicting the larger set. */
  lemma {:induction false} RemoveAllThenRemove(h: seq<Item>, ids: set<int>, id: int)
    ensures Remove(RemoveAll(h, ids), id) == RemoveAll(h, ids + {id})
  {
    if |h| > 0 {
      RemoveAllThenRemove(h[1..], ids, id);
      if h[0].id !in ids {
        assert RemoveAll(h, ids)[1..] == RemoveAll(h[1..], ids);
      }
    }
  }

  /** The scenario of the tests: three fetches are kept in call order. */
  lemma HistoryIsCallOrder(a: Item, b: Item, c: Item)
    ensures AddAll([], [a, b, c]) == [a, b, c]
  {
    AddAllKeepsRecentWindow([], [a, b, c]);
  }
}

=== FILE: manager.dfy ===
/** `InMemoryTaskManager`: three id-to-entity maps, one id counter shared by
    all kinds, the prioritized index and the history, with the add, get,
    update, delete and clear operations for each kind.

    The manager is a value; every operation returns the next value.  An
    operation that throws in Java returns a `Step` whose result is `Err`
    and whose state is the state Java leaves behind after the throw. */
module TaskManager {
  import opened Wrappers
  import opened Tasks
  import History
  import Schedule
  import opened Epics

  datatype State = State(
    tasks: map<int, Item>,
    epics: map<int, Item>,
    subtasks: map<int, Item>,
    nextId: int,
    prioritized: seq<Item>,
    history: seq<Item>)

  /** The exceptions the operations throw. */
  datatype Error =
    | EpicNotFound(epicId: int)   // addSubtask: IllegalArgumentException
    | TimeConflict(id: int)       // ensureNoOverlap: IllegalStateException
    | NullEpic(epicId: int)       // updateSubtask: NullPointerException

  /** The state after an operation together with its outcome. */
  datatype Step<T> = Step(state: State, result: Result<T, Error>)

  /** The state after a `get*` call together with the entity, or `None` for
      Java's `null`. */
  datatype Read = Read(state: State, found: Option<Item>)

  /** `new InMemoryTaskManager(...)`. */
  function Empty(): (m: State)
    ensures m.tasks == map[] && m.epics == map[] && m.subtasks == map[]
    ensures m.nextId == 1 && m.prioritized == [] && m.history == []
  {
    State(map[], map[], map[], 1, [], [])
  }

  /** Each map holds entities of its own kind, as Java's typed maps do. */
  predicate Typed(m: State) {
    && (forall k :: k in m.tasks ==> m.tasks[k].Task?)
    && (forall k :: k in m.epics ==> m.epics[k].Epic?)
    && (forall k :: k in m.subtasks ==> m.subtasks[k].Subtask?)
  }

  /** `b` is `a` with at most its status and time window recomputed. */
  predicate Restamped(a: Item, b: Item) {
    && a.Epic? && b.Epic? && a.id == b.id && a.name == b.name
    && a.description == b.description && a.subtaskIds == b.subtaskIds
  }

  /** Every id stored under any kind. */
  function Keys(m: State): set<int> {
    m.tasks.Keys + m.epics.Keys + m.subtasks.Keys
  }

  /** `x` is a stored task or subtask with a start: what the index holds. */
  predicate Scheduled(m: State, x: Item) {
    && x.startTime.Some?
    && ((x.id in m.tasks && m.tasks[x.id] == x) || (x.id in m.subtasks && m.subtasks[x.id] == x))
  }

  /** Each entity is stored under its own id, in the map of its kind; no id
      is used twice; the counter is past every id handed out. */
  ghost predicate StoreValid(m: State) {
    && Typed(m)
    && (forall k :: k in m.tasks ==> m.tasks[k].id == k)
    && (forall k :: k in m.epics ==> m.epics[k].id == k)
    && (forall k :: k in m.subtasks ==> m.subtasks[k].id == k)
    && m.tasks.Keys !! m.epics.Keys && m.tasks.Keys !! m.subtasks.Keys
    && m.epics.Keys !! m.subtasks.Keys
    && 1 <= m.nextId
    && (forall k :: k in Keys(m) ==> k < m.nextId)
  }

  /** The index is in comparator order and holds exactly the stored tasks
      and subtasks that have a start. */
  ghost predicate IndexValid(m: State) {
    && Schedule.Ordered(m.prioritized)
    && (forall x :: x in m.prioritized <==> Scheduled(m, x))
  }

  /** The history is within its limit and names only stored ids. */
  ghost predicate HistoryValid(m: State) {
    && |m.history| <= History.HISTORY_LIMIT
    && (forall x :: x in m.history ==> x.id in Keys(m))
  }

  ghost predicate Valid(m: State) {
    StoreValid(m) && IndexValid(m) && HistoryValid(m)
  }

  // ---------------------------------------------------------------------
  // Side structures

  /** `addToPrioritizedIfHasStart`. */
  function IndexAdd(idx: seq<Item>, t: Item): (r: seq<Item>)
    ensures t.startTime.None? ==> r == idx
    ensures Schedule.Ordered(idx) ==> Schedule.Ordered(r)
  {
    if t.startTime.Some? then Schedule.Insert(idx, t) else idx
  }

  /** `removeFromPrioritizedIfHasStart`. */
  function IndexRemove(idx: seq<Item>, t: Item): (r: seq<Item>)
    ensures t.startTime.None? ==> r == idx
    ensures Schedule.Ordered(idx) ==> Schedule.Ordered(r)
  {
    if t.startTime.Some? then Schedule.Remove(idx, t) else idx
  }

  /** The stored items that have a start: the hash set each `clearAll*`
      hands to `removeAll`. */
  function Timed(store: map<int, Item>): set<Item> {
    set k | k in store && store[k].startTime.Some? :: store[k]
  }

  /** The store holds each item under its own id, every index entry has a
      start, and an entry with a stored id is that stored item.  An update
      rejected for a missing epic leaves a stale entry that breaks the last
      part. */
  ghost predicate IndexAgrees(idx: seq<Item>, store: map<int, Item>) {
    && (forall k :: k in store ==> store[k].id == k)
    && (forall x :: x in idx ==> x.startTime.Some?)
    && (forall x :: x in idx && x.id in store ==> store[x.id] == x)
  }

  /** `prioritizedTasks.removeAll` of the timed items of `store`, as each
      `clearAll*` calls it.  Only index entries go, and under the agreement
      above exactly those whose id the store holds go, whichever strategy
      `removeAll` takes. */
  function RemoveStored(idx: seq<Item>, store: map<int, Item>): (r: seq<Item>)
    ensures forall x :: x in r ==> x in idx
    ensures Schedule.Ordered(idx) ==> Schedule.Ordered(r)
    ensures IndexAgrees(idx, store) ==> forall x :: x in r <==> x in idx && x.id !in store
  {
    var c := Timed(store);
    assert IndexAgrees(idx, store) ==> forall x :: x in idx ==> (x.id in Schedule.Ids(c) <==> x.id in store) by {
      if IndexAgrees(idx, store) {
        forall x | x in idx
          ensures x.id in Schedule.Ids(c) <==> x.id in store
        {
          if x.id in store {
            assert store[x.id] == x && x in c;
          }
          if x.id in Schedule.Ids(c) {
            var y :| y in c && y.id == x.id;
            var k :| k in store && store[k].startTime.Some? && store[k] == y;
          }
        }
        forall x, y | x in idx && y in c && x.id == y.id
          ensures x.startTime == y.startTime
        {
          var k :| k in store && store[k].startTime.Some? && store[k] == y;
        }
        Schedule.RemoveAllAgrees(idx, c);
      }
    }
    Schedule.RemoveAll(idx, c)
  }


  /** `getEpicSubtasks(epicId)`: the epic's listed subtasks that are stored,
      in list order; no epic gives an empty list. */
  function EpicSubtasks(m: State, epicId: int): (r: seq<Item>)
    ensures epicId !in m.epics ==> r == []
    ensures forall x :: x in r ==> x in m.subtasks.Values
    ensures epicId in m.epics && m.epics[epicId].Epic? ==>
      && |r| <= |m.epics[epicId].subtaskIds|
      && (forall i :: i in m.epics[epicId].subtaskIds && i in m.subtasks ==> m.subtasks[i] in r)
      && (forall x :: x in r ==> Listed(m.subtasks, m.epics[epicId].subtaskIds, x))
  {
    if epicId in m.epics && m.epics[epicId].Epic? then
      ResolveContents(m.subtasks, m.epics[epicId].subtaskIds);
      Resolve(m.subtasks, m.epics[epicId].subtaskIds)
    else []
  }

  /** `updateEpicStatus(epic)` for the stored epic with this id. */
  function RefreshStatus(m: State, epicId: int): (r: State)
    ensures r.tasks == m.tasks && r.subtasks == m.subtasks && r.nextId == m.nextId
    ensures r.prioritized == m.prioritized && r.history == m.history
    ensures r.epics.Keys == m.epics.Keys
    ensures epicId in m.epics && m.epics[epicId].Epic? ==>
      r.epics == m.epics[epicId := SetStatus(m.epics[epicId], DeriveStatus(EpicSubtasks(m, epicId)))]
    ensures !(epicId in m.epics && m.epics[epicId].Epic?) ==> r == m
  {
    if epicId in m.epics && m.epics[epicId].Epic? then
      var e := m.epics[epicId];
      m.(epics := m.epics[epicId := SetStatus(e, DeriveStatus(EpicSubtasks(m, epicId)))])
    else m
  }

  /** `updateEpicTime(epic)` for the stored epic with this id. */
  function RefreshWindow(m: State, epicId: int): (r: State)
    ensures r.tasks == m.tasks && r.subtasks == m.subtasks && r.nextId == m.nextId
    ensures r.prioritized == m.prioritized && r.history == m.history
    ensures r.epics.Keys == m.epics.Keys
    ensures epicId in m.epics && m.epics[epicId].Epic? ==>
      r.epics == m.epics[epicId := WithWindow(m.epics[epicId], DeriveWindow(EpicSubtasks(m, epicId)))]
    ensures !(epicId in m.epics && m.epics[epicId].Epic?) ==> r == m
  {
    if epicId in m.epics && m.epics[epicId].Epic? then
      var e := m.epics[epicId];
      m.(epics := m.epics[epicId := WithWindow(e, DeriveWindow(EpicSubtasks(m, epicId)))])
    else m
  }

  /** The stored epic's status is the one its subtasks give. */
  predicate StatusDerived(m: State, epicId: int) {
    epicId in m.epics && m.epics[epicId].status == DeriveStatus(EpicSubtasks(m, epicId))
  }

  /** The stored epic's window is the one its subtasks give. */
  predicate WindowDerived(m: State, epicId: int) {
    && epicId in m.epics
    && var w := DeriveWindow(EpicSubtasks(m, epicId));
    && m.epics[epicId].startTime == w.start
    && m.epics[epicId].duration == Some(w.minutes)
    && EndTime(m.epics[epicId]) == w.end
  }

  /** Recomputing status then window leaves both derived. */
  function Refresh(m: State, epicId: int): (r: State)
    ensures epicId in m.epics && m.epics[epicId].Epic? ==>
      StatusDerived(r, epicId) && WindowDerived(r, epicId)
    ensures r.tasks == m.tasks && r.subtasks == m.subtasks && r.nextId == m.nextId
    ensures r.prioritized == m.prioritized && r.history == m.history
    ensures r.epics.Keys == m.epics.Keys
    ensures forall k :: k in m.epics && k != epicId ==> r.epics[k] == m.epics[k]
    ensures forall k :: k in m.epics && m.epics[k].Epic? ==> Restamped(m.epics[k], r.epics[k])
  {
    var m1 := RefreshStatus(m, epicId);
    assert EpicSubtasks(m1, epicId) == EpicSubtasks(m, epicId);
    RefreshWindow(m1, epicId)
  }

  // ---------------------------------------------------------------------
  // Add

  /** `addTask`: the id is taken from the counter before the overlap check,
      so a rejected task still uses one up. */
  function AddTask(m: State, t: Item): (r: Step<int>)
    requires t.Task?
    ensures r.state.nextId == m.nextId + 1
    ensures r.result.Err? ==> r.state == m.(nextId := m.nextId + 1)
    ensures r.result.Err? ==> r.result.error == TimeConflict(m.nextId)
    ensures r.result.Ok? ==> r.result.value == m.nextId
    ensures r.result.Ok? ==>
      && r.state.tasks == m.tasks[m.nextId := SetId(t, m.nextId)]
      && r.state.epics == m.epics && r.state.subtasks == m.subtasks
      && r.state.history == m.history
  {
    var id := m.nextId;
    var stored := SetId(t, id);
    var m1 := m.(nextId := id + 1);
    if Schedule.HasOverlap(m.prioritized, stored) then Step(m1, Err(TimeConflict(id)))
    else Step(m1.(tasks := m.tasks[id := stored], prioritized := IndexAdd(m.prioritized, stored)), Ok(id))
  }

  /** `addEpic`: stores the epic under a fresh id and derives its window;
      the status is kept as given. */
  function AddEpic(m: State, e: Item): (r: Step<int>)
    requires e.Epic?
    ensures r.result == Ok(m.nextId) && r.state.nextId == m.nextId + 1
    ensures m.nextId in r.state.epics && WindowDerived(r.state, m.nextId)
    ensures r.state.epics[m.nextId].status == e.status
    ensures Restamped(SetId(e, m.nextId), r.state.epics[m.nextId])
    ensures r.state.tasks == m.tasks && r.state.subtasks == m.subtasks
    ensures r.state.prioritized == m.prioritized && r.state.history == m.history
    ensures r.state.epics.Keys == m.epics.Keys + {m.nextId}
    ensures forall k :: k in m.epics && k != m.nextId ==> r.state.epics[k] == m.epics[k]
  {
    var id := m.nextId;
    var m1 := m.(nextId := id + 1, epics := m.epics[id := SetId(e, id)]);
    assert EpicSubtasks(RefreshWindow(m1, id), id) == EpicSubtasks(m1, id);
    Step(RefreshWindow(m1, id), Ok(id))
  }

  /** `addSubtask`: fails before taking an id when its epic is not stored;
      otherwise takes an id, checks for overlap, links the subtask to its
      epic and recomputes the epic's status and window. */
  function AddSubtask(m: State, s: Item): (r: Step<int>)
    requires s.Subtask? && Typed(m)
    ensures s.epicId !in m.epics ==> r == Step(m, Err(EpicNotFound(s.epicId)))
    ensures s.epicId in m.epics ==> r.state.nextId == m.nextId + 1
    ensures r.result.Err? && s.epicId in m.epics ==>
      r.state == m.(nextId := m.nextId + 1) && r.result.error == TimeConflict(m.nextId)
    ensures r.result.Ok? ==>
      && s.epicId in m.epics
      && r.result.value == m.nextId
      && r.state.subtasks == m.subtasks[m.nextId := SetId(s, m.nextId)]
      && r.state.tasks == m.tasks && r.state.history == m.history
      && r.state.epics.Keys == m.epics.Keys
      && r.state.epics[s.epicId].Epic?
      && r.state.epics[s.epicId].subtaskIds == m.epics[s.epicId].subtaskIds + [m.nextId]
      && Restamped(AddSubtaskId(m.epics[s.epicId], m.nextId), r.state.epics[s.epicId])
      && StatusDerived(r.state, s.epicId) && WindowDerived(r.state, s.epicId)
      && (forall k :: k in m.epics && k != s.epicId ==> r.state.epics[k] == m.epics[k])
  {
    if s.epicId !in m.epics then Step(m, Err(EpicNotFound(s.epicId)))
    else
      var id := m.nextId;
      var stored := SetId(s, id);
      var m1 := m.(nextId := id + 1);
      if Schedule.HasOverlap(m.prioritized, stored) then Step(m1, Err(TimeConflict(id)))
      else
        Step(Refresh(Linked(m, s), s.epicId), Ok(id))
  }

  /** The state `addSubtask` reaches once the subtask is stored, linked to
      its epic and indexed, before the epic is recomputed. */
  function Linked(m: State, s: Item): State
    requires s.Subtask? && Typed(m) && s.epicId in m.epics
  {
    var id := m.nextId;
    var stored := SetId(s, id);
    m.(nextId := id + 1,
       subtasks := m.subtasks[id := stored],
       epics := m.epics[s.epicId := AddSubtaskId(m.epics[s.epicId], id)],
       prioritized := IndexAdd(m.prioritized, stored))
  }

  // ---------------------------------------------------------------------
  // Get

  /** `getTask`, `getEpic`, `getSubtask`: a found entity is recorded in the
      history; a missing one changes nothing. */
  function Get(m: State, store: map<int, Item>, id: int): (r: Read)
    ensures id !in store ==> r == Read(m, None)
    ensures id in store ==> r.found == Some(store[id])
    ensures id in store ==> r.state == m.(history := History.Add(m.history, Some(store[id])))
  {
    if id in store then Read(m.(history := History.Add(m.history, Some(store[id]))), Some(store[id]))
    else Read(m, None)
  }

  function GetTask(m: State, id: int): (r: Read)
    ensures r.found.Some? <==> id in m.tasks
    ensures r.found.Some? ==> r.found.value == m.tasks[id]
    ensures r.found.Some? ==> r.state == m.(history := History.Add(m.history, r.found))
    ensures r.found.None? ==> r.state == m
  {
    Get(m, m.tasks, id)
  }

  function GetEpic(m: State, id: int): (r: Read)
    ensures r.found.Some? <==> id in m.epics
    ensures r.found.Some? ==> r.found.value == m.epics[id]
    ensures r.found.Some? ==> r.state == m.(history := History.Add(m.history, r.found))
    ensures r.found.None? ==> r.state == m
  {
    Get(m, m.epics, id)
  }

  function GetSubtask(m: State, id: int): (r: Read)
    ensures r.found.Some? <==> id in m.subtasks
    ensures r.found.Some? ==> r.found.value == m.subtasks[id]
    ensures r.found.Some? ==> r.state == m.(history := History.Add(m.history, r.found))
    ensures r.found.None? ==> r.state == m
  {
    Get(m, m.subtasks, id)
  }

  // ---------------------------------------------------------------------
  // Update

  /** `updateTask`: unknown ids are ignored.  The old entry leaves the
      index before the overlap check and is put back if the check fails. */
  function UpdateTask(m: State, t: Item): (r: Step<()>)
    requires t.Task?
    ensures t.id !in m.tasks ==> r == Step(m, Ok(()))
    ensures r.result.Err? ==> r.result.error == TimeConflict(t.id)
    ensures r.result.Err? ==>
      r.state == m.(prioritized := IndexAdd(IndexRemove(m.prioritized, m.tasks[t.id]), m.tasks[t.id]))
    ensures r.result.Ok? && t.id in m.tasks ==>
      && r.state.tasks == m.tasks[t.id := t]
      && r.state.epics == m.epics && r.state.subtasks == m.subtasks
      && r.state.nextId == m.nextId && r.state.history == m.history
  {
    if t.id !in m.tasks then Step(m, Ok(()))
    else
      var prev := m.tasks[t.id];
      var idx := IndexRemove(m.prioritized, prev);
      if Schedule.HasOverlap(idx, t) then Step(m.(prioritized := IndexAdd(idx, prev)), Err(TimeConflict(t.id)))
      else Step(m.(tasks := m.tasks[t.id := t], prioritized := IndexAdd(idx, t)), Ok(()))
  }

  /** `updateEpic`: replaces the stored epic wholesale, subtask list
      included, then recomputes its status and window. */
  function UpdateEpic(m: State, e: Item): (r: State)
    requires e.Epic?
    ensures e.id !in m.epics ==> r == m
    ensures e.id in m.epics ==>
      && r.epics.Keys == m.epics.Keys
      && Restamped(e, r.epics[e.id])
      && StatusDerived(r, e.id) && WindowDerived(r, e.id)
      && (forall k :: k in m.epics && k != e.id ==> r.epics[k] == m.epics[k])
    ensures r.tasks == m.tasks && r.subtasks == m.subtasks && r.nextId == m.nextId
    ensures r.prioritized == m.prioritized && r.history == m.history
  {
    if e.id !in m.epics then m
    else Refresh(m.(epics := m.epics[e.id := e]), e.id)
  }

  /** `updateSubtask`: like `updateTask`, and on success recomputes only
      the window of the epic its new value names, not its status.  When
      that epic is not stored, Java dereferences `null` inside the `try`:
      the catch block puts the old entry back into the index, but the new
      subtask is already stored and indexed. */
  function UpdateSubtask(m: State, s: Item): (r: Step<()>)
    requires s.Subtask?
    ensures s.id !in m.subtasks ==> r == Step(m, Ok(()))
    ensures r.result.Err? && r.result.error.TimeConflict? ==>
      r.state == m.(prioritized := IndexAdd(IndexRemove(m.prioritized, m.subtasks[s.id]), m.subtasks[s.id]))
    ensures r.result.Ok? && s.id in m.subtasks ==>
      && s.epicId in m.epics
      && r.state.subtasks == m.subtasks[s.id := s]
      && r.state.tasks == m.tasks && r.state.epics.Keys == m.epics.Keys
      && r.state.nextId == m.nextId && r.state.history == m.history
      && (m.epics[s.epicId].Epic? ==> WindowDerived(r.state, s.epicId))
      && (m.epics[s.epicId].Epic? ==> Restamped(m.epics[s.epicId], r.state.epics[s.epicId]))
      && (forall k :: k in m.epics ==> r.state.epics[k].status == m.epics[k].status)
      && (forall k :: k in m.epics && k != s.epicId ==> r.state.epics[k] == m.epics[k])
    ensures r.result.Err? && r.result.error.NullEpic? ==>
      s.epicId !in m.epics && r.state.subtasks == m.subtasks[s.id := s]
  {
    if s.id !in m.subtasks then Step(m, Ok(()))
    else
      var prev := m.subtasks[s.id];
      var idx := IndexRemove(m.prioritized, prev);
      if Schedule.HasOverlap(idx, s) then Step(m.(prioritized := IndexAdd(idx, prev)), Err(TimeConflict(s.id)))
      else
        var m1 := m.(subtasks := m.subtasks[s.id := s], prioritized := IndexAdd(idx, s));
        if s.epicId in m.epics then
          var r := RefreshWindow(m1, s.epicId);
          assert m.epics[s.epicId].Epic? ==> EpicSubtasks(r, s.epicId) == EpicSubtasks(m1, s.epicId);
          Step(r, Ok(()))
        else Step(m1.(prioritized := IndexAdd(m1.prioritized, prev)), Err(NullEpic(s.epicId)))
  }

  // ---------------------------------------------------------------------
  // Delete

  /** `deleteTask`: removes the task if stored and always evicts the id from
      the history, whatever kind it names. */
  function DeleteTask(m: State, id: int): (r: State)
    ensures r.tasks == m.tasks - {id}
    ensures r.epics == m.epics && r.subtasks == m.subtasks && r.nextId == m.nextId
    ensures r.history == History.Remove(m.history, id)
    ensures id !in m.tasks ==> r.prioritized == m.prioritized
  {
    var idx := if id in m.tasks then IndexRemove(m.prioritized, m.tasks[id]) else m.prioritized;
    m.(tasks := m.tasks - {id}, prioritized := idx, history := History.Remove(m.history, id))
  }

  /** A subtask id leaves the map and the index if stored, and the history
      in any case: one step of the cascade in `deleteEpic`, and the part of
      `deleteSubtask` that does not touch the epic. */
  function DropSubtask(m: State, sid: int): (r: State)
    ensures r.subtasks == m.subtasks - {sid}
    ensures r.tasks == m.tasks && r.epics == m.epics && r.nextId == m.nextId
    ensures r.history == History.Remove(m.history, sid)
  {
    var idx := if sid in m.subtasks then IndexRemove(m.prioritized, m.subtasks[sid]) else m.prioritized;
    m.(subtasks := m.subtasks - {sid}, prioritized := idx, history := History.Remove(m.history, sid))
  }

  /** The cascade over an epic's subtask list, in list order. */
  function Cascade(m: State, ids: seq<int>): (r: State)
    ensures r.subtasks.Keys == m.subtasks.Keys - set i | i in ids
    ensures forall k :: k in r.subtasks ==> r.subtasks[k] == m.subtasks[k]
    ensures r.tasks == m.tasks && r.epics == m.epics && r.nextId == m.nextId
    ensures forall x :: x in r.history <==> x in m.history && x.id !in ids
    ensures |r.history| <= |m.history|
    decreases |ids|
  {
    if |ids| == 0 then m
    else
      var m1 := DropSubtask(m, ids[0]);
      var r := Cascade(m1, ids[1..]);
      assert ids == [ids[0]] + ids[1..];
      r
  }

  /** The cascade evicts exactly the listed ids from the history and keeps
      every other entry where it was, copies included. */
  lemma {:induction false} CascadeHistory(m: State, ids: seq<int>)
    ensures Cascade(m, ids).history == History.RemoveAll(m.history, set i | i in ids)
    decreases |ids|
  {
    if |ids| == 0 {
      assert (set i | i in ids) == {};
    } else {
      CascadeHistory(DropSubtask(m, ids[0]), ids[1..]);
      History.EvictFirst(m.history, ids);
    }
  }

  /** `deleteEpic`: removes a stored epic and every subtask it lists from
      the maps, the index and the history; an unknown id changes nothing. */
  function DeleteEpic(m: State, id: int): (r: State)
    ensures id !in m.epics ==> r == m
    ensures id in m.epics ==> r.epics == m.epics - {id}
    ensures id in m.epics && m.epics[id].Epic? ==>
      && r.subtasks.Keys == m.subtasks.Keys - set i | i in m.epics[id].subtaskIds
      && (forall x :: x in r.history <==> x in m.history && x.id != id && x.id !in m.epics[id].subtaskIds)
      && r.history == History.RemoveAll(m.history, (set i | i in m.epics[id].subtaskIds) + {id})
    ensures id in m.epics && !m.epics[id].Epic? ==> r.history == History.Remove(m.history, id)
    ensures forall k :: k in r.subtasks ==> k in m.subtasks && r.subtasks[k] == m.subtasks[k]
    ensures r.tasks == m.tasks && r.nextId == m.nextId
  {
    if id !in m.epics then m
    else
      var e := m.epics[id];
      var m1 := m.(epics := m.epics - {id});
      var m2 := if e.Epic? then Cascade(m1, e.subtaskIds) else m1;
      if e.Epic? then
        CascadeHistory(m1, e.subtaskIds);
        History.RemoveAllThenRemove(m.history, (set i | i in e.subtaskIds), id);
        m2.(history := History.Remove(m2.history, id))
      else m2.(history := History.Remove(m2.history, id))
  }

  /** `deleteSubtask`: removes a stored subtask, unlinks it from its epic if
      that epic is stored and recomputes the epic's status and window. */
  function DeleteSubtask(m: State, id: int): (r: State)
    requires Typed(m)
    ensures id !in m.subtasks ==> r == m
    ensures r.subtasks == m.subtasks - {id}
    ensures r.tasks == m.tasks && r.nextId == m.nextId && r.epics.Keys == m.epics.Keys
    ensures id in m.subtasks ==> r.history == History.Remove(m.history, id)
    ensures id in m.subtasks && m.subtasks[id].epicId in m.epics && m.epics[m.subtasks[id].epicId].Epic? ==>
      var eid := m.subtasks[id].epicId;
      && r.epics[eid].Epic?
      && multiset(r.epics[eid].subtaskIds) == multiset(m.epics[eid].subtaskIds) - multiset{id}
      && Restamped(RemoveSubtaskId(m.epics[eid], id), r.epics[eid])
      && StatusDerived(r, eid) && WindowDerived(r, eid)
    ensures id in m.subtasks ==>
      forall k :: k in m.epics && k != m.subtasks[id].epicId ==> r.epics[k] == m.epics[k]
  {
    if id !in m.subtasks then m
    else
      // Java drops the id from the history last; the epic update does not
      // touch the history, so the order does not matter.
      var m1 := DropSubtask(m, id);
      var eid := m.subtasks[id].epicId;
      if eid in m.epics then Unlink(m1, eid, id) else m1
  }

  /** The part of `deleteSubtask` that touches the epic: the id leaves its
      list and the epic is recomputed; nothing else changes. */
  function Unlink(m: State, eid: int, id: int): (r: State)
    requires eid in m.epics && m.epics[eid].Epic?
    ensures r.tasks == m.tasks && r.subtasks == m.subtasks && r.nextId == m.nextId
    ensures r.prioritized == m.prioritized && r.history == m.history
    ensures r.epics.Keys == m.epics.Keys
    ensures r.epics[eid].Epic?
    ensures multiset(r.epics[eid].subtaskIds) == multiset(m.epics[eid].subtaskIds) - multiset{id}
    ensures Restamped(RemoveSubtaskId(m.epics[eid], id), r.epics[eid])
    ensures StatusDerived(r, eid) && WindowDerived(r, eid)
    ensures forall k :: k in m.epics && k != eid ==> r.epics[k] == m.epics[k]
  {
    var e := RemoveSubtaskId(m.epics[eid], id);
    var m2 := m.(epics := m.epics[eid := e]);
    var r := Refresh(m2, eid);
    assert m2.epics[eid] == e && e.Epic?;
    assert Restamped(e, r.epics[eid]);
    assert r.epics[eid].subtaskIds == e.subtaskIds;
    r
  }

  // ---------------------------------------------------------------------
  // Clear

  /** `clearAllTasks`. */
  function ClearAllTasks(m: State): (r: State)
    ensures r.tasks == map[] && r.epics == m.epics && r.subtasks == m.subtasks
    ensures r.nextId == m.nextId
    ensures r.history == History.RemoveAll(m.history, m.tasks.Keys)
    ensures IndexAgrees(m.prioritized, m.tasks) ==>
      forall x :: x in r.prioritized <==> x in m.prioritized && x.id !in m.tasks
  {
    m.(tasks := map[],
       prioritized := RemoveStored(m.prioritized, m.tasks),
       history := History.RemoveAll(m.history, m.tasks.Keys))
  }

  /** `clearAllEpics`: every epic and every subtask goes. */
  function ClearAllEpics(m: State): (r: State)
    ensures r.epics == map[] && r.subtasks == map[] && r.tasks == m.tasks
    ensures r.nextId == m.nextId
    ensures r.history == History.RemoveAll(m.history, m.epics.Keys + m.subtasks.Keys)
    ensures IndexAgrees(m.prioritized, m.subtasks) ==>
      forall x :: x in r.prioritized <==> x in m.prioritized && x.id !in m.subtasks
  {
    m.(epics := map[], subtasks := map[],
       prioritized := RemoveStored(m.prioritized, m.subtasks),
       history := History.RemoveAll(m.history, m.epics.Keys + m.subtasks.Keys))
  }

  /** An epic after its subtask list is cleared and recomputed. */
  function ResetEpic(e: Item): (r: Item)
    requires e.Epic?
    ensures r.Epic? && r.id == e.id && r.name == e.name && r.description == e.description
    ensures r.subtaskIds == [] && r.status == DeriveStatus([])
    ensures r.duration.Some? && Window(r.startTime, r.duration.value, r.endTime) == DeriveWindow([])
  {
    WithWindow(e.(subtaskIds := [], status := DeriveStatus([])), DeriveWindow([]))
  }

  /** `clearAllSubtasks`: every subtask goes and every epic is left empty,
      NEW, and without a window. */
  function ClearAllSubtasks(m: State): (r: State)
    requires Typed(m)
    ensures r.subtasks == map[] && r.tasks == m.tasks && r.nextId == m.nextId
    ensures r.epics.Keys == m.epics.Keys
    ensures forall k :: k in r.epics ==> StatusDerived(r, k) && WindowDerived(r, k)
    ensures forall k :: k in r.epics ==> r.epics[k].Epic? && r.epics[k].subtaskIds == [] && r.epics[k].status == NEW
    ensures forall k :: k in m.epics ==> r.epics[k] == ResetEpic(m.epics[k])
    ensures r.history == History.RemoveAll(m.history, m.subtasks.Keys)
    ensures IndexAgrees(m.prioritized, m.subtasks) ==>
      forall x :: x in r.prioritized <==> x in m.prioritized && x.id !in m.subtasks
  {
    m.(epics := map k | k in m.epics :: ResetEpic(m.epics[k]),
       subtasks := map[],
       prioritized := RemoveStored(m.prioritized, m.subtasks),
       history := History.RemoveAll(m.history, m.subtasks.Keys))
  }
}

=== FILE: manager_facts.dfy ===
/** What the manager's operations keep true, and what they promise about
    ids, the index and the history. */
module ManagerFacts {
  import opened Wrappers
  import opened Tasks
  import History
  import Schedule
  import opened Epics
  import opened TaskManager

  // ---------------------------------------------------------------------
  // The index under the invariant

  /** Indexed entries are told apart by id, and every one has a start and
      an id below the counter. */
  lemma IndexIds(m: State)
    requires StoreValid(m) && IndexValid(m)
    ensures forall x, y :: x in m.prioritized && y in m.prioritized && x.id == y.id ==> x == y
    ensures forall x :: x in m.prioritized ==> x.startTime.Some? && x.id in Keys(m) && x.id < m.nextId
  {
  }

  /** Taking a stored entity out of the index drops exactly the entry with
      its id. */
  lemma IndexRemoveStored(m: State, t: Item)
    requires StoreValid(m) && IndexValid(m)
    requires (t.id in m.tasks && m.tasks[t.id] == t) || (t.id in m.subtasks && m.subtasks[t.id] == t)
    ensures Schedule.Ordered(IndexRemove(m.prioritized, t))
    ensures forall x :: x in IndexRemove(m.prioritized, t) <==> x in m.prioritized && x.id != t.id
  {
    IndexIds(m);
    forall x | x in m.prioritized && x.id == t.id
      ensures x == t
    {
      assert Scheduled(m, x);
    }
  }

  /** Adding an entity whose id the index does not hold adds exactly it,
      when it has a start. */
  lemma IndexAddFresh(idx: seq<Item>, t: Item)
    requires Schedule.Ordered(idx)
    requires forall x :: x in idx ==> x.id != t.id
    ensures Schedule.Ordered(IndexAdd(idx, t))
    ensures forall x :: x in IndexAdd(idx, t) <==> x in idx || (x == t && t.startTime.Some?)
  {
  }

  // ---------------------------------------------------------------------
  // Each operation keeps the invariant

  lemma EmptyValid()
    ensures Valid(Empty())
  {
  }

  lemma AddTaskValid(m: State, t: Item)
    requires Valid(m) && t.Task?
    ensures Valid(AddTask(m, t).state)
    ensures AddTask(m, t).result.Ok? ==> AddTask(m, t).result.value !in Keys(m)
  {
    var r := AddTask(m, t).state;
    if AddTask(m, t).result.Ok? {
      GrowValid(m, r, SetId(t, m.nextId));
    } else {
      BumpValid(m);
    }
  }

  /** Using up an id without storing anything keeps the invariant. */
  lemma BumpValid(m: State)
    requires Valid(m)
    ensures Valid(m.(nextId := m.nextId + 1))
  {
    var r := m.(nextId := m.nextId + 1);
    assert Keys(r) == Keys(m);
    forall x
      ensures Scheduled(r, x) <==> Scheduled(m, x)
    {
    }
  }

  /** Storing a fresh task or subtask under the next id, and indexing it,
      keeps the invariant as long as the epics keep their kind and ids. */
  lemma GrowValid(m: State, r: State, stored: Item)
    requires Valid(m) && stored.id == m.nextId && (stored.Task? || stored.Subtask?)
    requires r.nextId == m.nextId + 1 && r.history == m.history
    requires r.epics.Keys == m.epics.Keys
    requires forall k :: k in r.epics ==> r.epics[k].Epic? && r.epics[k].id == k
    requires stored.Task? ==> r.tasks == m.tasks[stored.id := stored] && r.subtasks == m.subtasks
    requires stored.Subtask? ==> r.subtasks == m.subtasks[stored.id := stored] && r.tasks == m.tasks
    requires r.prioritized == IndexAdd(m.prioritized, stored)
    ensures Valid(r)
  {
    GrowStore(m, r, stored);
    GrowScheduled(m, r, stored);
    IndexIds(m);
    IndexAddFresh(m.prioritized, stored);
  }

  lemma GrowStore(m: State, r: State, stored: Item)
    requires StoreValid(m) && stored.id == m.nextId && (stored.Task? || stored.Subtask?)
    requires r.nextId == m.nextId + 1
    requires r.epics.Keys == m.epics.Keys
    requires forall k :: k in r.epics ==> r.epics[k].Epic? && r.epics[k].id == k
    requires stored.Task? ==> r.tasks == m.tasks[stored.id := stored] && r.subtasks == m.subtasks
    requires stored.Subtask? ==> r.subtasks == m.subtasks[stored.id := stored] && r.tasks == m.tasks
    ensures StoreValid(r) && Keys(r) == Keys(m) + {stored.id}
  {
  }

  /** The grown state schedules what the old one did, and the new entity
      when it has a start. */
  lemma GrowScheduled(m: State, r: State, stored: Item)
    requires StoreValid(m) && stored.id == m.nextId && (stored.Task? || stored.Subtask?)
    requires stored.Task? ==> r.tasks == m.tasks[stored.id := stored] && r.subtasks == m.subtasks
    requires stored.Subtask? ==> r.subtasks == m.subtasks[stored.id := stored] && r.tasks == m.tasks
    ensures forall x :: Scheduled(r, x) <==> Scheduled(m, x) || (x == stored && stored.startTime.Some?)
  {
    forall x
      ensures Scheduled(r, x) <==> Scheduled(m, x) || (x == stored && stored.startTime.Some?)
    {
      if x.id == stored.id {
        assert x.id !in Keys(m);
      }
    }
  }

  /** Changing epics in place, keeping their kind and id, keeps the
      invariant. */
  lemma EpicsRelabelled(m: State, r: State)
    requires Valid(m)
    requires r.tasks == m.tasks && r.subtasks == m.subtasks && r.nextId == m.nextId
    requires r.prioritized == m.prioritized && r.history == m.history
    requires r.epics.Keys == m.epics.Keys
    requires forall k :: k in r.epics ==> r.epics[k].Epic? && r.epics[k].id == k
    ensures Valid(r)
  {
    assert Keys(r) == Keys(m);
    forall x
      ensures Scheduled(r, x) <==> Scheduled(m, x)
    {
    }
  }

  lemma RefreshValid(m: State, epicId: int)
    requires Valid(m)
    ensures Valid(Refresh(m, epicId))
  {
    EpicsRelabelled(m, Refresh(m, epicId));
  }

  lemma AddEpicValid(m: State, e: Item)
    requires Valid(m) && e.Epic?
    ensures Valid(AddEpic(m, e).state)
    ensures AddEpic(m, e).result.value !in Keys(m)
  {
    var id := m.nextId;
    var m1 := m.(nextId := id + 1, epics := m.epics[id := SetId(e, id)]);
    assert Keys(m1) == Keys(m) + {id};
    forall x
      ensures Scheduled(m1, x) <==> Scheduled(m, x)
    {
    }
    assert Valid(m1);
    EpicsRelabelled(m1, AddEpic(m, e).state);
  }

  lemma LinkedValid(m: State, s: Item)
    requires Valid(m) && s.Subtask? && s.epicId in m.epics
    ensures Valid(Linked(m, s))
  {
    GrowValid(m, Linked(m, s), SetId(s, m.nextId));
  }

  lemma AddSubtaskValid(m: State, s: Item)
    requires Valid(m) && s.Subtask?
    ensures Valid(AddSubtask(m, s).state)
    ensures AddSubtask(m, s).result.Ok? ==> AddSubtask(m, s).result.value !in Keys(m)
  {
    if AddSubtask(m, s).result.Ok? {
      LinkedValid(m, s);
      RefreshValid(Linked(m, s), s.epicId);
      assert AddSubtask(m, s).state == Refresh(Linked(m, s), s.epicId);
    } else if s.epicId in m.epics {
      BumpValid(m);
    }
  }

  /** Reading keeps the invariant: the history stays within its limit and
      gains only the stored entity read. */
  lemma GetValid(m: State, id: int)
    requires Valid(m)
    ensures Valid(GetTask(m, id).state) && Valid(GetEpic(m, id).state) && Valid(GetSubtask(m, id).state)
  {
    GetKeeps(m, m.tasks, id);
    GetKeeps(m, m.epics, id);
    GetKeeps(m, m.subtasks, id);
  }

  lemma GetKeeps(m: State, store: map<int, Item>, id: int)
    requires Valid(m)
    requires store == m.tasks || store == m.epics || store == m.subtasks
    ensures Valid(Get(m, store, id).state)
  {
    if id in store {
      History.AddKeepsLimit(m.history, Some(store[id]));
      History.AddOnlyAppends(m.history, store[id]);
      HistoryOnly(m, History.Add(m.history, Some(store[id])));
    }
  }

  /** Replacing the history by one within the limit that names only stored
      ids keeps the invariant. */
  lemma HistoryOnly(m: State, h: seq<Item>)
    requires StoreValid(m) && IndexValid(m)
    requires |h| <= History.HISTORY_LIMIT && forall x :: x in h ==> x.id in Keys(m)
    ensures Valid(m.(history := h))
  {
    var r := m.(history := h);
    assert Keys(r) == Keys(m);
    forall x
      ensures Scheduled(r, x) <==> Scheduled(m, x)
    {
    }
  }

  // ---------------------------------------------------------------------
  // Update

  /** Putting a stored task or subtask back after taking it out of the
      index restores the index exactly. */
  lemma IndexRestored(m: State, prev: Item)
    requires StoreValid(m) && IndexValid(m)
    requires (prev.id in m.tasks && m.tasks[prev.id] == prev) || (prev.id in m.subtasks && m.subtasks[prev.id] == prev)
    ensures IndexAdd(IndexRemove(m.prioritized, prev), prev) == m.prioritized
  {
    var idx := IndexRemove(m.prioritized, prev);
    IndexRemoveStored(m, prev);
    IndexAddFresh(idx, prev);
    forall x
      ensures x in IndexAdd(idx, prev) <==> x in m.prioritized
    {
      if x == prev {
        assert x in m.prioritized <==> Scheduled(m, x);
      }
    }
    Schedule.OrderedSameElements(IndexAdd(idx, prev), m.prioritized);
  }

  /** A rejected `updateTask` leaves the manager as it was; an accepted one
      keeps the invariant. */
  lemma UpdateTaskValid(m: State, t: Item)
    requires Valid(m) && t.Task?
    ensures Valid(UpdateTask(m, t).state)
    ensures UpdateTask(m, t).result.Err? ==> UpdateTask(m, t).state == m
  {
    if t.id in m.tasks {
      var prev := m.tasks[t.id];
      IndexRestored(m, prev);
      if UpdateTask(m, t).result.Ok? {
        var idx := IndexRemove(m.prioritized, prev);
        IndexRemoveStored(m, prev);
        IndexAddFresh(idx, t);
        var r := UpdateTask(m, t).state;
        assert Keys(r) == Keys(m);
        forall x
          ensures x in r.prioritized <==> Scheduled(r, x)
        {
          if x.id != t.id {
            assert Scheduled(r, x) <==> Scheduled(m, x);
          }
        }
      }
    }
  }

  lemma UpdateEpicValid(m: State, e: Item)
    requires Valid(m) && e.Epic?
    ensures Valid(UpdateEpic(m, e))
  {
    if e.id in m.epics {
      var m1 := m.(epics := m.epics[e.id := e]);
      EpicsRelabelled(m, m1);
      RefreshValid(m1, e.id);
    }
  }

  /** `updateSubtask` keeps the invariant, except when the new value names
      an epic that is not stored (see `NullEpicLeavesStaleEntry`); a
      rejection for overlap leaves the manager as it was. */
  lemma UpdateSubtaskValid(m: State, s: Item)
    requires Valid(m) && s.Subtask?
    ensures UpdateSubtask(m, s).result != Err(NullEpic(s.epicId)) ==> Valid(UpdateSubtask(m, s).state)
    ensures UpdateSubtask(m, s).result.Err? && UpdateSubtask(m, s).result.error.TimeConflict? ==>
      UpdateSubtask(m, s).state == m
  {
    if s.id in m.subtasks {
      var prev := m.subtasks[s.id];
      IndexRestored(m, prev);
      var idx := IndexRemove(m.prioritized, prev);
      if !Schedule.HasOverlap(idx, s) && s.epicId in m.epics {
        IndexRemoveStored(m, prev);
        IndexAddFresh(idx, s);
        var m1 := m.(subtasks := m.subtasks[s.id := s], prioritized := IndexAdd(idx, s));
        assert Keys(m1) == Keys(m);
        forall x
          ensures x in m1.prioritized <==> Scheduled(m1, x)
        {
          if x.id != s.id {
            assert Scheduled(m1, x) <==> Scheduled(m, x);
          }
        }
        assert Valid(m1);
        EpicsRelabelled(m1, RefreshWindow(m1, s.epicId));
      }
    }
  }

  // ---------------------------------------------------------------------
  // Delete

  lemma DeleteTaskValid(m: State, id: int)
    requires Valid(m)
    ensures Valid(DeleteTask(m, id))
    ensures id !in Keys(DeleteTask(m, id)) || id in m.epics || id in m.subtasks
    ensures forall x :: x in DeleteTask(m, id).history ==> x.id != id
  {
    var r := DeleteTask(m, id);
    if id in m.tasks {
      IndexRemoveStored(m, m.tasks[id]);
    }
    assert Keys(r) == Keys(m) - (if id in m.tasks then {id} else {});
    forall x
      ensures x in r.prioritized <==> Scheduled(r, x)
    {
      if x.id != id || id !in m.tasks {
        assert Scheduled(r, x) <==> Scheduled(m, x);
      }
    }
  }

  /** One cascade step keeps the store and the index consistent and drops
      the id from the history. */
  lemma DropSubtaskValid(m: State, sid: int)
    requires StoreValid(m) && IndexValid(m)
    ensures StoreValid(DropSubtask(m, sid)) && IndexValid(DropSubtask(m, sid))
    ensures Keys(DropSubtask(m, sid)) == Keys(m) - (if sid in m.subtasks then {sid} else {})
  {
    var r := DropSubtask(m, sid);
    if sid in m.subtasks {
      IndexRemoveStored(m, m.subtasks[sid]);
    }
    assert Keys(r) == Keys(m) - (if sid in m.subtasks then {sid} else {});
    forall x
      ensures x in r.prioritized <==> Scheduled(r, x)
    {
      if x.id != sid || sid !in m.subtasks {
        assert Scheduled(r, x) <==> Scheduled(m, x);
      }
    }
  }

  lemma {:induction false} CascadeValid(m: State, ids: seq<int>)
    requires StoreValid(m) && IndexValid(m)
    ensures StoreValid(Cascade(m, ids)) && IndexValid(Cascade(m, ids))
    decreases |ids|
  {
    if |ids| > 0 {
      DropSubtaskValid(m, ids[0]);
      CascadeValid(DropSubtask(m, ids[0]), ids[1..]);
    }
  }

  /** The cascade removes exactly the listed ids that name stored subtasks. */
  lemma CascadeKeys(m: State, ids: seq<int>)
    requires StoreValid(m)
    ensures Keys(Cascade(m, ids)) == Keys(m) - (m.subtasks.Keys * set i | i in ids)
  {
  }

  lemma DeleteEpicValid(m: State, id: int)
    requires Valid(m)
    ensures Valid(DeleteEpic(m, id))
  {
    if id in m.epics {
      var e := m.epics[id];
      var m1 := m.(epics := m.epics - {id});
      assert Keys(m1) == Keys(m) - {id};
      forall x
        ensures Scheduled(m1, x) <==> Scheduled(m, x)
      {
      }
      CascadeValid(m1, e.subtaskIds);
      CascadeKeys(m1, e.subtaskIds);
      var m2 := Cascade(m1, e.subtaskIds);
      var r := DeleteEpic(m, id);
      assert r == m2.(history := History.Remove(m2.history, id));
      forall x | x in r.history
        ensures x.id in Keys(r)
      {
        assert x in m.history;
      }
      HistoryOnly(m2, r.history);
    }
  }

  lemma DeleteSubtaskValid(m: State, id: int)
    requires Valid(m)
    ensures Valid(DeleteSubtask(m, id))
  {
    if id in m.subtasks {
      DropSubtaskValid(m, id);
      var m1 := DropSubtask(m, id);
      HistoryOnly(m1, m1.history);
      assert m1.(history := m1.history) == m1;
      var eid := m.subtasks[id].epicId;
      if eid in m.epics {
        var m2 := m1.(epics := m.epics[eid := RemoveSubtaskId(m.epics[eid], id)]);
        EpicsRelabelled(m1, m2);
        RefreshValid(m2, eid);
      }
    }
  }

  // ---------------------------------------------------------------------
  // Clear

  /** A consistent manager agrees with both stores, so `removeAll` drops
      exactly their entries. */
  lemma ValidAgrees(m: State)
    requires StoreValid(m) && IndexValid(m)
    ensures IndexAgrees(m.prioritized, m.tasks) && IndexAgrees(m.prioritized, m.subtasks)
  {
    forall x | x in m.prioritized
      ensures x.startTime.Some?
      ensures x.id in m.tasks ==> m.tasks[x.id] == x
      ensures x.id in m.subtasks ==> m.subtasks[x.id] == x
    {
      assert Scheduled(m, x);
    }
  }

  lemma ClearAllTasksValid(m: State)
    requires Valid(m)
    ensures Valid(ClearAllTasks(m))
  {
    ValidAgrees(m);
    var r := ClearAllTasks(m);
    assert Keys(r) == Keys(m) - m.tasks.Keys;
    forall x
      ensures x in r.prioritized <==> Scheduled(r, x)
    {
      if x.id !in m.tasks {
        assert Scheduled(r, x) <==> Scheduled(m, x);
      }
    }
  }

  lemma ClearAllEpicsValid(m: State)
    requires Valid(m)
    ensures Valid(ClearAllEpics(m))
  {
    ValidAgrees(m);
    var r := ClearAllEpics(m);
    assert Keys(r) == Keys(m) - m.epics.Keys - m.subtasks.Keys;
    forall x
      ensures x in r.prioritized <==> Scheduled(r, x)
    {
      if x.id !in m.subtasks {
        assert Scheduled(r, x) <==> Scheduled(m, x);
      }
    }
  }

  lemma ClearAllSubtasksValid(m: State)
    requires Valid(m)
    ensures Valid(ClearAllSubtasks(m))
  {
    ClearAllSubtasksIndexed(m);
    ClearAllSubtasksStored(m);
    ClearAllSubtasksHistory(m);
  }

  lemma ClearAllSubtasksHistory(m: State)
    requires Valid(m)
    ensures HistoryValid(ClearAllSubtasks(m))
  {
    var r := ClearAllSubtasks(m);
    assert Keys(r) == Keys(m) - m.subtasks.Keys;
  }

  lemma ClearAllSubtasksStored(m: State)
    requires Valid(m)
    ensures StoreValid(ClearAllSubtasks(m))
  {
    var r := ClearAllSubtasks(m);
    EpicsOnlyStoreValid(m, r);
  }

  /** Store validity survives when only the epics change, keeping their
      keys, kinds and ids, and the subtasks go. */
  lemma EpicsOnlyStoreValid(m: State, r: State)
    requires StoreValid(m)
    requires r.tasks == m.tasks && r.subtasks == map[] && r.nextId == m.nextId
    requires r.epics.Keys == m.epics.Keys
    requires forall k :: k in r.epics ==> r.epics[k].Epic? && r.epics[k].id == k
    ensures StoreValid(r)
  {
    assert Keys(r) == Keys(m) - m.subtasks.Keys;
  }

  lemma ClearAllSubtasksIndexed(m: State)
    requires Valid(m)
    ensures IndexValid(ClearAllSubtasks(m))
  {
    ValidAgrees(m);
    var r := ClearAllSubtasks(m);
    forall x
      ensures x in r.prioritized <==> Scheduled(r, x)
    {
      if x.id !in m.subtasks {
        assert Scheduled(r, x) <==> Scheduled(m, x);
      }
    }
  }

  // ---------------------------------------------------------------------
  // The overlap check against the whole schedule

  /** Every indexed entity has a positive duration and no two overlap. */
  ghost predicate ScheduleSound(m: State) {
    Schedule.AllPositive(m.prioritized) && Schedule.Disjoint(m.prioritized)
  }

  /** A candidate that is either unscheduled or has a positive duration. */
  predicate Plannable(t: Item) {
    t.startTime.None? || (t.duration.Some? && t.duration.value > 0)
  }

  /** An unscheduled candidate conflicts with nothing and is not indexed. */
  lemma UnscheduledNeverConflicts(idx: seq<Item>, c: Item)
    requires c.startTime.None?
    ensures !Schedule.HasOverlap(idx, c) && !Schedule.ConflictsWithAny(idx, c)
    ensures IndexAdd(idx, c) == idx
  {
  }

  /** The neighbour check decides the candidate against the whole index,
      and accepting it keeps the index sound. */
  lemma AdmitExact(idx: seq<Item>, c: Item)
    requires Schedule.Ordered(idx) && Schedule.AllPositive(idx) && Schedule.Disjoint(idx)
    requires forall x :: x in idx ==> x.id != c.id
    requires Plannable(c)
    ensures Schedule.HasOverlap(idx, c) <==> Schedule.ConflictsWithAny(idx, c)
    ensures !Schedule.HasOverlap(idx, c) ==>
      var r := IndexAdd(idx, c);
      Schedule.Ordered(r) && Schedule.AllPositive(r) && Schedule.Disjoint(r)
  {
    if c.startTime.None? {
      UnscheduledNeverConflicts(idx, c);
    } else {
      Schedule.NeighbourCheckExact(idx, c);
      if !Schedule.HasOverlap(idx, c) {
        Schedule.InsertKeepsDisjoint(idx, c);
      }
    }
  }

  /** On a sound schedule `addTask` rejects a task exactly when some indexed
      entity overlaps it, and keeps the schedule sound. */
  lemma AddTaskSchedule(m: State, t: Item)
    requires Valid(m) && ScheduleSound(m) && t.Task? && Plannable(t)
    ensures AddTask(m, t).result.Err? <==> Schedule.ConflictsWithAny(m.prioritized, SetId(t, m.nextId))
    ensures ScheduleSound(AddTask(m, t).state)
  {
    IndexIds(m);
    AdmitExact(m.prioritized, SetId(t, m.nextId));
  }

  /** The same for `addSubtask` when its epic is stored. */
  lemma AddSubtaskSchedule(m: State, s: Item)
    requires Valid(m) && ScheduleSound(m) && s.Subtask? && Plannable(s) && s.epicId in m.epics
    ensures AddSubtask(m, s).result.Err? <==> Schedule.ConflictsWithAny(m.prioritized, SetId(s, m.nextId))
    ensures ScheduleSound(AddSubtask(m, s).state)
  {
    IndexIds(m);
    AdmitExact(m.prioritized, SetId(s, m.nextId));
  }

  /** Whether another entity than the one with the candidate's id
      conflicts does not depend on that one being indexed. */
  lemma ConflictsIgnoreOwnEntry(idx: seq<Item>, idx1: seq<Item>, c: Item)
    requires forall x :: x in idx1 <==> x in idx && x.id != c.id
    ensures Schedule.ConflictsWithAny(idx1, c) <==> Schedule.ConflictsWithAny(idx, c)
  {
    if Schedule.ConflictsWithAny(idx1, c) {
      var k :| 0 <= k < |idx1| && idx1[k].id != c.id && Schedule.Overlaps(idx1[k], c);
      assert idx1[k] in idx;
      var j :| 0 <= j < |idx| && idx[j] == idx1[k];
    }
    if Schedule.ConflictsWithAny(idx, c) {
      var k :| 0 <= k < |idx| && idx[k].id != c.id && Schedule.Overlaps(idx[k], c);
      assert idx[k] in idx1;
      var j :| 0 <= j < |idx1| && idx1[j] == idx[k];
    }
  }

  /** On a sound schedule `updateTask` rejects the new value exactly when
      an entity with another id overlaps it, and keeps the schedule sound. */
  lemma UpdateTaskSchedule(m: State, t: Item)
    requires Valid(m) && ScheduleSound(m) && t.Task? && Plannable(t) && t.id in m.tasks
    ensures UpdateTask(m, t).result.Err? <==> Schedule.ConflictsWithAny(m.prioritized, t)
    ensures ScheduleSound(UpdateTask(m, t).state)
  {
    UpdateTaskValid(m, t);
    var prev := m.tasks[t.id];
    var idx := IndexRemove(m.prioritized, prev);
    IndexRemoveStored(m, prev);
    Schedule.SubsetKeepsDisjoint(m.prioritized, idx);
    AdmitExact(idx, t);
    ConflictsIgnoreOwnEntry(m.prioritized, idx, t);
  }

  /** The same for `updateSubtask` when the epic its new value names is
      stored. */
  lemma UpdateSubtaskSchedule(m: State, s: Item)
    requires Valid(m) && ScheduleSound(m) && s.Subtask? && Plannable(s) && s.id in m.subtasks
    requires s.epicId in m.epics
    ensures UpdateSubtask(m, s).result.Err? <==> Schedule.ConflictsWithAny(m.prioritized, s)
    ensures ScheduleSound(UpdateSubtask(m, s).state)
  {
    UpdateSubtaskValid(m, s);
    var prev := m.subtasks[s.id];
    var idx := IndexRemove(m.prioritized, prev);
    IndexRemoveStored(m, prev);
    Schedule.SubsetKeepsDisjoint(m.prioritized, idx);
    AdmitExact(idx, s);
    ConflictsIgnoreOwnEntry(m.prioritized, idx, s);
  }

  /** `r` stores no task or subtask that `m` does not. */
  predicate SubStore(r: State, m: State) {
    && (forall k :: k in r.tasks ==> k in m.tasks && r.tasks[k] == m.tasks[k])
    && (forall k :: k in r.subtasks ==> k in m.subtasks && r.subtasks[k] == m.subtasks[k])
  }

  lemma ShrinkKeepsSchedule(m: State, r: State)
    requires IndexValid(m) && IndexValid(r) && ScheduleSound(m) && SubStore(r, m)
    ensures ScheduleSound(r)
  {
    forall x | x in r.prioritized
      ensures x in m.prioritized
    {
      assert Scheduled(r, x);
    }
    Schedule.SubsetKeepsDisjoint(m.prioritized, r.prioritized);
  }

  /** Deleting keeps a sound schedule sound. */
  lemma DeletesKeepSchedule(m: State, id: int)
    requires Valid(m) && ScheduleSound(m)
    ensures ScheduleSound(DeleteTask(m, id))
    ensures ScheduleSound(DeleteEpic(m, id))
    ensures ScheduleSound(DeleteSubtask(m, id))
  {
    DeleteTaskValid(m, id);
    ShrinkKeepsSchedule(m, DeleteTask(m, id));
    DeleteEpicValid(m, id);
    ShrinkKeepsSchedule(m, DeleteEpic(m, id));
    DeleteSubtaskValid(m, id);
    ShrinkKeepsSchedule(m, DeleteSubtask(m, id));
  }

  /** Clearing keeps a sound schedule sound. */
  lemma ClearsKeepSchedule(m: State)
    requires Valid(m) && ScheduleSound(m)
    ensures ScheduleSound(ClearAllTasks(m))
    ensures ScheduleSound(ClearAllEpics(m))
    ensures ScheduleSound(ClearAllSubtasks(m))
  {
    ClearAllTasksValid(m);
    ShrinkKeepsSchedule(m, ClearAllTasks(m));
    ClearAllEpicsValid(m);
    ShrinkKeepsSchedule(m, ClearAllEpics(m));
    ClearAllSubtasksValid(m);
    ShrinkKeepsSchedule(m, ClearAllSubtasks(m));
  }

  // ---------------------------------------------------------------------
  // Behaviour the code has

  /** Ids are handed out in sequence, and a rejected add still uses one:
      the add after it gets the next id up. */
  lemma IdsAdvanceOnRejection(m: State, a: Item, b: Item)
    requires a.Task? && b.Task?
    ensures var first := AddTask(m, a);
            var second := AddTask(first.state, b);
            second.result.Ok? ==> second.result.value == m.nextId + 1
  {
  }

  /** An epic with one NEW subtask, both consistent. */
  function OneSubtask(start: Option<int>, minutes: Option<int>): State {
    var s := Subtask(2, "s", "", NEW, start, minutes, 1);
    State(map[], map[1 := Epic(1, "e", "", NEW, None, Some(0), None, [2])], map[2 := s], 3,
          if start.Some? then [s] else [], [])
  }

  /** The fixture is consistent: the subtask is indexed exactly when it has
      a start. */
  lemma OneSubtaskValid(start: Option<int>, minutes: Option<int>)
    ensures Valid(OneSubtask(start, minutes))
  {
    var m := OneSubtask(start, minutes);
    assert Keys(m) == {1, 2};
    assert forall x :: x in m.prioritized <==> Scheduled(m, x);
  }

  /** `updateSubtask` recomputes the epic's window but not its status: a
      subtask marked DONE leaves its only epic NEW. */
  lemma UpdateSubtaskLeavesStatusStale()
    ensures var m := OneSubtask(None, None);
            var r := UpdateSubtask(m, Subtask(2, "s", "", DONE, None, None, 1));
            && StatusDerived(m, 1)
            && r.result.Ok?
            && r.state.epics[1].status == NEW
            && DeriveStatus(EpicSubtasks(r.state, 1)) == DONE
            && !StatusDerived(r.state, 1)
  {
    var m := OneSubtask(None, None);
    assert EpicSubtasks(m, 1) == [m.subtasks[2]];
    var s2 := Subtask(2, "s", "", DONE, None, None, 1);
    var r := UpdateSubtask(m, s2);
    assert EpicSubtasks(r.state, 1) == [s2];
    assert AllHave([s2], DONE);
  }

  /** When the new value of a subtask names an epic that is not stored, the
      update fails, yet the new value stays stored and indexed and the old
      value is put back into the index as well: the index then holds two
      entries for one id. */
  lemma NullEpicLeavesStaleEntry()
    ensures var m := OneSubtask(Some(0), Some(10));
            var s := Subtask(2, "s", "", NEW, Some(100), Some(10), 9);
            var r := UpdateSubtask(m, s);
            && Valid(m)
            && r.result == Err(NullEpic(9))
            && r.state.subtasks[2] == s
            && m.subtasks[2] in r.state.prioritized && s in r.state.prioritized
            && !IndexValid(r.state)
  {
    var m := OneSubtask(Some(0), Some(10));
    var prev := m.subtasks[2];
    var s := Subtask(2, "s", "", NEW, Some(100), Some(10), 9);
    OneSubtaskValid(Some(0), Some(10));
    var idx := IndexRemove(m.prioritized, prev);
    assert idx == [];
    assert !Schedule.HasOverlap(idx, s);
    assert IndexAdd(idx, s) == [s];
    assert Schedule.Before(s, prev) || Schedule.Before(prev, s) || Schedule.SameKey(s, prev);
    var r := UpdateSubtask(m, s);
    assert prev in r.state.prioritized && !Scheduled(r.state, prev);
  }
  /** The state that rejected update leaves: the subtask is stored with
      its new start, and the index holds it next to its stale entry. */
  function StaleState(): State {
    var prev := Subtask(2, "s", "", NEW, Some(0), Some(10), 1);
    var s := Subtask(2, "s", "", NEW, Some(100), Some(10), 9);
    State(map[], OneSubtask(Some(0), Some(10)).epics, map[2 := s], 3, [prev, s], [])
  }

  lemma NullEpicGivesStaleState()
    ensures UpdateSubtask(OneSubtask(Some(0), Some(10)), Subtask(2, "s", "", NEW, Some(100), Some(10), 9)).state
         == StaleState()
  {
    var m := OneSubtask(Some(0), Some(10));
    var s := Subtask(2, "s", "", NEW, Some(100), Some(10), 9);
    NullEpicStep();
    StaleOrder();
    assert m.subtasks[2 := s] == map[2 := s];
  }

  /** The rejected update stores the subtask and puts its old entry back
      beside the new one. */
  lemma NullEpicStep()
    ensures var m := OneSubtask(Some(0), Some(10));
            var s := Subtask(2, "s", "", NEW, Some(100), Some(10), 9);
            UpdateSubtask(m, s).state == m.(subtasks := m.subtasks[2 := s], prioritized := IndexAdd([s], m.subtasks[2]))
  {
    var m := OneSubtask(Some(0), Some(10));
    var prev := m.subtasks[2];
    var s := Subtask(2, "s", "", NEW, Some(100), Some(10), 9);
    assert IndexRemove(m.prioritized, prev) == [];
    assert !Schedule.HasOverlap([], s);
    assert IndexAdd([], s) == [s];
  }

  lemma StaleOrder()
    ensures IndexAdd([Subtask(2, "s", "", NEW, Some(100), Some(10), 9)], Subtask(2, "s", "", NEW, Some(0), Some(10), 1))
         == [Subtask(2, "s", "", NEW, Some(0), Some(10), 1), Subtask(2, "s", "", NEW, Some(100), Some(10), 9)]
  {
    var prev := Subtask(2, "s", "", NEW, Some(0), Some(10), 1);
    var s := Subtask(2, "s", "", NEW, Some(100), Some(10), 9);
    assert Schedule.Ordered([s]) && Schedule.Ordered([prev, s]);
    Schedule.OrderedSameElements(IndexAdd([s], prev), [prev, s]);
  }

  /** Clearing the subtasks from that state keeps the stale entry: the
      index holds two entries and the hash set one, so `removeAll` removes
      by comparator key and misses the entry whose start is out of date. */
  lemma ClearKeepsStaleEntry()
    ensures ClearAllSubtasks(StaleState()).subtasks == map[]
    ensures ClearAllSubtasks(StaleState()).prioritized == [Subtask(2, "s", "", NEW, Some(0), Some(10), 1)]
  {
    StaleRemoval();
  }

  lemma StaleRemoval()
    ensures var s := Subtask(2, "s", "", NEW, Some(100), Some(10), 9);
            var prev := Subtask(2, "s", "", NEW, Some(0), Some(10), 1);
            RemoveStored([prev, s], map[2 := s]) == [prev]
  {
    var s := Subtask(2, "s", "", NEW, Some(100), Some(10), 9);
    assert (map[2 := s])[2] == s && s in Timed(map[2 := s]);
    assert Timed(map[2 := s]) == {s};
    Schedule.StrategyDecides();
  }


  /** `updateEpic` replaces the subtask list wholesale, so a subtask can
      drop out of its epic's list; `deleteEpic` then leaves it stored,
      naming an epic that is gone. */
  lemma DeleteEpicSparesUnlisted()
    ensures var m := OneSubtask(None, None);
            var r := DeleteEpic(UpdateEpic(m, Epic(1, "e", "", NEW, None, Some(0), None, [])), 1);
            && Valid(m)
            && 2 in r.subtasks && r.subtasks[2].epicId == 1 && 1 !in r.epics
  {
    OneSubtaskValid(None, None);
  }

  /** `getPrioritizedTasks` on a consistent manager: only tasks and
      subtasks, each with a start, stored under its id, in ascending
      (start, id) order. */
  lemma PrioritizedView(m: State)
    requires Valid(m)
    ensures forall x :: x in m.prioritized ==> (x.Task? || x.Subtask?) && x.startTime.Some?
    ensures forall x :: x in m.prioritized ==> x.id in Keys(m) && x.id !in m.epics
    ensures forall i, j :: 0 <= i < j < |m.prioritized| ==>
      Schedule.Before(m.prioritized[i], m.prioritized[j]) &&
      m.prioritized[i].startTime.value <= m.prioritized[j].startTime.value
  {
    forall x | x in m.prioritized
      ensures (x.Task? || x.Subtask?) && x.startTime.Some? && x.id in Keys(m) && x.id !in m.epics
    {
      assert Scheduled(m, x);
    }
  }

  /** A subtask never gets its epic's id: the epic's id was handed out
      before. */
  lemma SubtaskIdDiffersFromEpic(m: State, s: Item)
    requires Valid(m) && s.Subtask?
    ensures AddSubtask(m, s).result.Ok? ==> AddSubtask(m, s).result.value != s.epicId
  {
    if s.epicId in m.epics {
      assert s.epicId in Keys(m);
    }
  }

  /** Two tasks added late-first are listed early-first. */
  lemma EarlierStartListedFirst()
    ensures var t1 := Task(0, "T1", "D1", NEW, Some(780), Some(15));
            var t2 := Task(0, "T2", "D2", NEW, Some(720), Some(15));
            var first := AddTask(Empty(), t1);
            var second := AddTask(first.state, t2);
            && first.result == Ok(1) && second.result == Ok(2)
            && |second.state.prioritized| == 2
            && second.state.prioritized[0].id == 2 && second.state.prioritized[1].id == 1
  {
    var t1 := Task(0, "T1", "D1", NEW, Some(780), Some(15));
    var t2 := Task(0, "T2", "D2", NEW, Some(720), Some(15));
    var a := SetId(t1, 1);
    var b := SetId(t2, 2);
    assert !Schedule.HasOverlap([], a);
    assert Schedule.Insert([], a) == [a];
    var first := AddTask(Empty(), t1);
    assert first.state.prioritized == [a];
    assert Schedule.Rank([a], b) == 0;
    assert !Schedule.HasOverlap([a], b);
    assert Schedule.Insert([a], b) == [b, a];
  }
}

=== FILE: schedule.dfy ===
/** The prioritized index of `InMemoryTaskManager`: a `TreeSet` of tasks
    and subtasks ordered by start time (`null` last) and then by id, and
    the overlap check that consults only the two neighbours of a candidate
    in that order. */
module Schedule {
  import opened Wrappers
  import opened Tasks

  // ---------------------------------------------------------------------
  // The comparator

  /** Start times compared with `null` after every real time. */
  predicate StartBefore(x: Option<int>, y: Option<int>) {
    x.Some? && (y.None? || x.value < y.value)
  }

  /** `a` sorts strictly before `b`. */
  predicate Before(a: Item, b: Item) {
    StartBefore(a.startTime, b.startTime) || (a.startTime == b.startTime && a.id < b.id)
  }

  /** The comparator returns 0: the set treats `a` and `b` as one element. */
  predicate SameKey(a: Item, b: Item) {
    a.startTime == b.startTime && a.id == b.id
  }

  /** The comparator is a strict total order on keys. */
  lemma BeforeIsStrictOrder(a: Item, b: Item, c: Item)
    ensures !Before(a, a)
    ensures Before(a, b) ==> !Before(b, a) && !SameKey(a, b)
    ensures Before(a, b) || SameKey(a, b) || Before(b, a)
    ensures Before(a, b) && Before(b, c) ==> Before(a, c)
  {
  }

  /** Strictly ascending: what the tree keeps. */
  predicate Ordered(idx: seq<Item>) {
    forall i, j :: 0 <= i < j < |idx| ==> Before(idx[i], idx[j])
  }

  // ---------------------------------------------------------------------
  // Navigation

  /** How many leading entries sort before `c`; in an ordered index this is
      where `c` belongs. */
  function Rank(idx: seq<Item>, c: Item): (p: nat)
    ensures p <= |idx|
    ensures forall i :: 0 <= i < p ==> Before(idx[i], c)
    ensures p < |idx| ==> !Before(idx[p], c)
  {
    if |idx| == 0 || !Before(idx[0], c) then 0 else 1 + Rank(idx[1..], c)
  }

  /** In an ordered index, nothing from the rank onwards sorts before `c`. */
  lemma RankSplits(idx: seq<Item>, c: Item)
    requires Ordered(idx)
    ensures forall i :: Rank(idx, c) <= i < |idx| ==> !Before(idx[i], c)
  {
    var p := Rank(idx, c);
    forall i | p <= i < |idx|
      ensures !Before(idx[i], c)
    {
      if i > p && Before(idx[i], c) {
        BeforeIsStrictOrder(idx[p], idx[i], c);
      }
    }
  }

  /** `TreeSet.lower(c)`: the greatest entry strictly before `c`. */
  function Lower(idx: seq<Item>, c: Item): (r: Option<Item>)
    ensures r.Some? ==> r.value in idx && Before(r.value, c)
    ensures Ordered(idx) && r.Some? ==>
      forall x :: x in idx && Before(x, c) ==> x == r.value || Before(x, r.value)
    ensures Ordered(idx) && r.None? ==> forall x :: x in idx ==> !Before(x, c)
  {
    var p := Rank(idx, c);
    assert Ordered(idx) ==> forall i :: p <= i < |idx| ==> !Before(idx[i], c) by {
      if Ordered(idx) { RankSplits(idx, c); }
    }
    if p > 0 then Some(idx[p - 1]) else None
  }

  /** Index of the first entry strictly after `c` in an ordered index. */
  function AfterRank(idx: seq<Item>, c: Item): (q: nat)
    ensures q <= |idx|
  {
    var p := Rank(idx, c);
    if p < |idx| && SameKey(idx[p], c) then p + 1 else p
  }

  /** `TreeSet.higher(c)`: the least entry strictly after `c`. */
  function Higher(idx: seq<Item>, c: Item): (r: Option<Item>)
    ensures r.Some? ==> r.value in idx
    ensures Ordered(idx) && r.Some? ==> Before(c, r.value)
    ensures Ordered(idx) && r.Some? ==>
      forall x :: x in idx && Before(c, x) ==> x == r.value || Before(r.value, x)
    ensures Ordered(idx) && r.None? ==> forall x :: x in idx ==> !Before(c, x)
  {
    var q := AfterRank(idx, c);
    assert Ordered(idx) ==> forall i :: q <= i < |idx| ==> Before(c, idx[i]) by {
      if Ordered(idx) { AfterRankSplits(idx, c); }
    }
    if q < |idx| then Some(idx[q]) else None
  }

  lemma AfterRankSplits(idx: seq<Item>, c: Item)
    requires Ordered(idx)
    ensures forall i :: 0 <= i < AfterRank(idx, c) ==> !Before(c, idx[i])
    ensures forall i :: AfterRank(idx, c) <= i < |idx| ==> Before(c, idx[i])
  {
    var p := Rank(idx, c);
    var q := AfterRank(idx, c);
    RankSplits(idx, c);
    forall i | 0 <= i < q
      ensures !Before(c, idx[i])
    {
      BeforeIsStrictOrder(idx[i], c, c);
    }
    forall i | q <= i < |idx|
      ensures Before(c, idx[i])
    {
      BeforeIsStrictOrder(c, idx[i], idx[p]);
      if q == p + 1 {
        BeforeIsStrictOrder(idx[p], idx[i], c);
      }
    }
  }

  // ---------------------------------------------------------------------
  // Insertion and removal

  /** `TreeSet.add(c)`: puts `c` in its place, unless an entry the
      comparator calls equal is already there. */
  function Insert(idx: seq<Item>, c: Item): (r: seq<Item>)
    ensures Ordered(idx) && (exists x :: x in idx && SameKey(x, c)) ==> r == idx
    ensures Ordered(idx) && (forall x :: x in idx ==> !SameKey(x, c)) ==>
      |r| == |idx| + 1 && forall x :: x in r <==> x in idx || x == c
    ensures Ordered(idx) ==> Ordered(r)
  {
    var p := Rank(idx, c);
    assert Ordered(idx) ==>
      && ((exists x :: x in idx && SameKey(x, c)) <==> p < |idx| && SameKey(idx[p], c))
      && (Ordered(idx[..p] + [c] + idx[p..]) || (p < |idx| && SameKey(idx[p], c))) by {
      if Ordered(idx) { InsertFacts(idx, c); }
    }
    if p < |idx| && SameKey(idx[p], c) then idx else idx[..p] + [c] + idx[p..]
  }

  lemma InsertFacts(idx: seq<Item>, c: Item)
    requires Ordered(idx)
    ensures var p := Rank(idx, c);
      (exists x :: x in idx && SameKey(x, c)) <==> p < |idx| && SameKey(idx[p], c)
    ensures var p := Rank(idx, c); Ordered(idx[..p] + [c] + idx[p..]) || (p < |idx| && SameKey(idx[p], c))
  {
    SameKeyAtRank(idx, c);
    var p := Rank(idx, c);
    if !(p < |idx| && SameKey(idx[p], c)) {
      InsertAtRankOrdered(idx, c);
    }
  }

  /** An entry with `c`'s key can only sit at `c`'s rank. */
  lemma SameKeyAtRank(idx: seq<Item>, c: Item)
    requires Ordered(idx)
    ensures var p := Rank(idx, c);
      (exists x :: x in idx && SameKey(x, c)) <==> p < |idx| && SameKey(idx[p], c)
  {
    var p := Rank(idx, c);
    if exists x :: x in idx && SameKey(x, c) {
      var x :| x in idx && SameKey(x, c);
      var k :| 0 <= k < |idx| && idx[k] == x;
      SameKeyIsAtRank(idx, c, k);
    }
    if p < |idx| && SameKey(idx[p], c) {
      assert idx[p] in idx;
    }
  }

  lemma SameKeyIsAtRank(idx: seq<Item>, c: Item, k: int)
    requires Ordered(idx) && 0 <= k < |idx| && SameKey(idx[k], c)
    ensures k == Rank(idx, c)
  {
    var p := Rank(idx, c);
    RankSplits(idx, c);
    if k > p {
      BeforeIsStrictOrder(idx[p], idx[k], c);
    }
  }

  /** Where each entry lands when `c` is put at position `p`. */
  lemma InsertAt(idx: seq<Item>, c: Item, p: nat)
    requires p <= |idx|
    ensures var r := idx[..p] + [c] + idx[p..];
      && |r| == |idx| + 1
      && (forall i :: 0 <= i < p ==> r[i] == idx[i])
      && r[p] == c
      && (forall i :: p < i < |r| ==> r[i] == idx[i - 1])
  {
  }

  /** Putting `c` at its rank keeps the index ordered when no entry has its
      key. */
  lemma InsertAtRankOrdered(idx: seq<Item>, c: Item)
    requires Ordered(idx)
    requires var p := Rank(idx, c); !(p < |idx| && SameKey(idx[p], c))
    ensures var p := Rank(idx, c); Ordered(idx[..p] + [c] + idx[p..])
  {
    var p := Rank(idx, c);
    RankSplits(idx, c);
    var r := idx[..p] + [c] + idx[p..];
    InsertAt(idx, c, p);
    forall i, j | 0 <= i < j < |r|
      ensures Before(r[i], r[j])
    {
      if j < p {
        assert r[i] == idx[i] && r[j] == idx[j];
      } else if j == p {
        assert r[i] == idx[i] && r[j] == c;
      } else if i == p {
        assert r[j] == idx[j - 1];
        BeforeIsStrictOrder(c, idx[j - 1], idx[p]);
        if j - 1 > p {
          assert Before(idx[p], idx[j - 1]);
        }
      } else if i < p {
        assert r[i] == idx[i] && r[j] == idx[j - 1];
      } else {
        assert r[i] == idx[i - 1] && r[j] == idx[j - 1];
      }
    }
  }

  /** `TreeSet.remove(c)`: drops the entry the comparator calls equal to
      `c`, if any. */
  function Remove(idx: seq<Item>, c: Item): (r: seq<Item>)
    ensures forall x :: x in r <==> x in idx && !SameKey(x, c)
    ensures (forall x :: x in idx ==> !SameKey(x, c)) ==> r == idx
    ensures Ordered(idx) ==> Ordered(r)
  {
    Filter(idx, x => !SameKey(x, c))
  }

  /** The entries that satisfy `keep`, in their original order. */
  function Filter(idx: seq<Item>, keep: Item -> bool): (r: seq<Item>)
    ensures forall x :: x in r <==> x in idx && keep(x)
    ensures (forall x :: x in idx ==> keep(x)) ==> r == idx
    ensures Ordered(idx) ==> Ordered(r)
  {
    if |idx| == 0 then []
    else
      var rest := Filter(idx[1..], keep);
      assert idx == [idx[0]] + idx[1..];
      assert Ordered(idx) ==> Ordered(idx[1..]);
      if keep(idx[0]) then
        assert Ordered(idx) ==> Ordered([idx[0]] + rest) by {
          if Ordered(idx) {
            HeadFirst(idx);
            OrderedCons(idx[0], rest);
          }
        }
        [idx[0]] + rest
      else rest
  }

  // ---------------------------------------------------------------------
  // Bulk removal

  /** The ids of a collection: all that `equals` and `hashCode` compare, so
      a hash set holds one element per id. */
  function Ids(c: set<Item>): set<int> {
    set y | y in c :: y.id
  }

  /** `TreeSet.removeAll(c)` for a hash set `c`, which `AbstractSet`
      implements with two strategies.  When the tree holds more entries than
      `c` has elements, each element of `c` is removed from the tree, which
      matches by comparator key (start and id).  Otherwise the tree is
      walked and every entry that `c` contains is dropped, and `c` matches
      by id alone.  Either way an entry whose id `c` lacks stays, and an
      entry with the key of an element of `c` goes. */
  function RemoveAll(idx: seq<Item>, c: set<Item>): (r: seq<Item>)
    ensures forall x :: x in r ==> x in idx
    ensures forall x :: x in idx && x.id !in Ids(c) ==> x in r
    ensures forall x, y :: x in r && y in c ==> !SameKey(x, y)
    ensures Ordered(idx) ==> Ordered(r)
  {
    if |idx| > |Ids(c)| then Filter(idx, (x: Item) => forall y :: y in c ==> !SameKey(x, y))
    else Filter(idx, (x: Item) => x.id !in Ids(c))
  }

  /** `for (Object e : c) remove(e)`, with `c` listed in iteration order. */
  function RemoveEach(idx: seq<Item>, cs: seq<Item>): (r: seq<Item>)
    ensures forall x :: x in r <==> x in idx && forall k :: 0 <= k < |cs| ==> !SameKey(x, cs[k])
    ensures Ordered(idx) ==> Ordered(r)
    decreases |cs|
  {
    if |cs| == 0 then idx
    else
      var r := RemoveEach(Remove(idx, cs[0]), cs[1..]);
      assert forall k :: 0 < k < |cs| ==> cs[k] == cs[1..][k - 1];
      r
  }

  /** The first strategy does not depend on the order in which the hash set
      hands out its elements: removing them one by one, in any order, leaves
      exactly the entries `RemoveAll` keeps. */
  lemma RemoveEachAnyOrder(idx: seq<Item>, c: set<Item>, cs: seq<Item>)
    requires Ordered(idx) && |idx| > |Ids(c)|
    requires forall y :: y in c <==> y in cs
    ensures RemoveEach(idx, cs) == RemoveAll(idx, c)
  {
    var a := RemoveEach(idx, cs);
    var b := RemoveAll(idx, c);
    forall x
      ensures x in a <==> x in b
    {
      if x in idx && !(x in a) {
        var k :| 0 <= k < |cs| && SameKey(x, cs[k]);
        assert cs[k] in c;
      }
    }
    OrderedSameElements(a, b);
  }

  /** When every entry sharing an id with an element of `c` also shares its
      start, the two strategies agree: exactly the entries whose id `c`
      holds are removed. */
  lemma RemoveAllAgrees(idx: seq<Item>, c: set<Item>)
    requires forall x, y :: x in idx && y in c && x.id == y.id ==> x.startTime == y.startTime
    ensures forall x :: x in RemoveAll(idx, c) <==> x in idx && x.id !in Ids(c)
  {
    forall x | x in idx && x.id in Ids(c)
      ensures x !in RemoveAll(idx, c)
    {
      var y :| y in c && y.id == x.id;
      assert SameKey(x, y);
    }
  }

  /** Without that agreement the strategies differ: an entry that shares
      only its id with the element of `c` stays when the tree is larger than
      `c` and goes when it is not. */
  lemma StrategyDecides()
    ensures var stale := Subtask(2, "s", "", NEW, Some(0), Some(10), 1);
            var stored := Subtask(2, "s", "", NEW, Some(100), Some(10), 9);
            && RemoveAll([stale, stored], {stored}) == [stale]
            && RemoveAll([stale], {stored}) == []
  {
    var stale := Subtask(2, "s", "", NEW, Some(0), Some(10), 1);
    var stored := Subtask(2, "s", "", NEW, Some(100), Some(10), 9);
    assert Ids({stored}) == {2};
    assert Ordered([stale, stored]);
    OrderedSameElements(RemoveAll([stale, stored], {stored}), [stale]);
    assert stale !in RemoveAll([stale], {stored});
  }

  /** In an ordered index the first entry sorts before every later one. */
  lemma HeadFirst(idx: seq<Item>)
    requires Ordered(idx) && |idx| > 0
    ensures forall x :: x in idx[1..] ==> Before(idx[0], x)
  {
    forall x | x in idx[1..]
      ensures Before(idx[0], x)
    {
      var i :| 0 <= i < |idx[1..]| && idx[1..][i] == x;
      assert idx[i + 1] == x;
    }
  }

  /** An entry that sorts before every entry of an ordered index can lead
      it. */
  lemma OrderedCons(x: Item, rest: seq<Item>)
    requires Ordered(rest) && forall y :: y in rest ==> Before(x, y)
    ensures Ordered([x] + rest)
  {
    var r := [x] + rest;
    forall i, j | 0 <= i < j < |r|
      ensures Before(r[i], r[j])
    {
      assert r[j] == rest[j - 1];
      if i == 0 {
        assert rest[j - 1] in rest;
      } else {
        assert r[i] == rest[i - 1];
      }
    }
  }

  /** Removing an entry and adding it back restores an ordered index. */
  lemma {:induction false} RemoveThenInsert(idx: seq<Item>, c: Item)
    requires Ordered(idx) && c in idx
    ensures Insert(Remove(idx, c), c) == idx
  {
    var k :| 0 <= k < |idx| && idx[k] == c;
    var r := Remove(idx, c);
    var back := Insert(r, c);
    assert forall x :: x in back <==> x in idx by {
      forall x
        ensures x in back <==> x in idx
      {
        if x in idx && SameKey(x, c) {
          var j :| 0 <= j < |idx| && idx[j] == x;
          KeysAreDistinct(idx, j, k);
        }
      }
    }
    OrderedSameElements(back, idx);
  }

  /** An ordered index holds each key at most once. */
  lemma KeysAreDistinct(idx: seq<Item>, j: int, k: int)
    requires Ordered(idx) && 0 <= j < |idx| && 0 <= k < |idx|
    ensures j != k ==> !SameKey(idx[j], idx[k])
  {
    if j < k {
      BeforeIsStrictOrder(idx[j], idx[k], idx[k]);
    } else if k < j {
      BeforeIsStrictOrder(idx[k], idx[j], idx[j]);
    }
  }

  /** Two ordered indexes with the same entries are the same sequence. */
  lemma {:induction false} OrderedSameElements(a: seq<Item>, b: seq<Item>)
    requires Ordered(a) && Ordered(b)
    requires forall x :: x in a <==> x in b
    ensures a == b
    decreases |a| + |b|
  {
    assert |a| > 0 ==> a[0] in a;
    assert |b| > 0 ==> b[0] in b;
    if |a| > 0 && |b| > 0 {
      SameFirst(a, b);
      SameRest(a, b);
      OrderedSameElements(a[1..], b[1..]);
      assert a == [a[0]] + a[1..] && b == [b[0]] + b[1..];
    }
  }

  /** The least entry of two ordered indexes with the same entries. */
  lemma SameFirst(a: seq<Item>, b: seq<Item>)
    requires Ordered(a) && Ordered(b) && |a| > 0 && |b| > 0
    requires forall x :: x in a <==> x in b
    ensures a[0] == b[0]
  {
    assert a[0] in a && b[0] in b;
    var i :| 0 <= i < |b| && b[i] == a[0];
    var j :| 0 <= j < |a| && a[j] == b[0];
    if i > 0 && j > 0 {
      assert Before(b[0], b[i]);
      assert Before(a[0], a[j]);
      BeforeIsStrictOrder(a[0], b[0], a[0]);
    }
  }

  /** With the least entry gone, the rest of the two indexes still hold the
      same entries and stay ordered. */
  lemma SameRest(a: seq<Item>, b: seq<Item>)
    requires Ordered(a) && Ordered(b) && |a| > 0 && |b| > 0 && a[0] == b[0]
    requires forall x :: x in a <==> x in b
    ensures Ordered(a[1..]) && Ordered(b[1..])
    ensures forall x :: x in a[1..] <==> x in b[1..]
  {
    forall x
      ensures x in a[1..] <==> x in b[1..]
    {
      if x in a[1..] {
        var i :| 1 <= i < |a| && a[i] == x;
        assert Before(a[0], x);
        assert x != b[0] && x in a && x in b;
        var m :| 0 <= m < |b| && b[m] == x;
        assert b[1..][m - 1] == x;
      }
      if x in b[1..] {
        var i :| 1 <= i < |b| && b[i] == x;
        assert Before(b[0], x);
        assert x != a[0] && x in b && x in a;
        var m :| 0 <= m < |a| && a[m] == x;
        assert a[1..][m - 1] == x;
      }
    }
  }

  // ---------------------------------------------------------------------
  // Overlap

  /** `isOverlapping(a, b)`: both need a start and a duration; the half-open
      windows `[start, start + duration)` then intersect. */
  predicate Overlaps(a: Item, b: Item)
    ensures Overlaps(a, b) ==> a.startTime.Some? && a.duration.Some? && b.startTime.Some? && b.duration.Some?
    ensures !a.Epic? && EndTime(a).Some? && b.startTime == EndTime(a) ==> !Overlaps(a, b)
  {
    && a.startTime.Some? && a.duration.Some?
    && b.startTime.Some? && b.duration.Some?
    && a.startTime.value < b.startTime.value + b.duration.value
    && b.startTime.value < a.startTime.value + a.duration.value
  }

  /** Overlap is symmetric, touching windows do not overlap, and an entity
      without a start or a duration overlaps nothing. */
  lemma OverlapFacts(a: Item, b: Item)
    ensures Overlaps(a, b) <==> Overlaps(b, a)
    ensures !a.Epic? && EndTime(a).Some? && b.startTime == EndTime(a) ==> !Overlaps(a, b)
    ensures a.startTime.None? || a.duration.None? ==> !Overlaps(a, b) && !Overlaps(b, a)
  {
  }

  /** `hasOverlap(candidate)`: only the lower and the higher neighbour of
      the candidate are consulted, and one with the candidate's own id is
      skipped. */
  predicate HasOverlap(idx: seq<Item>, c: Item)
    ensures HasOverlap(idx, c) ==> c.startTime.Some? && c.duration.Some?
    ensures HasOverlap(idx, c) ==> exists x :: x in idx && x.id != c.id && Overlaps(x, c)
  {
    if c.startTime.None? || c.duration.None? then false
    else
      var lower := Lower(idx, c);
      var higher := Higher(idx, c);
      || (lower.Some? && lower.value.id != c.id && Overlaps(lower.value, c))
      || (higher.Some? && higher.value.id != c.id && Overlaps(c, higher.value))
  }

  /** The independent reference: some other indexed entity overlaps. */
  predicate ConflictsWithAny(idx: seq<Item>, c: Item) {
    exists k :: 0 <= k < |idx| && idx[k].id != c.id && Overlaps(idx[k], c)
  }

  /** Every indexed entity has a start and a strictly positive duration. */
  predicate AllPositive(idx: seq<Item>) {
    forall k :: 0 <= k < |idx| ==>
      idx[k].startTime.Some? && idx[k].duration.Some? && idx[k].duration.value > 0
  }

  /** No two indexed entities overlap. */
  predicate Disjoint(idx: seq<Item>) {
    forall i, j :: 0 <= i < |idx| && 0 <= j < |idx| && i != j ==> !Overlaps(idx[i], idx[j])
  }

  /** Dropping entries from an index of positive, pairwise disjoint
      windows leaves one. */
  lemma SubsetKeepsDisjoint(a: seq<Item>, b: seq<Item>)
    requires Ordered(b) && AllPositive(a) && Disjoint(a)
    requires forall x :: x in b ==> x in a
    ensures AllPositive(b) && Disjoint(b)
  {
    forall k | 0 <= k < |b|
      ensures b[k].startTime.Some? && b[k].duration.Some? && b[k].duration.value > 0
    {
      assert b[k] in a;
    }
    forall i, j | 0 <= i < |b| && 0 <= j < |b| && i != j
      ensures !Overlaps(b[i], b[j])
    {
      BeforeIsStrictOrder(b[i], b[i], b[i]);
      assert b[i] != b[j] by {
        if i < j { assert Before(b[i], b[j]); } else { assert Before(b[j], b[i]); }
      }
      assert b[i] in a && b[j] in a;
      var p :| 0 <= p < |a| && a[p] == b[i];
      var q :| 0 <= q < |a| && a[q] == b[j];
    }
  }

  /** In a disjoint ordered index of positive windows, each window ends
      no later than any later one starts. */
  lemma Chain(idx: seq<Item>, i: int, j: int)
    requires Ordered(idx) && AllPositive(idx) && Disjoint(idx)
    requires 0 <= i < j < |idx|
    ensures idx[i].startTime.value + idx[i].duration.value <= idx[j].startTime.value
  {
    assert Before(idx[i], idx[j]);
    assert !Overlaps(idx[i], idx[j]);
  }

  /** Whenever every indexed window is positive and the index is disjoint,
      consulting the two neighbours finds a conflict exactly when some
      indexed entity conflicts. */
  lemma NeighbourCheckExact(idx: seq<Item>, c: Item)
    requires Ordered(idx) && AllPositive(idx) && Disjoint(idx)
    requires forall k :: 0 <= k < |idx| ==> idx[k].id != c.id
    ensures HasOverlap(idx, c) <==> ConflictsWithAny(idx, c)
  {
    if HasOverlap(idx, c) {
      NeighbourConflictIsConflict(idx, c);
    }
    if ConflictsWithAny(idx, c) {
      var k :| 0 <= k < |idx| && idx[k].id != c.id && Overlaps(idx[k], c);
      ConflictReachesNeighbour(idx, c, k);
    }
  }

  lemma NeighbourConflictIsConflict(idx: seq<Item>, c: Item)
    requires Ordered(idx) && HasOverlap(idx, c)
    ensures ConflictsWithAny(idx, c)
  {
    var lower := Lower(idx, c);
    var higher := Higher(idx, c);
    if lower.Some? && lower.value.id != c.id && Overlaps(lower.value, c) {
      var k :| 0 <= k < |idx| && idx[k] == lower.value;
    } else {
      var k :| 0 <= k < |idx| && idx[k] == higher.value;
      OverlapFacts(c, higher.value);
    }
  }

  lemma ConflictReachesNeighbour(idx: seq<Item>, c: Item, k: int)
    requires Ordered(idx) && AllPositive(idx) && Disjoint(idx)
    requires forall k :: 0 <= k < |idx| ==> idx[k].id != c.id
    requires 0 <= k < |idx| && Overlaps(idx[k], c)
    ensures HasOverlap(idx, c)
  {
    var p := Rank(idx, c);
    RankSplits(idx, c);
    if p < |idx| {
      assert !SameKey(idx[p], c);
    }
    assert AfterRank(idx, c) == p;
    if k < p {
      assert Lower(idx, c) == Some(idx[p - 1]);
      LowerNeighbourOverlaps(idx, c, k, p);
    } else {
      assert Higher(idx, c) == Some(idx[p]);
      HigherNeighbourOverlaps(idx, c, k, p);
    }
  }

  /** A conflict before the candidate's place reaches the entry just
      before it. */
  lemma LowerNeighbourOverlaps(idx: seq<Item>, c: Item, k: int, p: int)
    requires Ordered(idx) && AllPositive(idx) && Disjoint(idx)
    requires 0 <= k < p <= |idx| && Overlaps(idx[k], c)
    requires forall i :: 0 <= i < p ==> Before(idx[i], c)
    ensures Overlaps(idx[p - 1], c)
  {
    if k < p - 1 {
      Chain(idx, k, p - 1);
    }
  }

  /** A conflict at or after the candidate's place reaches the entry at
      it. */
  lemma HigherNeighbourOverlaps(idx: seq<Item>, c: Item, k: int, p: int)
    requires Ordered(idx) && AllPositive(idx) && Disjoint(idx)
    requires 0 <= p <= k < |idx| && Overlaps(idx[k], c)
    requires !Before(idx[p], c)
    ensures Overlaps(c, idx[p])
  {
    OverlapFacts(c, idx[p]);
    if k > p {
      Chain(idx, p, k);
    }
  }

  /** Inserting a positive window that passed the neighbour check keeps a
      disjoint index of positive windows disjoint. */
  lemma InsertKeepsDisjoint(idx: seq<Item>, c: Item)
    requires Ordered(idx) && AllPositive(idx) && Disjoint(idx)
    requires forall k :: 0 <= k < |idx| ==> idx[k].id != c.id
    requires c.startTime.Some? && c.duration.Some? && c.duration.value > 0
    requires !HasOverlap(idx, c)
    ensures Ordered(Insert(idx, c)) && AllPositive(Insert(idx, c)) && Disjoint(Insert(idx, c))
  {
    NeighbourCheckExact(idx, c);
    var p := Rank(idx, c);
    if p < |idx| {
      assert !SameKey(idx[p], c);
    }
    assert Insert(idx, c) == idx[..p] + [c] + idx[p..];
    forall k | 0 <= k < |idx|
      ensures !Overlaps(idx[k], c) && !Overlaps(c, idx[k])
    {
      OverlapFacts(idx[k], c);
    }
    SpliceKeepsDisjoint(idx, p, c);
  }

  lemma SpliceKeepsDisjoint(idx: seq<Item>, p: nat, c: Item)
    requires p <= |idx| && AllPositive(idx) && Disjoint(idx)
    requires c.startTime.Some? && c.duration.Some? && c.duration.value > 0
    requires forall k :: 0 <= k < |idx| ==> !Overlaps(idx[k], c) && !Overlaps(c, idx[k])
    ensures AllPositive(idx[..p] + [c] + idx[p..]) && Disjoint(idx[..p] + [c] + idx[p..])
  {
    var r := idx[..p] + [c] + idx[p..];
    assert forall i :: 0 <= i < p ==> r[i] == idx[i];
    assert forall i :: p < i < |r| ==> r[i] == idx[i - 1];
    assert r[p] == c;
  }

  /** The neighbour check is only as good as its preconditions: an indexed
      entity with a start but no duration sits between two overlapping
      windows and hides the conflict. */
  lemma UntimedNeighbourHidesOverlap()
    ensures var a := Task(1, "a", "", NEW, Some(0), Some(10));
            var z := Task(2, "z", "", NEW, Some(5), None);
            var c := Task(3, "c", "", NEW, Some(6), Some(2));
            && Ordered([a, z]) && Disjoint([a, z])
            && !HasOverlap([a, z], c) && Overlaps(a, c)
            && Insert([a, z], c) == [a, z, c]
  {
    var a := Task(1, "a", "", NEW, Some(0), Some(10));
    var z := Task(2, "z", "", NEW, Some(5), None);
    var c := Task(3, "c", "", NEW, Some(6), Some(2));
    assert Rank([a, z], c) == 2;
  }

  /** A zero-length window placed at the start of a longer one hides the
      longer one from a later candidate in the same way. */
  lemma ZeroNeighbourHidesOverlap()
    ensures var a := Task(1, "a", "", NEW, Some(0), Some(10));
            var z := Task(2, "z", "", NEW, Some(0), Some(0));
            var c := Task(3, "c", "", NEW, Some(1), Some(2));
            && Ordered([a, z]) && Disjoint([a, z]) && !HasOverlap([a], z)
            && !HasOverlap([a, z], c) && Overlaps(a, c)
  {
    var a := Task(1, "a", "", NEW, Some(0), Some(10));
    var z := Task(2, "z", "", NEW, Some(0), Some(0));
    var c := Task(3, "c", "", NEW, Some(1), Some(2));
    assert Rank([a], z) == 1;
    assert Rank([a, z], c) == 2;
  }
}

=== FILE: snapshot.dfy ===
/** `FileBackedTaskManager.save` and `loadFromFile` over the file's lines:
    a header, then one line per task, epic and subtask; loading reads lines
    until the end or the first blank one and rebuilds the three maps and
    the id counter. */
module Snapshot {
  import opened Wrappers
  import opened Tasks
  import opened Csv
  import opened TaskManager
  import FileText

  // ---------------------------------------------------------------------
  // Save

  /** `order` lists every key of `store` once (it lists them all, and is no
      longer than the map): the iteration order of a `HashMap`, which Java
      leaves unspecified. */
  ghost predicate Enumerates(order: seq<int>, store: map<int, Item>) {
    && (forall k :: k in order <==> k in store)
    && (forall i :: 0 <= i < |order| ==> order[i] in store)
    && |order| == |store|
  }

  /** One written line per listed entity, in list order. */
  function Lines(order: seq<int>, store: map<int, Item>): (r: seq<string>)
    requires forall i :: 0 <= i < |order| ==> order[i] in store
    ensures |r| == |order|
  {
    if |order| == 0 then [] else [Encode(store[order[0]])] + Lines(order[1..], store)
  }

  /** The `i`-th written line is the `i`-th listed entity's line. */
  lemma {:induction false} LinesAt(order: seq<int>, store: map<int, Item>, i: nat)
    requires forall i :: 0 <= i < |order| ==> order[i] in store
    requires i < |order|
    ensures Lines(order, store)[i] == Encode(store[order[i]])
    decreases |order|
  {
    if i > 0 {
      var tail := order[1..];
      assert tail[i - 1] == order[i];
      LinesAt(tail, store, i - 1);
    }
  }

  /** `save()`: the header line, then every task, every epic and every
      subtask, each kind in its map's iteration order. */
  function Save(m: State, taskOrder: seq<int>, epicOrder: seq<int>, subtaskOrder: seq<int>): (r: seq<string>)
    requires Enumerates(taskOrder, m.tasks) && Enumerates(epicOrder, m.epics)
    requires Enumerates(subtaskOrder, m.subtasks)
    ensures |r| == 1 + |taskOrder| + |epicOrder| + |subtaskOrder|
    ensures r[0] == HEADER
  {
    [HEADER] + (Lines(taskOrder, m.tasks) + Lines(epicOrder, m.epics) + Lines(subtaskOrder, m.subtasks))
  }

  // ---------------------------------------------------------------------
  // Load

  /** What `loadFromFile` builds up while reading: the three maps and the
      largest id seen, starting from 0. */
  datatype Loader = Loader(tasks: map<int, Item>, epics: map<int, Item>, subtasks: map<int, Item>, maxId: int)

  /** `Character.isWhitespace` on the ASCII range. */
  predicate IsWhitespace(c: char) {
    c == ' ' || '\t' <= c <= '\r' || '\U{1C}' <= c <= '\U{1F}'
  }

  /** `String.isBlank()`: empty or only whitespace. */
  predicate IsBlank(line: string) {
    forall k :: 0 <= k < |line| ==> IsWhitespace(line[k])
  }

  /** A written line is never blank, so loading never stops early on one
      as long as the line holds no break of its own. */
  lemma WrittenLineNotBlank(i: Item)
    ensures !IsBlank(Encode(i))
  {
    var line := Encode(i);
    var k :| 0 <= k < |line| && line[k] == ',';
  }

  /** One decoded entity goes into the map of its kind; a subtask's id is
      also appended to its epic's list when that epic was read earlier. */
  function Put(acc: Loader, i: Item): (r: Loader)
    ensures r.maxId == (if i.id > acc.maxId then i.id else acc.maxId)
    ensures i.Task? ==> r == acc.(tasks := acc.tasks[i.id := i], maxId := r.maxId)
    ensures i.Epic? ==> r == acc.(epics := acc.epics[i.id := i], maxId := r.maxId)
    ensures i.Subtask? ==> r.tasks == acc.tasks && r.subtasks == acc.subtasks[i.id := i]
    ensures i.Subtask? ==> r.epics.Keys == acc.epics.Keys
    ensures i.Subtask? ==> forall e :: e in acc.epics && e != i.epicId ==> r.epics[e] == acc.epics[e]
    ensures i.Subtask? && i.epicId in acc.epics && acc.epics[i.epicId].Epic? ==>
      r.epics[i.epicId] == AddSubtaskId(acc.epics[i.epicId], i.id)
  {
    var maxId := if i.id > acc.maxId then i.id else acc.maxId;
    match i
    case Task(_, _, _, _, _, _) => acc.(tasks := acc.tasks[i.id := i], maxId := maxId)
    case Epic(_, _, _, _, _, _, _, _) => acc.(epics := acc.epics[i.id := i], maxId := maxId)
    case Subtask(_, _, _, _, _, _, _) =>
      var epics :=
        if i.epicId in acc.epics && acc.epics[i.epicId].Epic? then
          acc.epics[i.epicId := AddSubtaskId(acc.epics[i.epicId], i.id)]
        else acc.epics;
      acc.(subtasks := acc.subtasks[i.id := i], epics := epics, maxId := maxId)
  }

  /** How one line is decoded; `loadFromFile` uses `fromString`. */
  type LineDecoder = string -> Result<Item, CsvError>

  /** The read loop: stops at the end or at the first blank line; a line
      the decoder rejects aborts the whole load.  One turn of the loop is
      split in steps: the end test here, the blank test in `ReadLine`, the
      decoding in `ReadEntity` and the use of its outcome in `Continue`. */
  function ReadAll(parse: LineDecoder, acc: Loader, lines: seq<string>): (r: Result<Loader, CsvError>)
    decreases |lines|, 3
  {
    if |lines| == 0 then Ok(acc) else ReadLine(parse, acc, lines)
  }

  /** A blank first line ends the loop. */
  function ReadLine(parse: LineDecoder, acc: Loader, lines: seq<string>): (r: Result<Loader, CsvError>)
    requires |lines| > 0
    decreases |lines|, 2
  {
    if IsBlank(lines[0]) then Ok(acc) else ReadEntity(parse, acc, lines)
  }

  /** Any other first line is decoded. */
  function ReadEntity(parse: LineDecoder, acc: Loader, lines: seq<string>): (r: Result<Loader, CsvError>)
    requires |lines| > 0
    decreases |lines|, 1
  {
    Continue(parse, acc, parse(lines[0]), lines[1..])
  }

  /** A rejected line aborts the loop; an accepted one is put before the
      remaining lines are read. */
  function Continue(parse: LineDecoder, acc: Loader, d: Result<Item, CsvError>, rest: seq<string>): (r: Result<Loader, CsvError>)
    decreases |rest| + 1, 0
  {
    match d
    case Err(e) => Err(e)
    case Ok(i) => ReadAll(parse, Put(acc, i), rest)
  }

  /** `loadFromFile`: skips the header line, reads the rest, and sets the
      counter one past the largest id read (or to 1 when none was), in
      32-bit arithmetic.  The index and the history start empty. */
  function Load(file: seq<string>): (r: Result<State, CsvError>)
    ensures r.Ok? ==> r.value.prioritized == [] && r.value.history == [] && IsInt(r.value.nextId)
  {
    var body := if |file| == 0 then [] else file[1..];
    match ReadAll(Decode, Loader(map[], map[], map[], 0), body)
    case Err(e) => Err(e)
    case Ok(l) => Ok(State(l.tasks, l.epics, l.subtasks, WrapInt(l.maxId + 1), [], []))
  }

  /** What loading keeps true of what it has read so far: each entity is
      under its own id, in the map of its kind, no later than the largest
      id seen, and without a start; the largest id seen is a 32-bit value
      read from some line, or the initial 0. */
  ghost predicate Sound(l: Loader) {
    && 0 <= l.maxId <= INT_MAX
    && (l.maxId == 0 || l.maxId in l.tasks || l.maxId in l.epics || l.maxId in l.subtasks)
    && (forall k :: k in l.tasks ==>
          l.tasks[k].Task? && l.tasks[k].id == k && k <= l.maxId && l.tasks[k].startTime.None?)
    && (forall k :: k in l.epics ==> l.epics[k].Epic? && l.epics[k].id == k && k <= l.maxId)
    && (forall k :: k in l.subtasks ==>
          l.subtasks[k].Subtask? && l.subtasks[k].id == k && k <= l.maxId && l.subtasks[k].startTime.None?)
  }

  lemma PutSound(acc: Loader, i: Item)
    requires Sound(acc) && i.startTime.None? && IsInt(i.id)
    ensures Sound(Put(acc, i))
  {
  }

  /** One turn of the read loop: a blank line stops it; any other line is
      decoded and its outcome decides how the loop goes on. */
  lemma Turn(parse: LineDecoder, acc: Loader, lines: seq<string>)
    requires |lines| > 0
    ensures IsBlank(lines[0]) ==> ReadAll(parse, acc, lines) == Ok(acc)
    ensures !IsBlank(lines[0]) ==>
      ReadAll(parse, acc, lines) == Continue(parse, acc, parse(lines[0]), lines[1..])
  {
    assert ReadAll(parse, acc, lines) == ReadLine(parse, acc, lines);
    if !IsBlank(lines[0]) {
      assert ReadLine(parse, acc, lines) == ReadEntity(parse, acc, lines);
    }
  }

  lemma {:induction false} ReadAllSound(acc: Loader, lines: seq<string>)
    requires Sound(acc)
    ensures ReadAll(Decode, acc, lines).Ok? ==> Sound(ReadAll(Decode, acc, lines).value)
    decreases |lines|
  {
    if |lines| > 0 {
      Turn(Decode, acc, lines);
      if !IsBlank(lines[0]) && Decode(lines[0]).Ok? {
        PutSound(acc, Decode(lines[0]).value);
        ReadAllSound(Put(acc, Decode(lines[0]).value), lines[1..]);
      }
    }
  }

  /** A loaded state stores every entity under its own id, in the map of
      its kind, below the counter; it holds no times, so its empty index is
      the right one. */
  lemma LoadSound(file: seq<string>)
    ensures var r := Load(file);
      r.Ok? ==>
      && Typed(r.value)
      && (forall k :: k in r.value.tasks ==> r.value.tasks[k].id == k)
      && (forall k :: k in r.value.epics ==> r.value.epics[k].id == k)
      && (forall k :: k in r.value.subtasks ==> r.value.subtasks[k].id == k)
      && (INT_MAX !in Keys(r.value) ==>
            1 <= r.value.nextId && forall k :: k in Keys(r.value) ==> k < r.value.nextId)
      && (INT_MAX in Keys(r.value) ==> r.value.nextId == INT_MIN)
      && IndexValid(r.value) && HistoryValid(r.value)
  {
    var body := if |file| == 0 then [] else file[1..];
    ReadAllSound(Loader(map[], map[], map[], 0), body);
  }

  /** An empty file and a header-only file load as an empty manager. */
  lemma LoadEmpty(header: string)
    ensures Load([]) == Ok(Empty())
    ensures Load([header]) == Ok(Empty())
  {
  }

  /** Reading stops at the first blank line: nothing after it is read,
      whether or not it is well formed. */
  lemma {:induction false} StopsAtBlank(parse: LineDecoder, acc: Loader, lines: seq<string>, k: nat)
    requires k < |lines| && IsBlank(lines[k])
    ensures ReadAll(parse, acc, lines) == ReadAll(parse, acc, lines[..k])
    decreases k, 1
  {
    if k == 0 {
      Turn(parse, acc, lines);
      assert lines[..k] == [];
    } else {
      var cut := lines[..k];
      var next := lines[1..];
      assert next[k - 1] == lines[k];
      PrefixTail(lines, k);
      Turn(parse, acc, lines);
      Turn(parse, acc, cut);
      if !IsBlank(lines[0]) {
        ContinueStops(parse, acc, parse(lines[0]), next, k - 1);
      }
    }
  }

  /** The rest of the loop, after any outcome of a decoding, also stops at
      the first blank line. */
  lemma {:induction false} ContinueStops(parse: LineDecoder, acc: Loader, d: Result<Item, CsvError>, rest: seq<string>, j: nat)
    requires j < |rest| && IsBlank(rest[j])
    ensures Continue(parse, acc, d, rest) == Continue(parse, acc, d, rest[..j])
    decreases j + 1, 0
  {
    if d.Ok? {
      StopsAtBlank(parse, Put(acc, d.value), rest, j);
    }
  }

  lemma PrefixTail<T>(s: seq<T>, k: nat)
    requires 0 < k <= |s|
    ensures |s[..k]| > 0 && s[..k][0] == s[0]
    ensures s[..k][1..] == s[1..][..k - 1]
  {
  }

  lemma LoadStopsAtBlank(file: seq<string>, k: nat)
    requires 1 <= k < |file| && IsBlank(file[k])
    ensures Load(file) == Load(file[..k])
  {
    var init := Loader(map[], map[], map[], 0);
    StopsAtBlank(Decode, init, file[1..], k - 1);
    assert file[..k][1..] == file[1..][..k - 1];
    assert ReadAll(Decode, init, file[1..]) == ReadAll(Decode, init, file[..k][1..]);
  }

  // ---------------------------------------------------------------------
  // Save, then load

  /** `Put` over the stripped entities of the listed ids, in list order. */
  function PutAll(acc: Loader, order: seq<int>, store: map<int, Item>): Loader
    requires forall i :: 0 <= i < |order| ==> order[i] in store
    decreases |order|
  {
    if |order| == 0 then acc else PutAll(Put(acc, Stripped(store[order[0]])), order[1..], store)
  }

  /** Reading the written lines of the listed entities is putting them. */
  lemma {:induction false} ReadLines(acc: Loader, order: seq<int>, store: map<int, Item>, rest: seq<string>)
    requires forall i :: 0 <= i < |order| ==> order[i] in store && Writable(store[order[i]])
    ensures ReadAll(Decode, acc, Lines(order, store) + rest) == ReadAll(Decode, PutAll(acc, order, store), rest)
    decreases |order|
  {
    if |order| == 0 {
      assert Lines(order, store) + rest == rest;
    } else {
      var x := store[order[0]];
      var tail := Lines(order[1..], store) + rest;
      assert Lines(order, store) + rest == [Encode(x)] + tail;
      ReadOne(acc, x, tail);
      ReadLines(Put(acc, Stripped(x)), order[1..], store, rest);
    }
  }

  /** Reading one written line is putting its entity, stripped. */
  lemma ReadOne(acc: Loader, x: Item, tail: seq<string>)
    requires Writable(x)
    ensures ReadAll(Decode, acc, [Encode(x)] + tail) == ReadAll(Decode, Put(acc, Stripped(x)), tail)
  {
    var lines := [Encode(x)] + tail;
    assert lines[0] == Encode(x) && lines[1..] == tail;
    WrittenLineNotBlank(x);
    DecodeEncode(x);
    Turn(Decode, acc, lines);
  }

  /** The largest id seen grows to cover the listed ids and is one of them
      unless it did not move. */
  predicate MaxCovers(before: int, order: seq<int>, after: int) {
    && before <= after
    && (forall i :: 0 <= i < |order| ==> order[i] <= after)
    && (after == before || after in order)
  }

  /** Putting entities stored under their own ids raises the largest id
      seen to cover them, whatever their kind. */
  lemma {:induction false} PutAllMax(acc: Loader, order: seq<int>, store: map<int, Item>)
    requires forall i :: 0 <= i < |order| ==> order[i] in store && store[order[i]].id == order[i]
    ensures MaxCovers(acc.maxId, order, PutAll(acc, order, store).maxId)
    decreases |order|
  {
    if |order| > 0 {
      var next := Put(acc, Stripped(store[order[0]]));
      PutAllMax(next, order[1..], store);
      assert order == [order[0]] + order[1..];
    }
  }

  /** Putting tasks fills the task map and nothing else. */
  lemma {:induction false} PutTasks(acc: Loader, order: seq<int>, store: map<int, Item>)
    requires forall i :: 0 <= i < |order| ==> order[i] in store && store[order[i]].Task? && store[order[i]].id == order[i]
    ensures var r := PutAll(acc, order, store);
      && r.epics == acc.epics && r.subtasks == acc.subtasks
      && (forall k :: k in r.tasks <==> k in acc.tasks || k in order)
      && (forall k :: k in order ==> r.tasks[k] == Stripped(store[k]))
      && (forall k :: k in acc.tasks && k !in order ==> r.tasks[k] == acc.tasks[k])
    decreases |order|
  {
    if |order| > 0 {
      var next := Put(acc, Stripped(store[order[0]]));
      PutTasks(next, order[1..], store);
      assert order == [order[0]] + order[1..];
    }
  }

  /** Putting epics fills the epic map and nothing else. */
  lemma {:induction false} PutEpics(acc: Loader, order: seq<int>, store: map<int, Item>)
    requires forall i :: 0 <= i < |order| ==> order[i] in store && store[order[i]].Epic? && store[order[i]].id == order[i]
    ensures var r := PutAll(acc, order, store);
      && r.tasks == acc.tasks && r.subtasks == acc.subtasks
      && (forall k :: k in r.epics <==> k in acc.epics || k in order)
      && (forall k :: k in order ==> r.epics[k] == Stripped(store[k]))
      && (forall k :: k in acc.epics && k !in order ==> r.epics[k] == acc.epics[k])
    decreases |order|
  {
    if |order| > 0 {
      var next := Put(acc, Stripped(store[order[0]]));
      PutEpics(next, order[1..], store);
      assert order == [order[0]] + order[1..];
    }
  }

  /** The listed subtasks that name `epicId`, in list order. */
  function ChildrenIn(order: seq<int>, subtasks: map<int, Item>, epicId: int): (r: seq<int>)
    requires forall i :: 0 <= i < |order| ==> order[i] in subtasks
    ensures forall k :: k in r ==> k in order && subtasks[k].Subtask? && subtasks[k].epicId == epicId
    decreases |order|
  {
    if |order| == 0 then []
    else
      var s := subtasks[order[0]];
      (if s.Subtask? && s.epicId == epicId then [order[0]] else []) + ChildrenIn(order[1..], subtasks, epicId)
  }

  /** The epic `e` with its subtask list replaced. */
  function Relisted(e: Item, ids: seq<int>): (r: Item)
    requires e.Epic?
    ensures r.Epic? && r.subtaskIds == ids
  {
    Epic(e.id, e.name, e.description, e.status, e.startTime, e.duration, e.endTime, ids)
  }

  /** Putting one subtask appends its id to its epic's list, if that
      epic is there, and leaves every other epic alone. */
  lemma PutSubtaskLinks(acc: Loader, s: Item)
    requires s.Subtask?
    requires forall e :: e in acc.epics ==> acc.epics[e].Epic?
    ensures var r := Put(acc, s);
      && r.epics.Keys == acc.epics.Keys
      && forall e :: e in acc.epics ==>
           r.epics[e] == Relisted(acc.epics[e], acc.epics[e].subtaskIds + (if s.epicId == e then [s.id] else []))
  {
    var r := Put(acc, s);
    forall e | e in acc.epics
      ensures r.epics[e] == Relisted(acc.epics[e], acc.epics[e].subtaskIds + (if s.epicId == e then [s.id] else []))
    {
      if e != s.epicId {
        assert acc.epics[e].subtaskIds + [] == acc.epics[e].subtaskIds;
      }
    }
  }

  /** Putting subtasks appends each one's id to the list of its epic, if
      that epic is already there, and touches no task. */
  lemma {:induction false} PutSubtasksLinks(acc: Loader, order: seq<int>, store: map<int, Item>)
    requires forall i :: 0 <= i < |order| ==> order[i] in store && store[order[i]].Subtask? && store[order[i]].id == order[i]
    requires forall e :: e in acc.epics ==> acc.epics[e].Epic?
    ensures var r := PutAll(acc, order, store);
      && r.tasks == acc.tasks && r.epics.Keys == acc.epics.Keys
      && (forall e :: e in acc.epics ==>
            r.epics[e] == Relisted(acc.epics[e], acc.epics[e].subtaskIds + ChildrenIn(order, store, e)))
    decreases |order|
  {
    if |order| == 0 {
      forall e | e in acc.epics
        ensures acc.epics[e] == Relisted(acc.epics[e], acc.epics[e].subtaskIds + ChildrenIn(order, store, e))
      {
        assert acc.epics[e].subtaskIds + [] == acc.epics[e].subtaskIds;
      }
    } else {
      var s := Stripped(store[order[0]]);
      var next := Put(acc, s);
      PutSubtaskLinks(acc, s);
      PutSubtasksLinks(next, order[1..], store);
      var r := PutAll(acc, order, store);
      assert r == PutAll(next, order[1..], store);
      forall e | e in acc.epics
        ensures r.epics[e] == Relisted(acc.epics[e], acc.epics[e].subtaskIds + ChildrenIn(order, store, e))
      {
        var here := if s.epicId == e then [order[0]] else [];
        ChildrenStep(order, store, e);
        AppendTwice(acc.epics[e], here, ChildrenIn(order[1..], store, e));
      }
    }
  }

  lemma ChildrenStep(order: seq<int>, store: map<int, Item>, e: int)
    requires |order| > 0
    requires forall i :: 0 <= i < |order| ==> order[i] in store && store[order[i]].Subtask? && store[order[i]].id == order[i]
    ensures ChildrenIn(order, store, e) ==
      (if Stripped(store[order[0]]).epicId == e then [order[0]] else []) + ChildrenIn(order[1..], store, e)
  {
  }

  lemma AppendTwice(e: Item, a: seq<int>, b: seq<int>)
    requires e.Epic?
    ensures Relisted(Relisted(e, e.subtaskIds + a), e.subtaskIds + a + b) == Relisted(e, e.subtaskIds + (a + b))
  {
    assert e.subtaskIds + a + b == e.subtaskIds + (a + b);
  }

  /** Putting subtasks fills the subtask map. */
  lemma {:induction false} PutSubtasksStore(acc: Loader, order: seq<int>, store: map<int, Item>)
    requires forall i :: 0 <= i < |order| ==> order[i] in store && store[order[i]].Subtask? && store[order[i]].id == order[i]
    ensures var r := PutAll(acc, order, store);
      && (forall k :: k in r.subtasks <==> k in acc.subtasks || k in order)
      && (forall k :: k in order ==> r.subtasks[k] == Stripped(store[k]))
      && (forall k :: k in acc.subtasks && k !in order ==> r.subtasks[k] == acc.subtasks[k])
    decreases |order|
  {
    if |order| > 0 {
      var next := Put(acc, Stripped(store[order[0]]));
      PutSubtasksStore(next, order[1..], store);
      assert order == [order[0]] + order[1..];
    }
  }

  /** An order over a map of writable entities lists writable entities. */
  lemma WritableOrder(order: seq<int>, store: map<int, Item>)
    requires forall k :: k in store ==> Writable(store[k])
    requires forall i :: 0 <= i < |order| ==> order[i] in store
    ensures forall i :: 0 <= i < |order| ==> order[i] in store && Writable(store[order[i]])
  {
    forall i | 0 <= i < |order|
      ensures order[i] in store && Writable(store[order[i]])
    {
      var k := order[i];
      assert k in store;
    }
  }

  /** Every entity of `m` can be written and read back. */
  ghost predicate AllWritable(m: State) {
    && (forall k :: k in m.tasks ==> Writable(m.tasks[k]))
    && (forall k :: k in m.epics ==> Writable(m.epics[k]))
    && (forall k :: k in m.subtasks ==> Writable(m.subtasks[k]))
  }

  /** The loader state reached by reading everything `save` writes. */
  function Reread(m: State, taskOrder: seq<int>, epicOrder: seq<int>, subtaskOrder: seq<int>): Loader
    requires Enumerates(taskOrder, m.tasks) && Enumerates(epicOrder, m.epics)
    requires Enumerates(subtaskOrder, m.subtasks)
  {
    var a0 := Loader(map[], map[], map[], 0);
    PutAll(PutAll(PutAll(a0, taskOrder, m.tasks), epicOrder, m.epics), subtaskOrder, m.subtasks)
  }

  /** Reading the three written sections in turn is putting every listed
      entity, tasks first, then epics, then subtasks. */
  lemma ReadSections(m: State, taskOrder: seq<int>, epicOrder: seq<int>, subtaskOrder: seq<int>)
    requires AllWritable(m)
    requires Enumerates(taskOrder, m.tasks) && Enumerates(epicOrder, m.epics)
    requires Enumerates(subtaskOrder, m.subtasks)
    ensures ReadAll(Decode, Loader(map[], map[], map[], 0),
                    Lines(taskOrder, m.tasks) + Lines(epicOrder, m.epics) + Lines(subtaskOrder, m.subtasks))
            == Ok(Reread(m, taskOrder, epicOrder, subtaskOrder))
  {
    var lt := Lines(taskOrder, m.tasks);
    var le := Lines(epicOrder, m.epics);
    var ls := Lines(subtaskOrder, m.subtasks);
    var a0 := Loader(map[], map[], map[], 0);
    Regroup(lt, le, ls);
    WritableOrder(taskOrder, m.tasks);
    WritableOrder(epicOrder, m.epics);
    WritableOrder(subtaskOrder, m.subtasks);
    ReadLines(a0, taskOrder, m.tasks, le + ls);
    var a1 := PutAll(a0, taskOrder, m.tasks);
    ReadLines(a1, epicOrder, m.epics, ls);
    var a2 := PutAll(a1, epicOrder, m.epics);
    ReadLines(a2, subtaskOrder, m.subtasks, []);
  }

  lemma Regroup(a: seq<string>, b: seq<string>, c: seq<string>)
    ensures a + b + c == a + (b + c) && c + [] == c
  {
  }

  /** Loading what `save` wrote reads back every entity it wrote. */
  lemma LoadSaved(m: State, taskOrder: seq<int>, epicOrder: seq<int>, subtaskOrder: seq<int>)
    requires AllWritable(m)
    requires Enumerates(taskOrder, m.tasks) && Enumerates(epicOrder, m.epics)
    requires Enumerates(subtaskOrder, m.subtasks)
    ensures var l := Reread(m, taskOrder, epicOrder, subtaskOrder);
      Load(Save(m, taskOrder, epicOrder, subtaskOrder)) == Ok(State(l.tasks, l.epics, l.subtasks, WrapInt(l.maxId + 1), [], []))
  {
    ReadSections(m, taskOrder, epicOrder, subtaskOrder);
    SavedBody(m, taskOrder, epicOrder, subtaskOrder);
    LoadReads(Save(m, taskOrder, epicOrder, subtaskOrder), Reread(m, taskOrder, epicOrder, subtaskOrder));
  }

  /** Past the header, the file is the three sections. */
  lemma SavedBody(m: State, taskOrder: seq<int>, epicOrder: seq<int>, subtaskOrder: seq<int>)
    requires Enumerates(taskOrder, m.tasks) && Enumerates(epicOrder, m.epics)
    requires Enumerates(subtaskOrder, m.subtasks)
    ensures Save(m, taskOrder, epicOrder, subtaskOrder)[1..]
         == Lines(taskOrder, m.tasks) + Lines(epicOrder, m.epics) + Lines(subtaskOrder, m.subtasks)
  {
    var body := Lines(taskOrder, m.tasks) + Lines(epicOrder, m.epics) + Lines(subtaskOrder, m.subtasks);
    DropHead(HEADER, body);
  }

  lemma DropHead(header: string, body: seq<string>)
    ensures ([header] + body)[1..] == body
  {
  }

  /** `Load` skips the first line and finishes what the read loop returns
      for the rest. */
  lemma LoadReads(file: seq<string>, l: Loader)
    requires |file| >= 1 && ReadAll(Decode, Loader(map[], map[], map[], 0), file[1..]) == Ok(l)
    ensures Load(file) == Ok(State(l.tasks, l.epics, l.subtasks, WrapInt(l.maxId + 1), [], []))
  {
  }

  /** What reading the task and epic lines leaves: both maps restored,
      each entity stripped, no subtask yet, and the largest id seen. */
  lemma {:induction false} FirstPhases(m: State, taskOrder: seq<int>, epicOrder: seq<int>)
    requires forall i :: 0 <= i < |taskOrder| ==>
      taskOrder[i] in m.tasks && m.tasks[taskOrder[i]].Task? && m.tasks[taskOrder[i]].id == taskOrder[i]
    requires forall i :: 0 <= i < |epicOrder| ==>
      epicOrder[i] in m.epics && m.epics[epicOrder[i]].Epic? && m.epics[epicOrder[i]].id == epicOrder[i]
    requires forall k :: k in taskOrder <==> k in m.tasks
    requires forall k :: k in epicOrder <==> k in m.epics
    ensures var a2 := PutAll(PutAll(Loader(map[], map[], map[], 0), taskOrder, m.tasks), epicOrder, m.epics);
      && a2.tasks.Keys == m.tasks.Keys
      && (forall k :: k in m.tasks ==> a2.tasks[k] == Stripped(m.tasks[k]))
      && a2.epics.Keys == m.epics.Keys
      && (forall k :: k in m.epics ==> a2.epics[k] == Stripped(m.epics[k]))
      && a2.subtasks == map[]
      && MaxCovers(0, taskOrder + epicOrder, a2.maxId)
  {
    var a0 := Loader(map[], map[], map[], 0);
    var a1 := PutAll(a0, taskOrder, m.tasks);
    PutTasks(a0, taskOrder, m.tasks);
    PutAllMax(a0, taskOrder, m.tasks);
    var a2 := PutAll(a1, epicOrder, m.epics);
    PutEpics(a1, epicOrder, m.epics);
    PutAllMax(a1, epicOrder, m.epics);
    assert a1.tasks.Keys == m.tasks.Keys by {
      forall k ensures k in a1.tasks <==> k in m.tasks {
        assert k in a1.tasks <==> k in a0.tasks || k in taskOrder;
      }
    }
    assert a2.epics.Keys == m.epics.Keys by {
      forall k ensures k in a2.epics <==> k in m.epics {
        assert k in a2.epics <==> k in a1.epics || k in epicOrder;
      }
    }
    MaxCoversJoin(0, taskOrder, a1.maxId, epicOrder, a2.maxId);
  }

  /** What reading the subtask lines adds to the first two phases: the
      subtask map restored, each epic's list rebuilt, the tasks untouched. */
  lemma LastPhase(a2: Loader, m: State, subtaskOrder: seq<int>)
    requires forall i :: 0 <= i < |subtaskOrder| ==>
      subtaskOrder[i] in m.subtasks && m.subtasks[subtaskOrder[i]].Subtask? && m.subtasks[subtaskOrder[i]].id == subtaskOrder[i]
    requires forall k :: k in subtaskOrder <==> k in m.subtasks
    requires a2.subtasks == map[]
    requires forall e :: e in a2.epics ==> a2.epics[e].Epic? && a2.epics[e].subtaskIds == []
    ensures var a3 := PutAll(a2, subtaskOrder, m.subtasks);
      && a3.tasks == a2.tasks
      && a3.subtasks.Keys == m.subtasks.Keys
      && (forall k :: k in m.subtasks ==> a3.subtasks[k] == Stripped(m.subtasks[k]))
      && a3.epics.Keys == a2.epics.Keys
      && (forall e :: e in a2.epics ==> a3.epics[e] == Relisted(a2.epics[e], ChildrenIn(subtaskOrder, m.subtasks, e)))
      && MaxCovers(a2.maxId, subtaskOrder, a3.maxId)
  {
    PutSubtasksStore(a2, subtaskOrder, m.subtasks);
    PutAllMax(a2, subtaskOrder, m.subtasks);
    PutSubtasksLinks(a2, subtaskOrder, m.subtasks);
    var a3 := PutAll(a2, subtaskOrder, m.subtasks);
    assert a3.subtasks.Keys == m.subtasks.Keys by {
      forall k ensures k in a3.subtasks <==> k in m.subtasks {
        assert k in a3.subtasks <==> k in a2.subtasks || k in subtaskOrder;
      }
    }
    forall e | e in a2.epics
      ensures a2.epics[e].subtaskIds + ChildrenIn(subtaskOrder, m.subtasks, e) == ChildrenIn(subtaskOrder, m.subtasks, e)
    {
    }
  }

  /** Covering two lists one after the other covers their concatenation. */
  lemma MaxCoversJoin(a: int, x: seq<int>, b: int, y: seq<int>, c: int)
    requires MaxCovers(a, x, b) && MaxCovers(b, y, c)
    ensures MaxCovers(a, x + y, c)
  {
    forall i | 0 <= i < |x + y|
      ensures (x + y)[i] <= c
    {
      if i < |x| {
        assert (x + y)[i] == x[i];
      } else {
        assert (x + y)[i] == y[i - |x|];
      }
    }
  }

  /** Three maps hold what a state holds, as the file keeps it: the same
      ids in every map, every entity stripped of its schedule, and every
      epic listing exactly its subtasks in the order they were written. */
  ghost predicate Reproduces(tasks: map<int, Item>, epics: map<int, Item>, subtasks: map<int, Item>,
                             m: State, subtaskOrder: seq<int>) {
    && tasks.Keys == m.tasks.Keys
    && (forall k :: k in m.tasks ==> tasks[k] == Stripped(m.tasks[k]))
    && epics.Keys == m.epics.Keys
    && (forall k :: k in m.epics ==> m.epics[k].Epic?)
    && (forall i :: 0 <= i < |subtaskOrder| ==> subtaskOrder[i] in m.subtasks)
    && (forall k :: k in m.epics ==>
          epics[k] == Relisted(Stripped(m.epics[k]), ChildrenIn(subtaskOrder, m.subtasks, k)))
    && subtasks.Keys == m.subtasks.Keys
    && (forall k :: k in m.subtasks ==> subtasks[k] == Stripped(m.subtasks[k]))
  }

  /** Rereading restores all three maps, each entity stripped and each
      epic listing the subtasks that name it, in save order; the largest id
      reread covers every saved id and is one of them, or 0 when nothing
      was saved. */
  lemma RereadContents(m: State, taskOrder: seq<int>, epicOrder: seq<int>, subtaskOrder: seq<int>)
    requires StoreValid(m)
    requires Enumerates(taskOrder, m.tasks) && Enumerates(epicOrder, m.epics)
    requires Enumerates(subtaskOrder, m.subtasks)
    ensures var l := Reread(m, taskOrder, epicOrder, subtaskOrder);
      && Reproduces(l.tasks, l.epics, l.subtasks, m, subtaskOrder)
      && MaxCovers(0, taskOrder + epicOrder + subtaskOrder, l.maxId)
  {
    ValidKeyed(m);
    OrdersListed(m, taskOrder, epicOrder, subtaskOrder);
    FirstPhases(m, taskOrder, epicOrder);
    var a2 := PutAll(PutAll(Loader(map[], map[], map[], 0), taskOrder, m.tasks), epicOrder, m.epics);
    Rest(a2, m, taskOrder, epicOrder, subtaskOrder);
  }

  /** The last phase applied to what the first two left. */
  lemma Rest(a2: Loader, m: State, taskOrder: seq<int>, epicOrder: seq<int>, subtaskOrder: seq<int>)
    requires Keyed(m)
    requires forall i :: 0 <= i < |subtaskOrder| ==>
      subtaskOrder[i] in m.subtasks && m.subtasks[subtaskOrder[i]].Subtask? && m.subtasks[subtaskOrder[i]].id == subtaskOrder[i]
    requires forall k :: k in subtaskOrder <==> k in m.subtasks
    requires && a2.tasks.Keys == m.tasks.Keys
      && (forall k :: k in m.tasks ==> a2.tasks[k] == Stripped(m.tasks[k]))
      && a2.epics.Keys == m.epics.Keys
      && (forall k :: k in m.epics ==> a2.epics[k] == Stripped(m.epics[k]))
      && a2.subtasks == map[]
      && MaxCovers(0, taskOrder + epicOrder, a2.maxId)
    ensures var l := PutAll(a2, subtaskOrder, m.subtasks);
      && Reproduces(l.tasks, l.epics, l.subtasks, m, subtaskOrder)
      && MaxCovers(0, taskOrder + epicOrder + subtaskOrder, l.maxId)
  {
    forall e | e in a2.epics
      ensures a2.epics[e].Epic? && a2.epics[e].subtaskIds == []
    {
      assert m.epics[e].Epic?;
    }
    LastPhase(a2, m, subtaskOrder);
    var a3 := PutAll(a2, subtaskOrder, m.subtasks);
    MaxCoversJoin(0, taskOrder + epicOrder, a2.maxId, subtaskOrder, a3.maxId);
  }

  /** Every entity is stored under its own id, in the map of its kind. */
  ghost predicate Keyed(m: State) {
    && (forall k :: k in m.tasks ==> m.tasks[k].Task? && m.tasks[k].id == k)
    && (forall k :: k in m.epics ==> m.epics[k].Epic? && m.epics[k].id == k)
    && (forall k :: k in m.subtasks ==> m.subtasks[k].Subtask? && m.subtasks[k].id == k)
  }

  lemma ValidKeyed(m: State)
    requires StoreValid(m)
    ensures Keyed(m)
  {
    assert Typed(m);
  }

  /** The orders of a keyed manager list stored entities of the kind of
      their map, each under its own id. */
  lemma OrdersListed(m: State, taskOrder: seq<int>, epicOrder: seq<int>, subtaskOrder: seq<int>)
    requires Keyed(m)
    requires forall i :: 0 <= i < |taskOrder| ==> taskOrder[i] in m.tasks
    requires forall i :: 0 <= i < |epicOrder| ==> epicOrder[i] in m.epics
    requires forall i :: 0 <= i < |subtaskOrder| ==> subtaskOrder[i] in m.subtasks
    ensures forall i :: 0 <= i < |taskOrder| ==>
      taskOrder[i] in m.tasks && m.tasks[taskOrder[i]].Task? && m.tasks[taskOrder[i]].id == taskOrder[i]
    ensures forall i :: 0 <= i < |epicOrder| ==>
      epicOrder[i] in m.epics && m.epics[epicOrder[i]].Epic? && m.epics[epicOrder[i]].id == epicOrder[i]
    ensures forall i :: 0 <= i < |subtaskOrder| ==>
      subtaskOrder[i] in m.subtasks && m.subtasks[subtaskOrder[i]].Subtask? && m.subtasks[subtaskOrder[i]].id == subtaskOrder[i]
  {
    forall i | 0 <= i < |taskOrder|
      ensures taskOrder[i] in m.tasks && m.tasks[taskOrder[i]].Task? && m.tasks[taskOrder[i]].id == taskOrder[i]
    {
      var k := taskOrder[i];
      assert k in m.tasks;
    }
    forall i | 0 <= i < |epicOrder|
      ensures epicOrder[i] in m.epics && m.epics[epicOrder[i]].Epic? && m.epics[epicOrder[i]].id == epicOrder[i]
    {
      var k := epicOrder[i];
      assert k in m.epics;
    }
    forall i | 0 <= i < |subtaskOrder|
      ensures subtaskOrder[i] in m.subtasks && m.subtasks[subtaskOrder[i]].Subtask?
      ensures m.subtasks[subtaskOrder[i]].id == subtaskOrder[i]
    {
      var k := subtaskOrder[i];
      assert k in m.subtasks;
    }
  }

  /** Saving then loading gives back every task, epic and subtask as its
      line holds it: times are lost, each epic's status is the saved one,
      and each epic's list is rebuilt from the subtasks that name it, in
      save order.  The counter comes back one past the largest stored id,
      which can be lower than before, but never reuses a stored id. */
  lemma SaveLoad(m: State, taskOrder: seq<int>, epicOrder: seq<int>, subtaskOrder: seq<int>)
    requires StoreValid(m) && AllWritable(m)
    requires Enumerates(taskOrder, m.tasks) && Enumerates(epicOrder, m.epics)
    requires Enumerates(subtaskOrder, m.subtasks)
    ensures var r := Load(Save(m, taskOrder, epicOrder, subtaskOrder));
      && r.Ok?
      && Reproduces(r.value.tasks, r.value.epics, r.value.subtasks, m, subtaskOrder)
      && CounterAfter(m, r.value.nextId)
      && r.value.prioritized == [] && r.value.history == []
  {
    LoadSaved(m, taskOrder, epicOrder, subtaskOrder);
    RereadContents(m, taskOrder, epicOrder, subtaskOrder);
    SavedCounter(m, taskOrder, epicOrder, subtaskOrder);
  }

  /** A reloaded counter `next` against the saved state `m`: it is no
      larger than the counter `m` had; unless some id is
      `Integer.MAX_VALUE` it is past every id and follows the largest one
      (or is 1 when there are none); otherwise it has wrapped round to
      `Integer.MIN_VALUE`. */
  ghost predicate CounterAfter(m: State, next: int) {
    && next <= m.nextId
    && (INT_MAX !in Keys(m) ==>
          && (forall k :: k in Keys(m) ==> k < next)
          && (next == 1 || next - 1 in Keys(m)))
    && (INT_MAX in Keys(m) ==> next == INT_MIN)
  }

  /** The counter part of `SaveLoad`. */
  lemma SavedCounter(m: State, taskOrder: seq<int>, epicOrder: seq<int>, subtaskOrder: seq<int>)
    requires StoreValid(m) && AllWritable(m)
    requires Enumerates(taskOrder, m.tasks) && Enumerates(epicOrder, m.epics)
    requires Enumerates(subtaskOrder, m.subtasks)
    ensures var r := Load(Save(m, taskOrder, epicOrder, subtaskOrder));
      r.Ok? && CounterAfter(m, r.value.nextId)
  {
    LoadSaved(m, taskOrder, epicOrder, subtaskOrder);
    var l := Reread(m, taskOrder, epicOrder, subtaskOrder);
    RereadContents(m, taskOrder, epicOrder, subtaskOrder);
    CounterWraps(m, taskOrder + epicOrder + subtaskOrder, l.maxId);
  }

  /** The largest id written is an id of the state, covers them all, and is
      below the counter. */
  lemma CounterCovers(m: State, all: seq<int>, maxId: int)
    requires StoreValid(m)
    requires forall k :: k in all <==> k in Keys(m)
    requires MaxCovers(0, all, maxId)
    ensures forall k :: k in Keys(m) ==> k <= maxId
    ensures maxId + 1 <= m.nextId
    ensures maxId == 0 || maxId in Keys(m)
  {
    forall k | k in Keys(m)
      ensures k <= maxId
    {
      var i :| 0 <= i < |all| && all[i] == k;
    }
  }
  /** The counter one past the largest id, in 32-bit arithmetic: past every
      id unless the largest is `Integer.MAX_VALUE`, which wraps it round to
      `Integer.MIN_VALUE`. */
  lemma CounterWraps(m: State, all: seq<int>, maxId: int)
    requires StoreValid(m) && AllWritable(m)
    requires forall k :: k in all <==> k in Keys(m)
    requires MaxCovers(0, all, maxId)
    ensures CounterAfter(m, WrapInt(maxId + 1))
  {
    CounterCovers(m, all, maxId);
    assert IsInt(maxId) by {
      if maxId in m.tasks { assert Writable(m.tasks[maxId]); }
      else if maxId in m.epics { assert Writable(m.epics[maxId]); }
      else if maxId in m.subtasks { assert Writable(m.subtasks[maxId]); }
    }
    if INT_MAX in Keys(m) {
      assert maxId == INT_MAX;
    }
  }


  // ---------------------------------------------------------------------
  // The file as text

  /** The header line holds no break. */
  lemma HeaderOneLine()
    ensures FileText.OneLine(HEADER)
  {
  }

  /** Every line written for writable entities is one line of text. */
  lemma LinesOneLine(order: seq<int>, store: map<int, Item>)
    requires forall k :: k in store ==> Writable(store[k])
    requires forall i :: 0 <= i < |order| ==> order[i] in store
    ensures FileText.AllOneLine(Lines(order, store))
  {
    forall i | 0 <= i < |order|
      ensures FileText.OneLine(Lines(order, store)[i])
    {
      var k := order[i];
      assert k in store;
      LinesAt(order, store, i);
      EncodeOneLine(store[k]);
    }
  }

  /** Reading the text `save` writes gives back the lines it wrote, as long
      as every entity is writable. */
  lemma SavedText(m: State, taskOrder: seq<int>, epicOrder: seq<int>, subtaskOrder: seq<int>)
    requires AllWritable(m)
    requires Enumerates(taskOrder, m.tasks) && Enumerates(epicOrder, m.epics)
    requires Enumerates(subtaskOrder, m.subtasks)
    ensures FileText.ReadLines(FileText.Text(Save(m, taskOrder, epicOrder, subtaskOrder)))
         == Save(m, taskOrder, epicOrder, subtaskOrder)
  {
    var a, b, c := Lines(taskOrder, m.tasks), Lines(epicOrder, m.epics), Lines(subtaskOrder, m.subtasks);
    LinesOneLine(taskOrder, m.tasks);
    LinesOneLine(epicOrder, m.epics);
    LinesOneLine(subtaskOrder, m.subtasks);
    HeaderOneLine();
    FileText.AllOneLineConcat(a, b);
    FileText.AllOneLineConcat(a + b, c);
    FileText.AllOneLineConcat([HEADER], a + b + c);
    FileText.ReadText(Save(m, taskOrder, epicOrder, subtaskOrder));
  }

  /** `SaveLoad` over the text of the file: writing the lines, reading them
      back with `readLine` and loading them gives the same result. */
  lemma SaveLoadText(m: State, taskOrder: seq<int>, epicOrder: seq<int>, subtaskOrder: seq<int>)
    requires StoreValid(m) && AllWritable(m)
    requires Enumerates(taskOrder, m.tasks) && Enumerates(epicOrder, m.epics)
    requires Enumerates(subtaskOrder, m.subtasks)
    ensures var r := Load(FileText.ReadLines(FileText.Text(Save(m, taskOrder, epicOrder, subtaskOrder))));
      && r.Ok?
      && Reproduces(r.value.tasks, r.value.epics, r.value.subtasks, m, subtaskOrder)
      && CounterAfter(m, r.value.nextId)
      && r.value.prioritized == [] && r.value.history == []
  {
    SavedText(m, taskOrder, epicOrder, subtaskOrder);
    SaveLoad(m, taskOrder, epicOrder, subtaskOrder);
  }

  /** A task whose description holds a line break is saved as two lines of
      text; loading the file then fails on the second, whose id field is
      whatever followed the break. */
  lemma LineBreakFailsLoad(t: Item, a: string, b: string)
    requires t.Task? && t.id == 1 && t.status == NEW && t.description == a + "\n" + b
    requires ',' !in t.name && ',' !in a && ',' !in b
    requires FileText.OneLine(t.name) && FileText.OneLine(a) && FileText.OneLine(b)
    requires ParseInt(b).Err?
    ensures var m := State(map[1 := t], map[], map[], 2, [], []);
      && !Writable(t)
      && Load(FileText.ReadLines(FileText.Text(Save(m, [1], [], [])))) == Err(BadNumber(b))
  {
    var m := State(map[1 := t], map[], map[], 2, [], []);
    var first := Join(["1", "TASK", t.name, "NEW", a]);
    var second := b + ",";
    LineBreakInDescription(t, a, b);
    SavedOne(m, t);
    SplitText(t.name, a, b);
    assert first[0] == '1' by {
      JoinFive(["1", "TASK", t.name, "NEW", a]);
    }
    assert second[|second| - 1] == ',';
    SecondLineFails(HEADER, first, second, Task(1, t.name, a, NEW, None, None), BadNumber(b));
  }

  /** The file saved for a single task. */
  lemma SavedOne(m: State, t: Item)
    requires t.Task? && m == State(map[t.id := t], map[], map[], m.nextId, m.prioritized, m.history)
    ensures Save(m, [t.id], [], []) == [HEADER, Encode(t)]
  {
    assert Lines([t.id], m.tasks) == [Encode(t)];
  }

  /** A file whose first entity line reads and whose second is refused
      fails to load with the second line's error. */
  lemma SecondLineFails(header: string, first: string, second: string, i: Item, e: CsvError)
    requires !IsBlank(first) && Decode(first) == Ok(i)
    requires !IsBlank(second) && Decode(second) == Err(e)
    ensures Load([header, first, second]) == Err(e)
  {
    assert [header, first, second][1..] == [first, second];
    TwoLines(Decode, Loader(map[], map[], map[], 0), first, second, i, e);
  }

  /** The read loop over two lines, the first read and the second
      refused. */
  lemma TwoLines(parse: LineDecoder, acc: Loader, first: string, second: string, i: Item, e: CsvError)
    requires !IsBlank(first) && parse(first) == Ok(i)
    requires !IsBlank(second) && parse(second) == Err(e)
    ensures ReadAll(parse, acc, [first, second]) == Err(e)
  {
    var next := Put(acc, i);
    assert [first, second][1..] == [second] && [second][1..] == [];
    assert ReadEntity(parse, next, [second]) == Continue(parse, next, Err(e), []) == Err(e);
    assert ReadAll(parse, next, [second]) == Err(e);
    assert ReadEntity(parse, acc, [first, second]) == Continue(parse, acc, Ok(i), [second]);
  }

  /** The text of that file reads as three lines. */
  lemma SplitText(name: string, a: string, b: string)
    requires FileText.OneLine(name) && FileText.OneLine(a) && FileText.OneLine(b)
    ensures var first := Join(["1", "TASK", name, "NEW", a]);
      FileText.ReadLines(FileText.Text([HEADER, first + "\n" + (b + ",")])) == [HEADER, first, b + ","]
  {
    var f := ["1", "TASK", name, "NEW", a];
    JoinOneLine(f);
    FileText.OneLineConcat(b, ",");
    HeaderOneLine();
    FileText.BreakSplits(HEADER, Join(f), b + ",");
  }
}

=== FILE: tasks.dfy ===
/** The entity records: `Task`, its subclasses `Epic` and `Subtask`, and the
    two enums they use.  Java's class hierarchy becomes one datatype with a
    constructor per class; the fields the three share carry the same names,
    so `i.id` or `i.status` reads the same on every kind.

    Time is counted in whole minutes: `startTime` is a point in time and
    `duration` a length, both optional (`null` in Java). */
module Tasks {
  import opened Wrappers

  datatype Status = NEW | IN_PROGRESS | DONE

  datatype TaskType = TASK | EPIC | SUBTASK

  datatype Item =
    | Task(id: int, name: string, description: string, status: Status,
           startTime: Option<int>, duration: Option<int>)
    | Epic(id: int, name: string, description: string, status: Status,
           startTime: Option<int>, duration: Option<int>,
           endTime: Option<int>, subtaskIds: seq<int>)
    | Subtask(id: int, name: string, description: string, status: Status,
              startTime: Option<int>, duration: Option<int>, epicId: int)

  const INT_MIN: int := -0x8000_0000
  const INT_MAX: int := 0x7fff_ffff

  /** Java's 32-bit `int` range. */
  predicate IsInt(n: int) {
    INT_MIN <= n <= INT_MAX
  }

  /** Two's-complement wrap-around of an unbounded integer to Java `int`. */
  function WrapInt(n: int): (r: int)
    ensures IsInt(r)
    ensures IsInt(n) ==> r == n
    ensures (r - n) % 0x1_0000_0000 == 0
  {
    (n - INT_MIN) % 0x1_0000_0000 + INT_MIN
  }

  /** `getType()`: a subtask always reports SUBTASK, whatever else holds. */
  function TypeOf(i: Item): (t: TaskType)
    ensures t == TASK <==> i.Task?
    ensures t == EPIC <==> i.Epic?
    ensures t == SUBTASK <==> i.Subtask?
  {
    match i
    case Task(_, _, _, _, _, _) => TASK
    case Epic(_, _, _, _, _, _, _, _) => EPIC
    case Subtask(_, _, _, _, _, _, _) => SUBTASK
  }

  /** `getEndTime()`.  For a task or subtask it is derived from the start and
      the duration and is defined only when both are; an epic keeps the end
      its subtasks gave it. */
  function EndTime(i: Item): (r: Option<int>)
    ensures !i.Epic? ==> (r.Some? <==> i.startTime.Some? && i.duration.Some?)
    ensures !i.Epic? && r.Some? ==> r.value - i.startTime.value == i.duration.value
    ensures i.Epic? ==> r == i.endTime
  {
    if i.Epic? then i.endTime
    else if i.startTime.Some? && i.duration.Some? then Some(i.startTime.value + i.duration.value)
    else None
  }

  // ---------------------------------------------------------------------
  // Identity

  /** `equals`: two entities are equal exactly when their ids are. */
  predicate SameTask(a: Item, b: Item)
    ensures a == b ==> SameTask(a, b)
    ensures SameTask(a, b) ==> HashCode(a) == HashCode(b)
  {
    a.id == b.id
  }

  /** `hashCode` is `Objects.hash(id)`, that is `31 + id` in 32-bit
      arithmetic. */
  function HashCode(i: Item): (h: int)
    ensures IsInt(h)
    ensures IsInt(i.id) && i.id < INT_MAX - 30 ==> h == 31 + i.id
  {
    WrapInt(31 + i.id)
  }

  /** Equality by id ignores every other field and agrees with `hashCode`. */
  lemma SameTaskByIdOnly(a: Item, b: Item)
    requires a.id == b.id
    ensures SameTask(a, b) && SameTask(b, a)
    ensures HashCode(a) == HashCode(b)
  {
  }

  /** `equals` is an equivalence relation. */
  lemma SameTaskIsEquivalence(a: Item, b: Item, c: Item)
    ensures SameTask(a, a)
    ensures SameTask(a, b) ==> SameTask(b, a)
    ensures SameTask(a, b) && SameTask(b, c) ==> SameTask(a, c)
  {
  }

  // ---------------------------------------------------------------------
  // Constructors

  /** `new Task(name, description, status)`: a TASK whose id stays 0 until
      the manager assigns one, with no time window. */
  function NewTask(name: string, description: string, status: Status): (t: Item)
    ensures TypeOf(t) == TASK && t.id == 0
    ensures t.name == name && t.description == description && t.status == status
    ensures t.startTime.None? && t.duration.None? && EndTime(t).None?
  {
    Task(0, name, description, status, None, None)
  }

  /** `new Subtask(name, description, status, epicId)`. */
  function NewSubtask(name: string, description: string, status: Status, epicId: int): (s: Item)
    ensures TypeOf(s) == SUBTASK && s.id == 0 && s.epicId == epicId
    ensures s.name == name && s.description == description && s.status == status
    ensures s.startTime.None? && s.duration.None? && EndTime(s).None?
  {
    Subtask(0, name, description, status, None, None, epicId)
  }

  /** `new Epic(name, description, id)`: a fresh epic is NEW and lists no
      subtasks. */
  function NewEpic(name: string, description: string, id: int): (e: Item)
    ensures TypeOf(e) == EPIC && e.id == id && e.status == NEW
    ensures e.name == name && e.description == description
    ensures e.subtaskIds == []
  {
    Epic(id, name, description, NEW, None, None, None, [])
  }

  // ---------------------------------------------------------------------
  // Setters: each one changes its own field; putting the old value back
  // gives the original entity, so nothing else moved.

  function SetName(i: Item, name: string): (r: Item)
    ensures r.name == name && TypeOf(r) == TypeOf(i) && SameTask(r, i)
    ensures r.(name := i.name) == i
  {
    i.(name := name)
  }

  function SetDescription(i: Item, description: string): (r: Item)
    ensures r.description == description && TypeOf(r) == TypeOf(i) && SameTask(r, i)
    ensures r.(description := i.description) == i
  {
    i.(description := description)
  }

  function SetStatus(i: Item, status: Status): (r: Item)
    ensures r.status == status && TypeOf(r) == TypeOf(i) && SameTask(r, i)
    ensures r.(status := i.status) == i
  {
    i.(status := status)
  }

  function SetId(i: Item, id: int): (r: Item)
    ensures r.id == id && TypeOf(r) == TypeOf(i)
    ensures r.(id := i.id) == i
  {
    i.(id := id)
  }

  /** A subtask's epic id is fixed at construction: no setter touches it. */
  lemma EpicIdSurvivesSetters(s: Item, name: string, description: string, status: Status, id: int)
    requires s.Subtask?
    ensures SetName(s, name).epicId == s.epicId
    ensures SetDescription(s, description).epicId == s.epicId
    ensures SetStatus(s, status).epicId == s.epicId
    ensures SetId(s, id).epicId == s.epicId
    ensures TypeOf(SetStatus(SetName(s, name), status)) == SUBTASK
  {
  }

  // ---------------------------------------------------------------------
  // An epic's list of subtask ids

  /** Position of the first occurrence of `x` in `s`. */
  function FirstIndex(s: seq<int>, x: int): (k: nat)
    requires x in s
    ensures k < |s| && s[k] == x && x !in s[..k]
  {
    if s[0] == x then 0
    else
      var k := FirstIndex(s[1..], x);
      assert s[..k + 1] == [s[0]] + s[1..][..k];
      k + 1
  }

  /** `List.remove(Integer)`: drops the first occurrence of `x`, by value,
      and keeps everything else in order. */
  function RemoveFirst(s: seq<int>, x: int): (r: seq<int>)
    ensures x !in s ==> r == s
    ensures x in s ==> r == s[..FirstIndex(s, x)] + s[FirstIndex(s, x) + 1..]
  {
    if |s| == 0 then []
    else if s[0] == x then s[1..]
    else
      var rest := RemoveFirst(s[1..], x);
      if x in s[1..] then
        ConsRemoved(s, x);
        [s[0]] + rest
      else
        assert s == [s[0]] + s[1..];
        [s[0]] + rest
  }

  /** Past a first element that is not `x`, the first occurrence of `x`
      moves one place and removing it commutes with putting that element
      back. */
  lemma ConsRemoved(s: seq<int>, x: int)
    requires |s| > 0 && s[0] != x && x in s[1..]
    ensures var k := FirstIndex(s[1..], x);
      [s[0]] + (s[1..][..k] + s[1..][k + 1..]) == s[..FirstIndex(s, x)] + s[FirstIndex(s, x) + 1..]
  {
    var k := FirstIndex(s[1..], x);
    assert FirstIndex(s, x) == k + 1;
    assert s[..k + 1] == [s[0]] + s[1..][..k];
    assert s[k + 2..] == s[1..][k + 1..];
  }

  /** Removing the first occurrence takes exactly one copy out of the
      multiset of ids. */
  lemma {:induction false} RemoveFirstMultiset(s: seq<int>, x: int)
    ensures multiset(RemoveFirst(s, x)) == multiset(s) - multiset{x}
    ensures x in s ==> |RemoveFirst(s, x)| == |s| - 1
  {
    if x in s {
      var k := FirstIndex(s, x);
      var a, b := s[..k], s[k + 1..];
      SplitAt(s, k);
      assert multiset(s) == multiset(a) + multiset{x} + multiset(b);
      assert multiset(a + b) == multiset(a) + multiset(b);
    } else {
      assert multiset(s)[x] == 0;
    }
  }

  lemma SplitAt(s: seq<int>, k: nat)
    requires k < |s|
    ensures s == s[..k] + [s[k]] + s[k + 1..]
  {
  }

  /** `addSubtaskId`: appends at the end of the list. */
  function AddSubtaskId(e: Item, id: int): (r: Item)
    requires e.Epic?
    ensures r.Epic? && SameTask(r, e)
    ensures |r.subtaskIds| == |e.subtaskIds| + 1 && r.subtaskIds[|e.subtaskIds|] == id
    ensures r.subtaskIds[..|e.subtaskIds|] == e.subtaskIds
    ensures r.(subtaskIds := e.subtaskIds) == e
  {
    e.(subtaskIds := e.subtaskIds + [id])
  }

  /** `removeSubtaskId`: removes the first occurrence of the id. */
  function RemoveSubtaskId(e: Item, id: int): (r: Item)
    requires e.Epic?
    ensures r.Epic? && SameTask(r, e)
    ensures r.(subtaskIds := e.subtaskIds) == e
    ensures id !in e.subtaskIds ==> r == e
    ensures multiset(r.subtaskIds) == multiset(e.subtaskIds) - multiset{id}
  {
    RemoveFirstMultiset(e.subtaskIds, id);
    e.(subtaskIds := RemoveFirst(e.subtaskIds, id))
  }

  /** Adding an id the epic does not list and then removing it gives the
      epic back. */
  lemma {:induction false} RemoveUndoesAdd(e: Item, id: int)
    requires e.Epic? && id !in e.subtaskIds
    ensures RemoveSubtaskId(AddSubtaskId(e, id), id) == e
  {
    RemoveFirstAfterAppend(e.subtaskIds, id);
  }

  lemma RemoveFirstAfterAppend(s: seq<int>, x: int)
    requires x !in s
    ensures RemoveFirst(s + [x], x) == s
  {
    assert x in s + [x];
    var k := FirstIndex(s + [x], x);
    assert k == |s|;
    assert (s + [x])[..k] == s;
  }
}

=== FILE: wrappers.dfy ===
/** Failure-carrying values used throughout the model in place of Java's
    `null` returns and thrown exceptions. */
module Wrappers {

  /** An optional value; `None` plays the part of Java's `null`. */
  datatype Option<+T> = None | Some(value: T)

  /** The outcome of an operation that may throw. */
  datatype Result<+T, +E> = Ok(value: T) | Err(error: E)
}
